=== FILE: README.md ===
# Extraction benchmark core, modelled in Dafny

This project models the pure logic of a benchmarking pipeline that asks a large
language model to fill in a spreadsheet row per radiology report and then scores
the answer against a hand-made ground truth. The model covers these parts:

- **Key repair** (`Validation`). The model's JSON record is reconciled with the
  template's keys:
  - missing keys get the template default;
  - misspelt keys are renamed onto the template key a fuzzy matcher proposes, in
    sorted order;
  - every other extra key is deleted.
- **Template derivation** (`Template`). A ground-truth sheet is cleaned. Columns
  named `Unnamed:…` and columns with no value are dropped. The template maps each
  surviving column to `""`.
- **Cell normalisation and comparison** (`Cells`). This covers `preprocess` and
  the ordered rule cascade of `cells_equal` over a cell that is either missing
  (`NA`) or a string.
- **Per-report scoring** (`Scoring`, `AccuracyFile`):
  - select the report's rows in both sheets;
  - correct the column names;
  - take the sorted common columns;
  - compare every cell;
  - count, compute the accuracy and list the differences in row-major order;
  - lay out the accuracy file that records all of this.
- **Aggregate report** (`Reporting`). Each accuracy file is parsed back for its
  identifier and accuracy. The valid entries are collected. The model computes the
  mean, the median, and the first minimum and first maximum with their reports.
  It also produces the listing sorted by identifier.
- **Error distribution** (`ErrorDistribution`, `ErrorReadBack`). This is the
  line-based parser of the differences table and the compared-columns line. Each
  parsed name is normalised against the compared columns, then all names are
  counted and ranked. `ErrorReadBack` proves that the parser reads back exactly
  what the scorer wrote.
- **Identifier conventions** (`FileNames`, `Discovery`, `CheckMissing`,
  `ReportIds`):
  - the hand-written matchers for each file-name pattern;
  - report discovery in the processed and PDF directories;
  - the PDF lookup;
  - the cross-check of PDFs, accuracy files and ground truth;
  - identifier formatting (`RRI002` → `RRI 002`) and the model-name slug.
- **Model call glue** (`Api`, `Workflow`):
  - the token budget default;
  - Markdown fence stripping of a reply;
  - stamping the report identifier onto the parsed record;
  - the argument list handed to each pipeline script;
  - the success and failure tally.

Everything the Python code reads from disk is an input of the model:

- A directory is `Option<set<string>>` (or `Option<seq<string>>` where listing
  order matters). `None` means the directory is missing.
- A file is `Option<seq<string>>` of lines. `None` means it cannot be read.
- A sheet is a `Tables.Table` of `Cells.Cell`.

The library calls with no logic of their own to model become parameters:

- Numeric parsing and `np.isclose` are the oracle `Cells.Numeric`.
- `float()` on an accuracy is `parse`.
- The four-decimal rendering is `fixed4`.
- `difflib.get_close_matches` is `Validation.Matcher`.

Python's string order is `Order.Less` (code-point lexicographic). `sorted` of a set
is `Order.SortedElements`, and `sorted` of a list is `Sorting.SortBy`.

The code's own behaviour is followed wherever it differs from what a reader might
expect. There are three such places:

- `cells_equal` has no `"null"` among its unspecified words.
- The missing-value pattern of `preprocess` is case-sensitive, although its comment
  says otherwise.
- Extracted rows are selected by the spaced identifier `RRI 002` before any
  whitespace is removed.

## Model

| member | source | states |
|---|---|---|
| Validation.GetKeys | src/data_validation.py:25-29 | A record that failed to load has no keys; a loaded record has exactly its top-level keys. |
| Validation.FindSimilarKeys | src/data_validation.py:31-39 | An extra key is mapped iff the matcher proposes a template key for it at the configured cutoff and that key is different from it; every target is a template key. |
| Validation.Diff | src/data_validation.py:56-63 | The missing keys are the template keys the record lacks; the extra keys split into disjoint rename and delete sets; every rename goes to a different template key. |
| Validation.FillMissing | src/data_validation.py:67-70 | Filling adds exactly the missing keys, each with the template's value, and leaves every other entry as it was. |
| Validation.ApplyRenamesKeys | src/data_validation.py:72-77 | After the sorted rename walk a key is present iff it was present and not renamed away, or some wrong key was renamed onto it. |
| Validation.ApplyRenamesLastWins | src/data_validation.py:74-77 | When several wrong keys are renamed onto one key, the value of the greatest of them, the last one walked, ends up there. |
| Validation.ApplyRenamesUntouched | src/data_validation.py:74-77 | A key the walk neither removes nor renames onto keeps its value. |
| Validation.RepairKeys | src/data_validation.py:56-84 | The repaired record's key set equals the template's key set exactly. |
| Validation.WinnerExists | src/data_validation.py:74-77 | Whenever some wrong key is renamed onto a key, a greatest such wrong key exists, so the winning value is well defined. |
| Validation.ReconcileValue | src/data_validation.py:65-84 | A template key holds the value of the greatest wrong key renamed onto it, which overwrites a default or a value already present. Without such a rename it holds the record's own value, or else the template default. |
| Validation.ReconcileConforming | src/data_validation.py:59-84 | A record whose keys already equal the template's comes back unchanged. |
| Validation.CheckAndFix | src/data_validation.py:42-84 | A repaired record exists iff both files loaded, and then its keys are exactly the template's. |
| Validation.CheckAndFixIdempotent | src/data_validation.py:42-84 | Repairing an already repaired record against the same template changes nothing. |
| Template.HasValue | src/data_extraction.py:50 | A column has a value iff some row has a non-missing cell in it. |
| Template.Clean | src/data_extraction.py:48-50 | The surviving columns are exactly those not named `Unnamed:…` that have a value, kept in their original order. Every row keeps exactly its cells in those columns, and the row count is kept. |
| Template.CleanColumnsHaveValues | src/data_extraction.py:50 | Every column of the cleaned sheet has a present cell. |
| Template.CleanIdempotent | src/data_extraction.py:48-50 | Cleaning a cleaned sheet changes nothing. |
| Template.MakeTemplate | src/data_extraction.py:51-69 | The template's keys are exactly the surviving columns, each mapped to the empty string. |
| Template.ExtractAndClean | src/data_extraction.py:14-69 | A result exists iff the sheet could be read, and then the template's keys are the cleaned sheet's columns. |
| Template.RepairAgainstTemplate | src/data_validation.py:65-77 | Repairing against a derived template yields its columns as keys, and a column the record lacks and nothing is renamed onto holds `""`. |
| Cells.Preprocess | src/evaluation.py:21-32 | A cell becomes missing iff its stripped text is empty or exactly one of the lower-case missing tokens; otherwise it is its stripped, non-empty text. |
| Cells.PreprocessIdempotent | src/evaluation.py:21-32 | Normalising a normalised cell changes nothing. |
| Cells.PreprocessCaseSensitive | src/evaluation.py:27-31 | The token match is case-sensitive: `NaN` and `N/A` stay text, while `n/a` and a missing cell become missing. |
| Cells.Classify | src/evaluation.py:70-73 | A comparable string is true-like iff it is `1` or a true word, and false-like iff it is `0` or a false word; never both. |
| Cells.CellsEqual | src/evaluation.py:45-65 | Two missing cells are equal; one missing cell equals the other iff the other's stripped lower-cased text is an unspecified word or `0`. |
| Cells.PolarityDecides | src/evaluation.py:69-80 | For two present values, equal non-neutral polarity means equal and opposite polarity means unequal, before any numeric or string rule. |
| Cells.NumericRule | src/evaluation.py:82-86 | When polarity does not decide and both values parse as numbers, numeric closeness decides. |
| Cells.StringFallback | src/evaluation.py:82-89 | When polarity does not decide and not both parse, the result is equality ignoring case and surrounding whitespace. |
| Cells.CellsEqualSymmetric | src/evaluation.py:34-89 | The comparison is symmetric whenever numeric closeness is. |
| Cells.CellsEqualReflexive | src/evaluation.py:34-89 | Every cell equals itself whenever every number is close to itself. |
| Cells.MissingVersus | src/evaluation.py:57-65 | A missing cell against text with comparable form `c` is equal iff `c` is an unspecified word or `0`. |
| Cells.MissingEqualsZero | src/evaluation.py:60-64 | A missing cell equals a padded `0`. |
| Cells.MissingEqualsUpperNA | src/evaluation.py:29-64 | `N/A` survives normalisation as text, yet the comparison still equates it with a missing cell. |
| Cells.MissingDiffersFromNull | src/evaluation.py:52-65 | `null` is not an unspecified word, so a missing cell does not equal it. |
| Cells.OneMatchesYes | src/evaluation.py:69-77 | `1` equals `Yes`. |
| Cells.OneDiffersFromNo | src/evaluation.py:69-80 | `1` never equals `No`, whatever the numeric oracle says. |
| Tables.FirstPresent | src/evaluation.py:127-131 | The identifier column is the first candidate the sheet has; there is none iff the sheet has no candidate. |
| Scoring.StandardizeColumns | src/evaluation.py:15-19 | A name in the correction table is replaced by its correction and every other name is kept, position by position. |
| Scoring.StandardizeIdempotent | src/evaluation.py:15-19 | No correction is itself a misspelling, so standardising twice is standardising once. |
| Scoring.StandardizeKeepsIdColumns | src/config.py:62-68 | The identifier columns are never renamed. |
| Scoring.RowsWithIdKeeps | src/evaluation.py:139-140 | Every row whose identifier cell is the report is kept, as often as it occurs. |
| Scoring.RowsWithIdEmpty | src/evaluation.py:139-146 | The selection is empty iff no row's identifier cell is the report. |
| Scoring.SelectRows | src/evaluation.py:133-146 | Every selected row has the report in its stripped identifier cell; nothing is selected iff no row's stripped identifier reads the report. |
| Scoring.CommonColumns | src/evaluation.py:153 | The compared columns are strictly ascending and are exactly the names both sheets have. |
| Scoring.Align | src/evaluation.py:166-174 | Every row is cut to the compared columns in order, each read at its first occurrence; the sheet's own identifier column loses all whitespace. |
| Scoring.CorrectMask | src/evaluation.py:186-191 | The verdict at each position is the comparison of the two normalised cells there. |
| Scoring.Mismatches | src/evaluation.py:227 | The listed positions are exactly the false verdicts, in row-major order, and they number the cells minus the correct ones. |
| Scoring.AllCorrectIffNoMismatch | src/evaluation.py:203-206 | All cells count as correct iff every verdict is true. |
| Scoring.Differences | src/evaluation.py:225-238 | There is one difference per false verdict in row-major order, carrying the column name and both aligned values from before normalisation. |
| Scoring.DifferenceColumns | src/evaluation.py:234-235 | Every difference names a compared column. |
| Scoring.Accuracy | src/evaluation.py:206 | The accuracy times the total is the correct count, it is 0 for no cells, it lies in [0, 1], and it is 1 iff there are cells and all are correct. |
| Scoring.Tally | src/evaluation.py:186-238 | The total is rows × columns. The correct count is the number of true verdicts. The incorrect count is the number of false positions, which are listed in row-major order. The differences are exactly those positions' entries, each naming a compared column. All cells are correct iff every verdict is true, and the accuracy is correct over total. |
| Scoring.Evaluate | src/evaluation.py:93-146 | A missing identifier column and a missing report row, in either sheet, are each reported exactly when they occur, in the code's order. Once both sheets have rows for the report, the result is that of `Scoring.Compare`. |
| Scoring.Compare | src/evaluation.py:148-206 | A shape error is reported iff the two sheets have different numbers of report rows. Nothing-to-compare is reported iff the counts agree but no corrected column name is shared. There is no other error, so otherwise the report is scored. The score is the tally of the cell-by-cell verdicts on both sheets' aligned rows, over the sorted, non-empty intersection of the corrected names. |
| Scoring.UnspacedExtractedIdNotFound | src/evaluation.py:139-146 | An extracted sheet whose identifier cells read `RRI002` is reported as having no row for the report, even when the ground truth has one. |
| Scoring.SelfComparisonPerfect | src/evaluation.py:186-206 | A sheet compared with itself scores 1.0 with no differences when every number is close to itself. |
| AccuracyFile.HeaderLines | src/evaluation.py:216-223 | The header is eight lines. It opens with the spaced identifier, lists the compared columns joined by commas third, and closes with the accuracy in its four-decimal rendering. |
| AccuracyFile.FileLines | src/evaluation.py:215-253 | The file is the header alone when every cell agrees; otherwise the header, a blank line, the marker and the table follow. |
| AccuracyFile.DifferenceTable | src/evaluation.py:239-247 | The psql table is a rule, the header row, a rule, one row per difference and a closing rule without a newline. |
| Reporting.SecondFieldIsSplit | src/reporting.py:38 | The field read from a key line is the second piece of `split(":")`. |
| Reporting.FieldValue | src/reporting.py:38-41 | A field value is stripped and holds no colon. |
| Reporting.ScanLinesId | src/reporting.py:36-38 | The identifier comes from the last identifier line, and is absent iff there is no such line. |
| Reporting.ScanLinesAccuracy | src/reporting.py:40-46 | The accuracy is the parse of the last accuracy line in either language, so a later unparsable line discards an earlier good one; it is absent without such a line. |
| Reporting.ScanLinesIgnores | src/reporting.py:36-46 | Lines that carry neither key change nothing. |
| Reporting.ExtractAccuracy | src/reporting.py:29-58 | An unreadable file gives nothing; otherwise the identifier is the scan's, and an accuracy is returned iff both were found. |
| Reporting.ExtractWrittenFile | src/reporting.py:29-58 | Reading back the file the scorer writes gives its spaced identifier and its parsed accuracy. |
| Reporting.EntryFor | src/reporting.py:80-86 | A file contributes iff it has a valid accuracy, under its own identifier or, when that is empty, the identifier derived from its name. |
| Reporting.FallbackFromFileName | src/reporting.py:84 | A blank identifier falls back to the file name without `_accuracy.txt` and without spaces. |
| Reporting.TextFiles | src/reporting.py:72 | The files read are exactly the `.txt` names, in ascending order. |
| Reporting.CollectEntries | src/reporting.py:78-86 | The collected entries are exactly the entries of the files that have one; nothing is collected iff no file has an entry. |
| Reporting.Mean | src/reporting.py:94 | The mean times the count is the sum. |
| Reporting.MeanBetween | src/reporting.py:94 | The mean lies within any bounds of the accuracies. |
| Reporting.Median | src/reporting.py:95 | The median is the middle of a sorted rearrangement, or the mean of the two middle values. |
| Reporting.MedianBetween | src/reporting.py:95 | The median lies within any bounds of the accuracies. |
| Reporting.ConstantStatistics | src/reporting.py:94-98 | When all accuracies are equal, the mean and the median are that accuracy. |
| Reporting.ArgMin | src/reporting.py:97-99 | The index points at a least accuracy, and no earlier index does. |
| Reporting.ArgMax | src/reporting.py:98-100 | The index points at a greatest accuracy, and no earlier index does. |
| Reporting.EntryOrder | src/reporting.py:127 | The (identifier, accuracy) order is total and tie-free, so the sorted listing is unique. |
| Reporting.Summarize | src/reporting.py:93-129 | The summary holds the count, the mean and the median, both within the extremes, and the first extremes with their reports. The listing is a sorted rearrangement of the entries. |
| Reporting.GenerateReport | src/reporting.py:61-129 | A missing directory, no `.txt` file and no valid accuracy are each reported exactly when they occur; otherwise the summary is that of the collected entries. |
| ErrorDistribution.FindMarkerSome | src/analyze_error_distribution.py:55-59 | A found line strips to the marker, and no line before it does. |
| ErrorDistribution.FindMarkerNone | src/analyze_error_distribution.py:55-62 | Nothing is found iff no line strips to the marker. |
| ErrorDistribution.HeaderColumnMeans | src/analyze_error_distribution.py:69-81 | A header line mentions `Column` and has it as a cell; its column is the first such cell. |
| ErrorDistribution.FindHeaderMeans | src/analyze_error_distribution.py:68-89 | The header search fails iff no line of the window is a header line; otherwise it reports the first one's column and where its data starts. |
| ErrorDistribution.NoHeaderNoNames | src/analyze_error_distribution.py:68-93 | A file with no header line among the four lines after the marker yields no names. |
| ErrorDistribution.BeforeDoubleSpace | src/analyze_error_distribution.py:112-114 | The name is the longest prefix without two adjacent blanks, cut right where two blanks start. |
| ErrorDistribution.FirstLongest | src/analyze_error_distribution.py:127 | The choice is one of the candidates, no candidate is longer, and every candidate before it is shorter, so the first of the longest wins. |
| ErrorDistribution.Normalize | src/analyze_error_distribution.py:116-127 | Without compared columns, or for a compared column, the name is kept; otherwise it stays or becomes a compared column. |
| ErrorDistribution.NormalizeMeans | src/analyze_error_distribution.py:116-127 | A name is replaced iff it is not compared but is part of a compared column. The replacement is a compared column that contains it and is the first of the longest such columns. |
| ErrorDistribution.ParseErrorColumns | src/analyze_error_distribution.py:32-135 | An unreadable file or one without the marker yields no names. |
| ErrorDistribution.ComparedFrom | src/analyze_error_distribution.py:183-195 | Every compared column read is non-empty, stripped and free of commas. |
| ErrorDistribution.Counts | src/analyze_error_distribution.py:211 | The counted names are distinct. |
| ErrorDistribution.CountsCount | src/analyze_error_distribution.py:211 | Every counted name occurs in the input, exactly as often as its count says. |
| ErrorDistribution.CountsCover | src/analyze_error_distribution.py:211 | Every name of the input is counted. |
| ErrorDistribution.CountsTotal | src/analyze_error_distribution.py:211 | The counts add up to the number of names. |
| ErrorDistribution.Ranking | src/analyze_error_distribution.py:212-213 | The ranking is a rearrangement of the counts in non-increasing order of frequency. |
| ErrorDistribution.RankingCount | src/analyze_error_distribution.py:211-213 | Every ranked name occurs in the input exactly as often as its ranked count. |
| ErrorDistribution.RankingCover | src/analyze_error_distribution.py:211-213 | Every name of the input is ranked. |
| ErrorDistribution.RankingDistinct | src/analyze_error_distribution.py:211-213 | No name is ranked twice. |
| ErrorDistribution.Analyze | src/analyze_error_distribution.py:160-213 | A missing directory, no `.txt` file and no error at all are each reported exactly when they occur; otherwise the table ranks every error name of all files by its number of occurrences. |
| ErrorReadBack.SplitJoinedNames | src/analyze_error_distribution.py:190 | Splitting at commas, stripping and dropping empty pieces undoes `', '.join` for plain names. |
| ErrorReadBack.ComparedReadBack | src/analyze_error_distribution.py:179-195 | The compared-columns pre-parse recovers exactly the columns the scorer wrote. |
| ErrorReadBack.DifferencesReadBack | src/analyze_error_distribution.py:32-135 | The table parser recovers the column of every written difference, in order, each normalised; a file without differences yields none. |
| ErrorReadBack.ErrorsReadBack | src/analyze_error_distribution.py:176-202 | A written file read back with its own compared columns yields exactly the columns of its differences. |
| CheckMissing.ExpectedIds | src/check_missing.py:11-36 | A set exists iff the directory does, and every expected identifier is `RRI` and three digits. |
| CheckMissing.ExpectedFromPdfName | src/check_missing.py:16-30 | A PDF spelt `RRI`, an optional blank, three digits and `.pdf`, in any case, makes the upper-case `RRI` and those digits expected. |
| CheckMissing.SuccessfulIds | src/check_missing.py:38-63 | A set exists iff the directory does, and it holds exactly the identifiers of the accuracy-file names. |
| CheckMissing.SuccessfulFromAccuracyName | src/check_missing.py:43-57 | The file `RRI 002_accuracy.txt` counts `RRI002` as successful. |
| CheckMissing.GroundTruthIds | src/check_missing.py:66-107 | A set exists iff the sheet was read and has an identifier column; it holds exactly the non-empty whitespace-free forms of the present cells of the first such column. |
| CheckMissing.FindMissingReports | src/check_missing.py:111-181 | With all three sources the three set differences are reported, each sorted. With ground truth alone unavailable, only PDFs minus accuracy files is reported. Otherwise nothing is. |
| CheckMissing.ProcessedReportNotMissing | src/check_missing.py:145-148 | A report whose PDF and accuracy file both exist is never listed as missing an accuracy file. |
| FileNames.CheckedPdfId | src/check_missing.py:16 | A name matches iff it is `RRI`, an optional blank, three digits and `.pdf`, ignoring case; the identifier is upper-case `RRI` and the digits. |
| FileNames.CheckedPdfIdOf | src/check_missing.py:16-30 | Every name built that way yields `RRI` and its digits. |
| FileNames.AccuracyFileId | src/check_missing.py:43-56 | A name matches iff it is `RRI`, one blank, three digits and `_accuracy.txt`, ignoring case; the identifier keeps the letters' case and drops only a plain space. |
| FileNames.PageImageId | src/main.py:199 | A match yields the first digit run, followed by `_page_`, digits and `.png`, ignoring case. |
| FileNames.PageImageIdOf | src/main.py:199-210 | Every name spelt optional `RRI`, digits, `_page_`, digits, `.png`, in any case, yields the first digits. |
| FileNames.TextFileId | src/main.py:202 | A name matches iff it is digits then `.txt`, case-sensitively; the identifier is the digits. |
| FileNames.DigitPdfId | src/main.py:286 | A name matches iff it is digits then `.pdf` in any case; the identifier is the digits. |
| FileNames.RriPdfId | src/main.py:285 | A name matches iff it is `RRI`, an optional blank, at least three digits and `.pdf`, ignoring case; the identifier is `RRI` and the digits. |
| FileNames.RriPdfIdOf | src/main.py:285-304 | Every name built that way yields `RRI` and its digits. |
| FileNames.RriStemId | src/preprocess.py:20-37 | This pattern accepts the same names; the identifier is the captured stem without a plain space, so the prefix keeps its case. |
| FileNames.RriStemIdOf | src/preprocess.py:20-37 | On a name built from its parts, the stem keeps the prefix as written and drops a plain-space blank. |
| FileNames.BensonDraftsAgree | src/preprocess.py:36-37 | For a name that spells the prefix as upper-case `RRI`, followed directly by the digits or by one space, both discovery drafts give the same identifier. |
| FileNames.BensonDraftsDifferOnCase | src/preprocess.py:20-37 | On `rri002.pdf` the drafts disagree: `RRI002` against `rri002`. |
| Discovery.DiscoverProcessedReports | src/main.py:174-217 | The identifiers are strictly ascending digit strings, and none is found for a missing directory or unknown data type. A text identifier is found iff its `.txt` file exists. An image identifier is found iff some page image names it. |
| Discovery.TextIds | src/main.py:200-210 | A text file's report is discovered iff its name is digits and `.txt`. |
| Discovery.PageImageDiscovered | src/main.py:197-210 | Every well-formed page image has its report discovered. |
| Discovery.MainPdfReportIds | src/main.py:276-312 | The identifiers are sorted and distinct. Benson gives `RRI` and at least three digits, sugo gives digits, and an unknown dataset or missing directory gives none. |
| Discovery.RriPdfIdShape | src/main.py:285-304 | A benson identifier is `RRI` and at least three digits. |
| Discovery.DigitPdfIdShape | src/main.py:286-304 | A sugo identifier is a non-empty digit string. |
| Discovery.BensonPdfFound | src/main.py:285-305 | Every benson PDF spelt `RRI`, an optional blank, at least three digits and `.pdf` is found as `RRI` and its digits. |
| Discovery.PdfReportIds | src/preprocess.py:13-42 | The identifiers are sorted and distinct, exactly those some listed file yields under the pattern; none without a pattern or directory. |
| Discovery.PreprocessPdfReportIds | src/preprocess.py:13-42 | Benson identifiers are exactly the stems of matching files, sugo agrees with the other draft, and an unknown dataset gives none. |
| Discovery.FindPdfPath | src/preprocess.py:44-60 | The lookup returns a listed file: `<id>.pdf` first. It finds nothing iff that file is missing and the id does not start with `RRI` or `RRI <rest>.pdf` is missing. |
| Discovery.SpacedPdfLocated | src/preprocess.py:44-60 | The documented case works: `RRI 002.pdf` gives `RRI002`, which is located at that file. |
| Discovery.LowerCaseSpacedPdfLost | src/preprocess.py:20-60 | `rri 002.pdf` is discovered as `rri002`, which the lookup cannot locate. |
| Discovery.LocatePdf | src/preprocess.py:44-60 | The corrected lookup returns a listed file: `<id>.pdf` first, otherwise a PDF whose identifier under the dataset's pattern is the id. |
| Discovery.EveryDiscoveredPdfLocated | src/preprocess.py:13-60 | Every discovered identifier is located by the corrected lookup. |
| ReportIds.FormatReportId | src/api_interaction.py:355 | The spaced form is the first three characters, a space and the rest, with Python's slice clamping on short identifiers. |
| ReportIds.FormatThenUnspace | src/check_missing.py:56 | Removing the spaces from a formatted space-free identifier gives it back. |
| ReportIds.AccuracyFileNameRoundTrip | src/check_missing.py:43-57 | The accuracy file named from `RRI` and three digits is read back as that identifier. |
| ReportIds.ModelSlug | src/main.py:404 | The slug has the model's length, replaces each `/` and `:` by `_`, keeps every other character, and holds neither. |
| ReportIds.ModelSlugIdempotent | src/api_interaction.py:356 | Slugging a slug changes nothing, so both scripts name the same directory. |
| Api.MaxTokens | src/api_interaction.py:44 | A configured budget is used as given; none gives 4000. |
| Api.MaxTokensSettled | src/api_interaction.py:44 | Resolving a resolved budget again changes nothing. |
| Api.StripFence | src/api_interaction.py:206-212 | The text handed to the JSON parser is always stripped. |
| Api.UnfencedOnlyStripped | src/api_interaction.py:206-212 | A reply that does not open with a fence is only stripped. |
| Api.JsonFenceRoundTrip | src/api_interaction.py:207-210 | A reply written as a "```json" block gives back exactly its stripped body. |
| Api.BareFenceRoundTrip | src/api_interaction.py:211-212 | A reply written as a bare fenced block gives back exactly its stripped body. |
| Api.InjectReportId | src/api_interaction.py:404-408 | A reply that is not an object is rejected. Otherwise "Report ID" holds the spaced identifier, replacing any value, and every other field is kept. |
| Api.InjectReportIdIdempotent | src/api_interaction.py:408 | Stamping the identifier twice is stamping it once. |
| Workflow.RunScriptArgv | src/main.py:126-136 | The command is the interpreter, the script, the dataset and the report, then each optional argument that is given, in order. |
| Workflow.SecondArgumentShifts | src/main.py:133-136 | With only the second optional argument, it lands in the first optional position. |
| Workflow.SucceededPlusFailed | src/main.py:327-332 | Every report counts as exactly one success or one failure. |
| Workflow.RunMainWorkflow | src/main.py:315-339 | With no reports nothing runs. Otherwise the total is the number of reports, the successes and failures are counted from the outcomes, and they add up to the total. |
| Order.SortedElements | src/main.py:212 | `sorted` of a set is strictly ascending and holds exactly the set's elements. |
| Sorting.SortBy | src/reporting.py:127 | The result is sorted and a rearrangement of the input. |
| Sorting.SortedUnique | src/reporting.py:127 | Under an order without ties there is only one sorted rearrangement. |
| Text.Trim | src/evaluation.py:26 | `strip()` returns an infix with no whitespace at either end, cut only at whitespace. |
| Text.Split | src/reporting.py:38 | The pieces hold no separator, there are two or more iff the separator occurs, and joining them gives the text back. |
| Text.SplitOfJoin | src/analyze_error_distribution.py:190 | Splitting undoes joining for pieces without the separator. |
| Text.RemoveWhitespace | src/check_missing.py:96 | The result holds no whitespace, every other character keeps its multiplicity, and a text without whitespace is unchanged. |
| Text.RemoveWhitespaceConcat | src/check_missing.py:96 | Removing whitespace distributes over concatenation, so the kept characters stay in their order. |
| Text.WordsJoin | src/analyze_error_distribution.py:78 | The words of `split()`, run together, are the text without its whitespace. |
| Text.NonEmptyTrimmedMembers | src/analyze_error_distribution.py:75-76 | The pieces kept are exactly the non-empty stripped parts. |
| Text.RemoveAll | src/reporting.py:84 | `replace(pat, '')` keeps every character outside the pattern with its multiplicity and never lengthens the text. |

## Left out

- File and directory access, Excel and JSON reading and writing, and console output. Listings and file contents are inputs; `None` stands for a missing directory or an unreadable file.
- Validation.GetKeys: a JSON file that loads but does not hold an object, such as a list, makes `get_keys` fail with an attribute error. A record is a map here, so that case is not modelled. `Api.InjectReportId` already rejects such replies before they are stored.
- The model clients, the prompt text and the image encoding of `src/api_interaction.py`. These are network calls and foreign libraries. Only the pure steps around the call are modelled.
- PDF-to-image or text conversion, image compression, plotting and histogram bins. These are foreign libraries and floating-point layout.
- Floating point. `float()` and `np.isclose` in `cells_equal` are the oracle `Cells.Numeric`. `float()` of an accuracy is `parse`. Its four-decimal rendering is `fixed4`. Statistics are over `real`.
- The standard deviation of `src/reporting.py:96`. It needs a square root.
- `difflib.get_close_matches`. It is the oracle `Validation.Matcher`, assumed to return nothing or one of the template keys.
- Unicode beyond ASCII in case folding and digits. `lower()` and `IGNORECASE` fold ASCII letters only, and `\d` is an ASCII digit. `\s` and `strip()` use Python's full whitespace set.
- A trailing newline in a file name. Python's `$` also matches just before one; the name matchers do not.
- The plain-text fallback when `tabulate` is not installed, multi-line cells, and wide characters in the psql table.
- AccuracyFile.DifferenceTable: draws every column as a text column, left-aligned with one space of padding and as wide as its widest entry. `tabulate` treats a column whose values all read as numbers as numeric. It right- or decimal-aligns such a column and its header, and reformats floats across the column. Neither is modelled: for example, a value column holding only `8` is drawn `| 8            |` here, where `tabulate` writes `|            8 |`. `ErrorReadBack.ErrorsReadBack` is proved for the left-aligned layout. The parser keeps only the stripped first cell of each row, so aligning the value columns differently would not change what it reads.
- Template.MakeTemplate: key order is not kept, because the template is a map. The dict and `json.dump` keep the cleaned column order. `Template.ExtractAndClean` returns the cleaned sheet alongside the template, and its columns are that order. Scoring sorts the common columns, so the key order never reaches a score.
- Api.InjectReportId: JSON key order is not kept, because a record is a map. `json.dump` writes keys in insertion order, so a newly stamped `Report ID` comes last. No score or later step depends on that order.
- Validation.CheckAndFix: JSON key order is not kept, because a record is a map. The written record keeps the surviving keys in their order and appends the filled and renamed keys. No score or later step depends on that order.
- Scoring.Align: reads each compared name at its first column. When correcting the names gives one sheet two columns with the same name, such as both the misspelt and the correct spelling of a nodule size, pandas selects every column of that name. The source then fails its shape check, or, with duplicates in both sheets, compares an extra column and misnames later differences. Sheets whose corrected names collide are not modelled.
- The re-insertion of the identifier column at `src/evaluation.py:156-163`. It can never change the column list, because the column is inserted only when it is already absent from a list that contains it.
- The summary file layout of `src/reporting.py:117-129`, beyond its statistics and sorted listing.
- The order among equally frequent names in the ranking. pandas' default sort does not promise one, so the contracts leave it open.
- Dataset configuration. `DATASET_CONFIGS` is not part of `src/config.py`, so the dataset name and its data type are parameters.
- Running the scripts and the timing log. `process_report`'s outcome for each report is an input, and the scripts' disagreement about their arguments is not modelled.
- CheckMissing.ExpectedIds: states the shape of every expected identifier; which files contribute is stated by `CheckMissing.ExpectedFromPdfName`, in one direction only.
- Discovery.MainPdfReportIds: states the shape of the identifiers; `Discovery.BensonPdfFound` gives membership in one direction, and the other draft's `Discovery.PdfReportIds` states both.
- ErrorDistribution.ParseErrorColumns: its own contract states only the empty results; the names read are stated by `ErrorReadBack.DifferencesReadBack` for the files the scorer writes, not for arbitrary text.
- ErrorDistribution.ComparedFrom: states the shape of the names; their exact value is stated by `ErrorReadBack.ComparedReadBack` for written files only.
- ErrorReadBack.ErrorsReadBack: holds for column names without commas or bars, and not for a column named `Column`, which the parser never reports.
- Cells.CellsEqual: its contract covers the missing-value rules; the rules for two present values are stated by `Cells.PolarityDecides`, `Cells.NumericRule` and `Cells.StringFallback`.

## Findings

| source | as written | input that shows it | evidently intended | confidence | as-written member | corrected member |
|---|---|---|---|---|---|---|
| src/preprocess.py:44-60 | Discovery matches the `RRI` prefix ignoring case and keeps its case in the identifier. The lookup only tries `RRI <rest>.pdf` for identifiers that start with upper-case `RRI`. | A directory holding only `rri 002.pdf`: discovery yields `rri002`, and `find_pdf_path("rri002", …)` returns `None`. | Every discovered identifier locates the PDF it came from. | medium, not executed | Discovery.FindPdfPath, Discovery.LowerCaseSpacedPdfLost | Discovery.LocatePdf, Discovery.EveryDiscoveredPdfLocated |

=== FILE: accuracy_file.dfy ===
/**
 * The per-report accuracy file that `evaluation.main` writes: a fixed header
 * of counts and the accuracy, then, when some cell disagreed, a differences
 * section.  Seen as the list of lines that `readlines` returns.
 */
module AccuracyFile {
  import opened Text
  import Cells
  import Scoring

  /** Marker line that opens the differences section (`src/evaluation.py` line 252). */
  const DifferencesMarker: string := "--- Differences ---"

  /**
   * The header written at lines 216-223.  The accuracy is shown with four
   * decimals; that rendering is the parameter `fixed4`.
   */
  function HeaderLines(s: Scoring.Score, fixed4: real -> string): (lines: seq<string>)
    ensures |lines| == 8
    ensures lines[0] == "Report ID: " + s.formattedId + "\n"
    ensures lines[2] == Join(s.columns, ", ") + "\n"
    ensures lines[7] == "Overall accuracy: " + fixed4(s.accuracy) + "\n"
  {
    ["Report ID: " + s.formattedId + "\n",
     "Compared Columns (" + Decimal(|s.columns|) + "):\n",
     Join(s.columns, ", ") + "\n",
     "\n",
     "Total comparable cells: " + Decimal(s.total) + "\n",
     "Correct cells: " + Decimal(s.correct) + "\n",
     "Incorrect cells: " + Decimal(s.incorrect) + "\n",
     "Overall accuracy: " + fixed4(s.accuracy) + "\n"]
  }

  /** The header lines one by one: a key and its value on every line but the blank fourth. */
  lemma HeaderLineForms(s: Scoring.Score, fixed4: real -> string)
    ensures var header := HeaderLines(s, fixed4);
            header[1] == "Compared Columns (" + (Decimal(|s.columns|) + "):") + "\n"
            && header[3] == "\n"
            && header[4] == "Total comparable cells: " + Decimal(s.total) + "\n"
            && header[5] == "Correct cells: " + Decimal(s.correct) + "\n"
            && header[6] == "Incorrect cells: " + Decimal(s.incorrect) + "\n"
  {
  }

  /**
   * The whole file (lines 215-253): the header and, when there are incorrect
   * cells, a blank line, the marker and the rendered table `table`.
   */
  function FileLines(s: Scoring.Score, fixed4: real -> string, table: seq<string>): (lines: seq<string>)
    ensures |lines| >= 8 && lines[..8] == HeaderLines(s, fixed4)
    ensures s.incorrect == 0 ==> lines == HeaderLines(s, fixed4)
    ensures s.incorrect > 0 ==> lines[8..] == ["\n", DifferencesMarker + "\n"] + table
  {
    var header := HeaderLines(s, fixed4);
    if s.incorrect == 0 then header
    else header + ["\n", DifferencesMarker + "\n"] + table
  }

  /** `n` copies of `c`. */
  function Repeat(c: char, n: nat): (r: string)
    ensures |r| == n && forall i :: 0 <= i < n ==> r[i] == c
  {
    if n == 0 then [] else [c] + Repeat(c, n - 1)
  }

  /**
   * One cell of a psql table laid out as text: a space of padding on each
   * side and the text filled with spaces on the right up to the column width.
   */
  function PadCell(text: string, width: nat): string
  {
    [' '] + text + Repeat(' ', if |text| < width then width - |text| else 0) + [' ']
  }

  /** The cells of a row after the opening bar, each closed by a bar. */
  function RowCells(texts: seq<string>, widths: seq<nat>): string
    requires |texts| == |widths|
  {
    if texts == [] then [] else PadCell(texts[0], widths[0]) + "|" + RowCells(texts[1..], widths[1..])
  }

  /** A psql header or data row: `| a | b |`. */
  function RenderRow(texts: seq<string>, widths: seq<nat>): string
    requires |texts| == |widths|
  {
    "|" + RowCells(texts, widths)
  }

  /** The dashes of a rule after its first character: one run per column, `+` between, `edge` last. */
  function RuleRuns(widths: seq<nat>, edge: char): string
    requires widths != []
  {
    if |widths| == 1 then Repeat('-', widths[0] + 2) + [edge]
    else Repeat('-', widths[0] + 2) + "+" + RuleRuns(widths[1..], edge)
  }

  /** A psql rule: `+---+---+` above and below the table, `|---+---|` under the header. */
  function Rule(widths: seq<nat>, edge: char): string
    requires widths != []
  {
    [edge] + RuleRuns(widths, edge)
  }

  /** Header of the differences table: the keys of each difference record (lines 232-236). */
  const DifferenceHeaders: seq<string> := ["Column", "True Value", "Extracted Value"]

  /** The cells of one difference, as the table shows them; `render` is the table's cell formatting. */
  function DifferenceTexts(d: Scoring.Difference, render: Cells.Cell -> string): seq<string>
  {
    [d.column, render(d.trueValue), render(d.extractedValue)]
  }

  /** The widest entry of column `k` of `rows`, at least `least`. */
  function Widest(rows: seq<seq<string>>, k: nat, least: nat): (w: nat)
    requires forall i :: 0 <= i < |rows| ==> k < |rows[i]|
    ensures least <= w
    ensures forall i :: 0 <= i < |rows| ==> |rows[i][k]| <= w
  {
    if rows == [] then least
    else
      var rest := Widest(rows[1..], k, least);
      assert forall i :: 1 <= i < |rows| ==> rows[i] == rows[1..][i - 1];
      if |rows[0][k]| > rest then |rows[0][k]| else rest
  }

  /**
   * The column widths of a psql table: each header plus two, or the widest
   * cell of the column when that is wider.
   */
  function Widths(headers: seq<string>, rows: seq<seq<string>>): (ws: seq<nat>)
    requires forall i :: 0 <= i < |rows| ==> |rows[i]| == |headers|
    ensures |ws| == |headers|
    ensures forall k :: 0 <= k < |headers| ==> |headers[k]| + 2 <= ws[k]
    ensures forall i, k :: 0 <= i < |rows| && 0 <= k < |headers| ==> |rows[i][k]| <= ws[k]
  {
    seq(|headers|, k requires 0 <= k < |headers| => Widest(rows, k, |headers[k]| + 2))
  }

  /** Each line of `ls` but the last ends with a newline, as `readlines` returns them. */
  function AsLines(ls: seq<string>): (r: seq<string>)
    ensures |r| == |ls|
    ensures forall i :: 0 <= i < |ls| ==> r[i] == ls[i] + (if i < |ls| - 1 then "\n" else "")
  {
    seq(|ls|, i requires 0 <= i < |ls| => ls[i] + (if i < |ls| - 1 then "\n" else ""))
  }

  /** The cell texts of the differences, one row per difference. */
  function DifferenceRows(ds: seq<Scoring.Difference>, render: Cells.Cell -> string): (rows: seq<seq<string>>)
    ensures |rows| == |ds|
    ensures forall i :: 0 <= i < |ds| ==> rows[i] == DifferenceTexts(ds[i], render)
  {
    seq(|ds|, i requires 0 <= i < |ds| => DifferenceTexts(ds[i], render))
  }

  function DifferenceWidths(ds: seq<Scoring.Difference>, render: Cells.Cell -> string): (ws: seq<nat>)
    ensures |ws| == |DifferenceHeaders|
  {
    Widths(DifferenceHeaders, DifferenceRows(ds, render))
  }

  /**
   * `tabulate(diff_df, headers='keys', tablefmt='psql', showindex=False)`
   * (line 245) as the lines it adds to the file: a rule, the header row, the
   * header rule, a row per difference and the closing rule.  The text ends
   * without a newline, so only the closing rule has none.  Every column is
   * laid out as text; the right or decimal alignment `tabulate` gives a column
   * of numbers is not modelled.
   */
  function DifferenceTable(ds: seq<Scoring.Difference>, render: Cells.Cell -> string): (lines: seq<string>)
    ensures |lines| == |ds| + 4
    ensures var ws := DifferenceWidths(ds, render);
            && lines[0] == Rule(ws, '+') + "\n"
            && lines[1] == RenderRow(DifferenceHeaders, ws) + "\n"
            && lines[2] == Rule(ws, '|') + "\n"
            && (forall i :: 0 <= i < |ds| ==> lines[3 + i] == RenderRow(DifferenceTexts(ds[i], render), ws) + "\n")
            && lines[|ds| + 3] == Rule(ws, '+')
  {
    var rows := DifferenceRows(ds, render);
    var ws := DifferenceWidths(ds, render);
    AsLines([Rule(ws, '+'), RenderRow(DifferenceHeaders, ws), Rule(ws, '|')]
            + seq(|ds|, i requires 0 <= i < |ds| => RenderRow(rows[i], ws))
            + [Rule(ws, '+')])
  }

  /** The file as written for a score, its differences drawn as a psql table. */
  function WrittenFile(s: Scoring.Score, fixed4: real -> string, render: Cells.Cell -> string): seq<string>
  {
    FileLines(s, fixed4, DifferenceTable(s.differences, render))
  }

  /** The dashes of a rule close with two dashes and the edge, and hold nothing but dashes, `+` and the edge. */
  lemma {:induction false} RuleRunsShape(widths: seq<nat>, edge: char)
    requires widths != []
    ensures var r := RuleRuns(widths, edge);
            |r| >= 3 && r[0] == '-' && r[|r| - 1] == edge && r[|r| - 2] == '-' && r[|r| - 3] == '-'
            && forall i :: 0 <= i < |r| ==> r[i] == '-' || r[i] == '+' || r[i] == edge
  {
    if |widths| > 1 {
      RuleRunsShape(widths[1..], edge);
      var head := Repeat('-', widths[0] + 2) + "+";
      var rest := RuleRuns(widths[1..], edge);
      forall i | 0 <= i < |head + rest|
        ensures (head + rest)[i] == '-' || (head + rest)[i] == '+' || (head + rest)[i] == edge
      {
        if i >= |head| {
          assert (head + rest)[i] == rest[i - |head|];
        }
      }
    }
  }

  /** A rule opens with its edge and a dash, closes with two dashes and its edge, and has no other characters. */
  lemma RuleShape(widths: seq<nat>, edge: char)
    requires widths != []
    ensures var r := Rule(widths, edge);
            |r| >= 4 && r[0] == edge && r[1] == '-'
            && r[|r| - 1] == edge && r[|r| - 2] == '-' && r[|r| - 3] == '-'
            && forall i :: 0 <= i < |r| ==> r[i] == '-' || r[i] == '+' || r[i] == edge
  {
    RuleRunsShape(widths, edge);
    var r := Rule(widths, edge);
    forall i | 1 <= i < |r| ensures r[i] == RuleRuns(widths, edge)[i - 1] {
    }
  }

  /** A row's first cell comes right after the opening bar. */
  lemma RowHead(texts: seq<string>, widths: seq<nat>)
    requires |texts| == |widths| && texts != []
    ensures RenderRow(texts, widths) == "|" + PadCell(texts[0], widths[0]) + "|" + RowCells(texts[1..], widths[1..])
  {
  }

  /** A row is drawn between bars. */
  lemma RowEnds(texts: seq<string>, widths: seq<nat>)
    requires |texts| == |widths| && texts != []
    ensures var row := RenderRow(texts, widths); |row| >= 2 && row[0] == '|' && row[|row| - 1] == '|'
  {
    RowCellsEnd(texts, widths);
  }

  lemma {:induction false} RowCellsEnd(texts: seq<string>, widths: seq<nat>)
    requires |texts| == |widths| && texts != []
    ensures var r := RowCells(texts, widths); r != [] && r[|r| - 1] == '|'
  {
    if |texts| > 1 {
      RowCellsEnd(texts[1..], widths[1..]);
    }
  }
}

=== FILE: api.dfy ===
/**
 * The pure steps of `src/api_interaction.py` around the model call: the
 * token budget default, the removal of a Markdown code fence from a reply
 * before it is parsed as JSON, and the stamping of the report identifier onto
 * the parsed record.  The call itself is not modelled.
 */
module Api {
  import opened Wrappers
  import opened Text
  import Json
  import ReportIds

  /** Token budget used when none is configured (line 44). */
  const DefaultMaxTokens: int := 4000

  /** `max_tokens if max_tokens is not None else 4000`. */
  function MaxTokens(requested: Option<int>): (n: int)
    ensures requested.Some? ==> n == requested.value
    ensures requested.None? ==> n == DefaultMaxTokens
  {
    requested.GetOr(DefaultMaxTokens)
  }

  /** A configured budget is kept as it is, so resolving it twice changes nothing. */
  lemma MaxTokensSettled(requested: Option<int>)
    ensures MaxTokens(Some(MaxTokens(requested))) == MaxTokens(requested)
  {
  }

  const JsonFence: string := "```json"
  const Fence: string := "```"

  /**
   * Lines 206-212: strip the reply; a leading "```json" goes (and then a
   * trailing fence, if any); otherwise a reply that both starts and ends with
   * a fence loses both.  Every step strips again.  Python's `s[3:-3]` is empty
   * on a reply shorter than two fences.
   */
  function StripFence(reply: string): (r: string)
    ensures IsTrimmed(r)
  {
    var t := Trim(reply);
    if StartsWith(t, JsonFence) then AfterJsonFence(t)
    else if StartsWith(t, Fence) && EndsWith(t, Fence) then InsideFences(t)
    else t
  }

  /** The rest of a reply after its "```json", stripped, without a closing fence. */
  function AfterJsonFence(t: string): (r: string)
    requires StartsWith(t, JsonFence)
    ensures IsTrimmed(r)
  {
    CloseFence(Trim(t[|JsonFence|..]))
  }

  /** A stripped text without its closing fence, if it has one, stripped again. */
  function CloseFence(u: string): (r: string)
    requires IsTrimmed(u)
    ensures IsTrimmed(r)
  {
    if EndsWith(u, Fence) then Trim(u[..|u| - |Fence|]) else u
  }

  /** A reply between an opening and a closing fence, stripped. */
  function InsideFences(t: string): (r: string)
    ensures IsTrimmed(r)
  {
    Trim(if |t| >= 2 * |Fence| then t[|Fence|..|t| - |Fence|] else [])
  }

  /** A reply that does not open with a fence is only stripped. */
  lemma UnfencedOnlyStripped(reply: string)
    requires !StartsWith(Trim(reply), Fence)
    ensures StripFence(reply) == Trim(reply)
  {
    JsonFenceIsFence(Trim(reply));
  }

  lemma JsonFenceIsFence(t: string)
    ensures StartsWith(t, JsonFence) ==> StartsWith(t, Fence)
  {
    if StartsWith(t, JsonFence) {
      assert t[..|Fence|] == JsonFence[..|Fence|];
    }
  }

  /** A fence never starts with whitespace, so a reply that opens with one opens with it after stripping. */
  lemma FencedTrim(body: string, open: string)
    requires open != [] && !IsSpace(open[0]) && IsTrimmed(body)
    ensures Trim(open + "\n" + body + "\n" + Fence) == open + "\n" + body + "\n" + Fence
  {
    var s := open + "\n" + body + "\n" + Fence;
    assert s[0] == open[0] && s[|s| - 1] == '`';
    TrimOfTrimmed(s);
  }

  /** A body framed by newlines strips to itself. */
  lemma NewlineFramed(body: string)
    requires IsTrimmed(body)
    ensures Trim("\n" + body + "\n") == body
  {
    TrimPadded("\n", body, "\n");
  }

  /** A reply written as a "```json" block gives back exactly its stripped body. */
  lemma JsonFenceRoundTrip(body: string)
    requires IsTrimmed(body)
    ensures StripFence(JsonFence + "\n" + body + "\n" + Fence) == body
  {
    var s := JsonFence + "\n" + body + "\n" + Fence;
    FencedTrim(body, JsonFence);
    AfterJsonFenceOf(body);
    assert StartsWith(s, JsonFence);
  }

  lemma AfterJsonFenceOf(body: string)
    requires IsTrimmed(body)
    ensures StartsWith(JsonFence + "\n" + body + "\n" + Fence, JsonFence)
    ensures AfterJsonFence(JsonFence + "\n" + body + "\n" + Fence) == body
  {
    var rest := "\n" + body + "\n" + Fence;
    var t := JsonFence + rest;
    assert t == JsonFence + "\n" + body + "\n" + Fence;
    OpensWithJsonFence(JsonFence, rest);
    ClosedBody(body);
  }

  lemma OpensWithJsonFence(open: string, rest: string)
    ensures StartsWith(open + rest, open) && (open + rest)[|open|..] == rest
  {
  }

  /** After the opening "```json", the stripped rest ends with the closing fence, and without it strips to the body. */
  lemma ClosedBody(body: string)
    requires IsTrimmed(body)
    ensures CloseFence(Trim("\n" + body + "\n" + Fence)) == body
  {
    if body == [] {
      EmptyClosedBody();
    } else {
      var u := body + "\n" + Fence;
      LeadingNewline(body, u);
      DropClosingFence(body, u);
    }
  }

  lemma EmptyClosedBody()
    ensures CloseFence(Trim("\n" + [] + "\n" + Fence)) == []
  {
    assert "\n" + [] + "\n" + Fence == "\n\n" + Fence + [];
    TrimPadded("\n\n", Fence, []);
    assert Fence[..0] == [];
    TrimOfTrimmed([]);
  }

  /** A non-empty stripped body followed by the closing fence loses only the newline in front. */
  lemma LeadingNewline(body: string, u: string)
    requires IsTrimmed(body) && body != [] && u == body + "\n" + Fence
    ensures IsTrimmed(u) && Trim("\n" + body + "\n" + Fence) == u
  {
    assert "\n" + body + "\n" + Fence == "\n" + u + [];
    assert u[0] == body[0] && u[|u| - 1] == '`';
    TrimPadded("\n", u, []);
  }

  lemma DropClosingFence(body: string, u: string)
    requires IsTrimmed(body) && u == body + "\n" + Fence && IsTrimmed(u)
    ensures CloseFence(u) == body
  {
    assert EndsWith(u, Fence);
    assert u[..|u| - |Fence|] == [] + body + "\n";
    TrimPadded([], body, "\n");
  }

  /** A reply written as a bare "```" block gives back exactly its stripped body. */
  lemma BareFenceRoundTrip(body: string)
    requires IsTrimmed(body)
    ensures StripFence(Fence + "\n" + body + "\n" + Fence) == body
  {
    var s := Fence + "\n" + body + "\n" + Fence;
    FencedTrim(body, Fence);
    BareFenceShape(body, s);
    BareFenceInside(body, s);
  }

  /** A bare fenced reply opens and closes with a fence but not with "```json". */
  lemma BareFenceShape(body: string, s: string)
    requires s == Fence + "\n" + body + "\n" + Fence
    ensures !StartsWith(s, JsonFence) && StartsWith(s, Fence) && EndsWith(s, Fence)
  {
    assert s[3] == '\n';
    assert s[..3] == Fence;
    assert s[|s| - 3..] == Fence;
  }

  lemma BareFenceInside(body: string, s: string)
    requires IsTrimmed(body) && s == Fence + "\n" + body + "\n" + Fence
    ensures InsideFences(s) == body
  {
    assert s[|Fence|..|s| - |Fence|] == "\n" + body + "\n";
    NewlineFramed(body);
  }

  /** Why the parsed reply cannot be stored. */
  datatype ReplyError = NotAnObject

  /**
   * Lines 404-408: a parsed reply that is not a JSON object is rejected;
   * otherwise its "Report ID" field is set to the spaced identifier,
   * replacing any value the model gave, and every other field is kept.
   */
  function InjectReportId(reply: Json.Value, id: string): (r: Result<map<string, Json.Value>, ReplyError>)
    ensures r.Err? <==> !reply.Object?
    ensures r.Ok? ==> r.value.Keys == reply.fields.Keys + {"Report ID"}
    ensures r.Ok? ==> r.value["Report ID"] == Json.Str(ReportIds.FormatReportId(id))
    ensures r.Ok? ==> forall k :: k in reply.fields && k != "Report ID" ==> r.value[k] == reply.fields[k]
  {
    match reply
    case Object(fields) => Ok(fields["Report ID" := Json.Str(ReportIds.FormatReportId(id))])
    case _ => Err(NotAnObject)
  }

  /** Stamping the identifier a second time changes nothing. */
  lemma InjectReportIdIdempotent(reply: Json.Value, id: string)
    requires InjectReportId(reply, id).Ok?
    ensures InjectReportId(Json.Object(InjectReportId(reply, id).value), id) == InjectReportId(reply, id)
  {
    var fields := reply.fields;
    var v := Json.Str(ReportIds.FormatReportId(id));
    assert fields["Report ID" := v]["Report ID" := v] == fields["Report ID" := v];
  }
}

=== FILE: cells.dfy ===
/**
 * Cell normalisation and the tolerant cell comparison of `src/evaluation.py`
 * (`preprocess` and `cells_equal`), with the constant word tables they use.
 */
module Cells {
  import opened Text

  /** One spreadsheet cell as pandas holds it: missing (`NaN`/`pd.NA`) or a string. */
  datatype Cell = NA | Str(s: string)

  /** `str(x)` of a cell after `astype(str)`: a missing cell becomes the text "nan". */
  function AsText(c: Cell): string
  {
    match c
    case NA => "nan"
    case Str(s) => s
  }

  /** The whole-cell tokens `preprocess` turns into a missing value (matched case-sensitively). */
  const NaTokens: set<string> := {"nan", "none", "na", "n/a", "nat", "unspecified", "not specified"}

  /** `cells_equal`'s "unspecified" strings; unlike the missing-value tokens above there is no "null" or "nan". */
  const UnspecifiedWords: set<string> := {"unspecified", "not specified", "n/a", "na", ""}

  const TrueWords: set<string> := {"yes", "present", "true", "active", "positive", "complete", "conventional"}

  const FalseWords: set<string> := {"no", "absent", "false", "inactive", "negative", "normal"}

  /**
   * `preprocess` on one cell: string-cast, strip, then a missing value for an empty cell or a
   * cell that is exactly one of the missing-value tokens.
   */
  function Preprocess(c: Cell): (r: Cell)
    ensures r.NA? <==> Trim(AsText(c)) == [] || Trim(AsText(c)) in NaTokens
    ensures r.Str? ==> r.s == Trim(AsText(c)) && r.s != [] && IsTrimmed(r.s)
  {
    var t := Trim(AsText(c));
    if t == [] || t in NaTokens then NA else Str(t)
  }

  /** Normalising a normalised cell changes nothing. */
  lemma PreprocessIdempotent(c: Cell)
    ensures Preprocess(Preprocess(c)) == Preprocess(c)
  {
    match Preprocess(c)
    case NA =>
      PreprocessMissing();
    case Str(s) =>
      TrimIdempotent(AsText(c));
  }

  /** The missing-value match is case-sensitive: "NaN" and "N/A" stay text, unlike "nan" and "n/a". */
  lemma PreprocessCaseSensitive()
    ensures Preprocess(Str("NaN")) == Str("NaN")
    ensures Preprocess(Str(" N/A ")) == Str("N/A")
    ensures Preprocess(Str(" n/a ")) == NA
    ensures Preprocess(NA) == NA
  {
    PreprocessUpperNaN();
    PreprocessUpperNA();
    PreprocessLowerNA();
    PreprocessMissing();
  }

  lemma PreprocessUpperNaN()
    ensures Preprocess(Str("NaN")) == Str("NaN")
  {
    TrimPadded([], "NaN", []);
    assert [] + "NaN" + [] == "NaN";
    UpperInitialNotToken("NaN");
  }

  /** Every missing-value token starts with a lower-case letter. */
  lemma UpperInitialNotToken(s: string)
    requires s != [] && 'A' <= s[0] <= 'Z'
    ensures s !in NaTokens
  {
    forall t | t in NaTokens ensures t != [] && 'a' <= t[0] <= 'z' {
    }
  }

  lemma PreprocessUpperNA()
    ensures Preprocess(Str(" N/A ")) == Str("N/A")
  {
    TrimPadded(" ", "N/A", " ");
    assert " " + "N/A" + " " == " N/A ";
    UpperInitialNotToken("N/A");
  }

  lemma PreprocessLowerNA()
    ensures Preprocess(Str(" n/a ")) == NA
  {
    TrimPadded(" ", "n/a", " ");
    assert " " + "n/a" + " " == " n/a ";
  }

  lemma PreprocessMissing()
    ensures Preprocess(NA) == NA
  {
    TrimPadded([], "nan", []);
    assert [] + "nan" + [] == "nan";
  }

  /** The comparable form of a present value: `str(v).strip().lower()`. */
  function Comparable(s: string): string
  {
    Lower(Trim(s))
  }

  /** The boolean reading of a comparable string. */
  datatype Polarity = TrueLike | FalseLike | Neither

  /** Classifies a comparable string as true-like, false-like or neither; it is never both. */
  function Classify(s: string): (p: Polarity)
    ensures p == TrueLike <==> s == "1" || s in TrueWords
    ensures p == FalseLike <==> s == "0" || s in FalseWords
  {
    if s == "1" || s in TrueWords then TrueLike
    else if s == "0" || s in FalseWords then FalseLike
    else Neither
  }

  /**
   * The numeric oracle standing for Python's `float(v)` and `np.isclose`: which strings parse
   * as floats, and which pairs of parsed floats are close.
   */
  datatype Numeric = Numeric(parses: string -> bool, close: (string, string) -> bool)

  /**
   * `cells_equal`: both missing are equal; one missing equals only an unspecified word or "0";
   * otherwise matching boolean polarity decides, then numeric closeness when both parse, and
   * last case- and whitespace-insensitive string equality.
   */
  function CellsEqual(a: Cell, b: Cell, num: Numeric): (r: bool)
    ensures a.NA? && b.NA? ==> r
    ensures a.NA? && b.Str? ==> (r <==> Comparable(b.s) in UnspecifiedWords || Comparable(b.s) == "0")
    ensures a.Str? && b.NA? ==> (r <==> Comparable(a.s) in UnspecifiedWords || Comparable(a.s) == "0")
  {
    match (a, b)
    case (NA, NA) => true
    case (NA, Str(t)) => Comparable(t) in UnspecifiedWords || Comparable(t) == "0"
    case (Str(s), NA) => Comparable(s) in UnspecifiedWords || Comparable(s) == "0"
    case (Str(s), Str(t)) =>
      var p := Classify(Comparable(s));
      var q := Classify(Comparable(t));
      if p != Neither && p == q then true
      else if p != Neither && q != Neither then false
      else if num.parses(s) && num.parses(t) then num.close(s, t)
      else Comparable(s) == Comparable(t)
  }

  /** For two present values the boolean rules come first and are authoritative. */
  lemma PolarityDecides(s: string, t: string, num: Numeric)
    ensures var p := Classify(Comparable(s));
            var q := Classify(Comparable(t));
            && (p == q && p != Neither ==> CellsEqual(Str(s), Str(t), num))
            && (p != q && p != Neither && q != Neither ==> !CellsEqual(Str(s), Str(t), num))
  {
  }

  /** When neither boolean rule decides and not both values parse, the result is string equality. */
  lemma StringFallback(s: string, t: string, num: Numeric)
    requires Classify(Comparable(s)) == Neither || Classify(Comparable(t)) == Neither
    requires !num.parses(s) || !num.parses(t)
    ensures CellsEqual(Str(s), Str(t), num) <==> Comparable(s) == Comparable(t)
  {
  }

  /** When neither boolean rule decides and both values parse, numeric closeness decides. */
  lemma NumericRule(s: string, t: string, num: Numeric)
    requires Classify(Comparable(s)) == Neither || Classify(Comparable(t)) == Neither
    requires num.parses(s) && num.parses(t)
    ensures CellsEqual(Str(s), Str(t), num) <==> num.close(s, t)
  {
  }

  /** `cells_equal` is symmetric whenever the closeness oracle is. */
  lemma CellsEqualSymmetric(a: Cell, b: Cell, num: Numeric)
    requires forall x, y :: num.close(x, y) == num.close(y, x)
    ensures CellsEqual(a, b, num) == CellsEqual(b, a, num)
  {
    match (a, b)
    case (Str(s), Str(t)) =>
      var p := Classify(Comparable(s));
      var q := Classify(Comparable(t));
      assert CellsEqual(a, b, num) == (if p != Neither && p == q then true
        else if p != Neither && q != Neither then false
        else if num.parses(s) && num.parses(t) then num.close(s, t)
        else Comparable(s) == Comparable(t));
      assert CellsEqual(b, a, num) == (if q != Neither && q == p then true
        else if q != Neither && p != Neither then false
        else if num.parses(t) && num.parses(s) then num.close(t, s)
        else Comparable(t) == Comparable(s));
    case _ =>
  }

  /** Every value equals itself whenever the closeness oracle is reflexive. */
  lemma CellsEqualReflexive(a: Cell, num: Numeric)
    requires forall x :: num.close(x, x)
    ensures CellsEqual(a, a, num)
  {
  }

  /** A missing value against a text whose comparable form is `c`. */
  lemma MissingVersus(t: string, c: string, num: Numeric)
    requires Comparable(t) == c
    ensures CellsEqual(NA, Str(t), num) <==> c in UnspecifiedWords || c == "0"
  {
  }

  /** Two texts whose comparable forms have the polarities `p` and `q`. */
  lemma PolarityPair(s: string, t: string, p: Polarity, q: Polarity, num: Numeric)
    requires Classify(Comparable(s)) == p && Classify(Comparable(t)) == q
    ensures p == q && p != Neither ==> CellsEqual(Str(s), Str(t), num)
    ensures p != q && p != Neither && q != Neither ==> !CellsEqual(Str(s), Str(t), num)
  {
    PolarityDecides(s, t, num);
  }

  /** The comparable form of an already stripped text is its lower-cased form. */
  lemma ComparableIs(s: string, c: string)
    requires IsTrimmed(s) && Lower(s) == c
    ensures Comparable(s) == c
  {
    TrimOfTrimmed(s);
  }

  /** A missing value equals a padded "0". */
  lemma MissingEqualsZero(num: Numeric)
    ensures CellsEqual(NA, Str(" 0 "), num)
  {
    ComparableZero();
    MissingVersus(" 0 ", "0", num);
  }

  lemma ComparableZero()
    ensures Comparable(" 0 ") == "0"
  {
    TrimPadded(" ", "0", " ");
    assert " " + "0" + " " == " 0 ";
    assert Lower("0") == "0";
  }

  /** A missing value equals "N/A": the text `preprocess` keeps (its match is case-sensitive) is lower-cased here. */
  lemma MissingEqualsUpperNA(num: Numeric)
    ensures CellsEqual(NA, Preprocess(Str("N/A")), num)
  {
    PreprocessKeepsNA();
    ComparableNA();
    MissingVersus("N/A", "n/a", num);
  }

  lemma PreprocessKeepsNA()
    ensures Preprocess(Str("N/A")) == Str("N/A")
  {
    TrimOfTrimmed("N/A");
    UpperInitialNotToken("N/A");
  }

  lemma ComparableNA()
    ensures Comparable("N/A") == "n/a"
  {
    LowerNA();
    ComparableIs("N/A", "n/a");
  }

  lemma LowerNA()
    ensures Lower("N/A") == "n/a"
  {
  }

  /** "null" is not among the unspecified words, so a missing value does not equal it. */
  lemma MissingDiffersFromNull(num: Numeric)
    ensures !CellsEqual(NA, Str("null"), num)
  {
    ComparableNull();
    NullNotUnspecified();
    MissingVersus("null", "null", num);
  }

  lemma ComparableNull()
    ensures Comparable("null") == "null"
  {
    LowerNull();
    ComparableIs("null", "null");
  }

  lemma LowerNull()
    ensures Lower("null") == "null"
  {
  }

  lemma NullNotUnspecified()
    ensures "null" !in UnspecifiedWords && "null" != "0"
  {
  }

  /** "1" matches "Yes". */
  lemma OneMatchesYes(num: Numeric)
    ensures CellsEqual(Str("1"), Str("Yes"), num)
  {
    ClassifyOne();
    ClassifyYes();
    PolarityPair("1", "Yes", TrueLike, TrueLike, num);
  }

  /** "1" never matches "No", even when an oracle would call them numerically close. */
  lemma OneDiffersFromNo(num: Numeric)
    ensures !CellsEqual(Str("1"), Str("No"), num)
  {
    ClassifyOne();
    ClassifyNo();
    PolarityPair("1", "No", TrueLike, FalseLike, num);
  }

  lemma ClassifyOne()
    ensures Classify(Comparable("1")) == TrueLike
  {
    LowerOne();
    ComparableIs("1", "1");
  }

  lemma LowerOne()
    ensures Lower("1") == "1"
  {
  }

  lemma ClassifyYes()
    ensures Classify(Comparable("Yes")) == TrueLike
  {
    LowerYes();
    ComparableIs("Yes", "yes");
    assert "yes" in TrueWords;
  }

  lemma LowerYes()
    ensures Lower("Yes") == "yes"
  {
  }

  lemma ClassifyNo()
    ensures Classify(Comparable("No")) == FalseLike
  {
    LowerNo();
    ComparableIs("No", "no");
    assert "no" in FalseWords;
  }

  lemma LowerNo()
    ensures Lower("No") == "no"
  {
  }
}

=== FILE: check_missing.dfy ===
/**
 * `src/check_missing.py`: the identifiers expected from the PDF directory,
 * the ones with an accuracy report, the ones in the ground-truth sheet, and
 * the cross-check between the three.  A directory listing is the set of its
 * file names, or `None` when the path is not a directory.
 */
module CheckMissing {
  import opened Wrappers
  import opened Text
  import opened Order
  import opened Cells
  import opened Tables
  import opened FileNames

  /** The identifiers a file-name parser finds among the names of one directory. */
  function ScanIds(files: set<string>, parse: string -> Option<string>): (ids: set<string>)
    ensures forall f :: f in files && parse(f).Some? ==> parse(f).value in ids
    ensures forall id :: id in ids ==> exists f :: f in files && parse(f) == Some(id)
  {
    set f | f in files && parse(f).Some? :: parse(f).value
  }

  /** `get_expected_ids_from_pdfs` (lines 11-36): "RRI" and the digits of every well-named PDF. */
  function ExpectedIds(pdfDir: Option<set<string>>): (ids: Option<set<string>>)
    ensures ids.Some? <==> pdfDir.Some?
    ensures ids.Some? ==> forall id :: id in ids.value ==> |id| == 6 && id[..3] == "RRI" && AllDigits(id[3..])
  {
    if pdfDir.None? then None
    else
      var ids := ScanIds(pdfDir.value, CheckedPdfId);
      assert forall id :: id in ids ==> |id| == 6 && id[..3] == "RRI" && AllDigits(id[3..]) by {
        forall id | id in ids
          ensures |id| == 6 && id[..3] == "RRI" && AllDigits(id[3..])
        {
          var f :| f in pdfDir.value && CheckedPdfId(f) == Some(id);
          var d := f[|f| - 7..|f| - 4];
          assert id == "RRI" + d;
          assert id[3..] == d;
        }
      }
      Some(ids)
  }

  /** A PDF spelt `RRI`, an optional blank, three digits and `.pdf`, in any case, makes "RRI" and the digits expected. */
  lemma ExpectedFromPdfName(pdfDir: set<string>, prefix: string, gap: string, digits: string, ext: string)
    requires prefix + gap + digits + ext in pdfDir
    requires EqualsIgnoreCase(prefix, "rri") && OptionalSpace(gap)
    requires |digits| == 3 && AllDigits(digits) && EqualsIgnoreCase(ext, ".pdf")
    ensures "RRI" + digits in ExpectedIds(Some(pdfDir)).value
  {
    CheckedPdfIdOf(prefix, gap, digits, ext);
  }

  /** `get_successful_ids_from_accuracy_reports` (lines 38-63): the spaced identifier of each accuracy file, space removed. */
  function SuccessfulIds(accuracyDir: Option<set<string>>): (ids: Option<set<string>>)
    ensures ids.Some? <==> accuracyDir.Some?
    ensures ids.Some? ==> forall id :: id in ids.value <==> exists f :: f in accuracyDir.value && AccuracyFileId(f) == Some(id)
  {
    if accuracyDir.None? then None else Some(ScanIds(accuracyDir.value, AccuracyFileId))
  }

  /** The accuracy file that `src/evaluation.py` writes for a formatted identifier "RRI 002" counts "RRI002" as successful. */
  lemma SuccessfulFromAccuracyName(accuracyDir: set<string>, digits: string)
    requires |digits| == 3 && AllDigits(digits)
    requires "RRI " + digits + "_accuracy.txt" in accuracyDir
    ensures "RRI" + digits in SuccessfulIds(Some(accuracyDir)).value
  {
    var name := "RRI " + digits + "_accuracy.txt";
    assert name[..3] == "RRI" && name[3] == ' ' && name[4..7] == digits && name[7..] == "_accuracy.txt";
    assert |name| == 20;
    assert EqualsIgnoreCase(name[..3], "rri");
    assert EqualsIgnoreCase(name[7..], "_accuracy.txt");
    assert AccuracyFileId(name).Some?;
    assert name[..3] + [] + name[4..7] == "RRI" + digits;
  }

  /**
   * `get_ids_from_ground_truth` (lines 66-107): the first accepted identifier
   * column, missing cells dropped, every blank removed, duplicates merged and
   * the empty identifier discarded; no such column gives `None`.
   */
  function GroundTruthIds(sheet: Option<Table>, idColumns: seq<string>): (ids: Option<set<string>>)
    requires sheet.Some? ==> WellFormed(sheet.value)
    ensures ids.Some? <==> sheet.Some? && FirstPresent(idColumns, sheet.value.columns).Some?
    ensures ids.Some? ==>
      var vs := ColumnValues(sheet.value, FirstPresent(idColumns, sheet.value.columns).value);
      forall id :: id in ids.value <==>
        id != "" && exists i :: 0 <= i < |vs| && vs[i].Str? && RemoveWhitespace(vs[i].s) == id
  {
    if sheet.None? then None
    else
      match FirstPresent(idColumns, sheet.value.columns)
      case None => None
      case Some(col) =>
        var vs := ColumnValues(sheet.value, col);
        Some((set i | 0 <= i < |vs| && vs[i].Str? :: RemoveWhitespace(vs[i].s)) - {""})
  }

  /** The outcome of `find_missing_reports`: the sorted listings it prints. */
  datatype CrossCheck =
    | Full(missingFromGroundTruth: seq<string>, missingFromAccuracy: seq<string>, missingFromPdf: seq<string>)
    | PdfVsAccuracyOnly(missingFromAccuracy: seq<string>)
    | NoComparison

  /**
   * `find_missing_reports` (lines 111-181): with all three sources, PDF minus
   * ground truth, PDF minus accuracy reports and ground truth minus PDF, each
   * sorted; if a source is unavailable, only PDF minus accuracy reports, and
   * only when both of those are available.
   */
  function FindMissingReports(expected: Option<set<string>>, successful: Option<set<string>>,
                              groundTruth: Option<set<string>>): (c: CrossCheck)
    ensures c.Full? <==> expected.Some? && successful.Some? && groundTruth.Some?
    ensures c.PdfVsAccuracyOnly? <==> expected.Some? && successful.Some? && groundTruth.None?
    ensures c.Full? ==>
      StrictlySorted(c.missingFromGroundTruth) && StrictlySorted(c.missingFromPdf)
      && (forall id :: id in c.missingFromGroundTruth <==> id in expected.value && id !in groundTruth.value)
      && (forall id :: id in c.missingFromPdf <==> id in groundTruth.value && id !in expected.value)
    ensures !c.NoComparison? ==>
      StrictlySorted(c.missingFromAccuracy)
      && forall id :: id in c.missingFromAccuracy <==> id in expected.value && id !in successful.value
  {
    if expected.None? || successful.None? || groundTruth.None? then
      if expected.Some? && successful.Some? then
        PdfVsAccuracyOnly(SortedElements(expected.value - successful.value))
      else NoComparison
    else
      Full(SortedElements(expected.value - groundTruth.value),
           SortedElements(expected.value - successful.value),
           SortedElements(groundTruth.value - expected.value))
  }

  /** A report whose PDF and accuracy file are both present is never listed as missing an accuracy report. */
  lemma ProcessedReportNotMissing(pdfDir: set<string>, accuracyDir: set<string>, groundTruth: Option<set<string>>,
                                  digits: string)
    requires |digits| == 3 && AllDigits(digits)
    requires "RRI" + digits + ".pdf" in pdfDir
    requires "RRI " + digits + "_accuracy.txt" in accuracyDir
    ensures var c := FindMissingReports(ExpectedIds(Some(pdfDir)), SuccessfulIds(Some(accuracyDir)), groundTruth);
            !c.NoComparison? && "RRI" + digits !in c.missingFromAccuracy
  {
    SuccessfulFromAccuracyName(accuracyDir, digits);
  }
}

=== FILE: config.dfy ===
/** The lookup tables and tuning constants of `src/config.py` that the core logic reads. */
module Config {

  /** `SIMILARITY_CUTOFF`: the `difflib` ratio a misspelt key must reach to be renamed. */
  const SimilarityCutoff: real := 0.8

  /** `COLUMN_NAME_MAPPING`: known misspelt column names and their corrections. */
  const ColumnNameMapping: map<string, string> := map[
    "Right uteroscaral nodule size (mm)" := "Right uterosacral nodule size (mm)",
    "Endometrioal lesions Identified Comment" := "Endometrial lesions Identified Comment"
  ]

  /** `REPORT_ID_COLUMN_NAMES`: the accepted report-identifier headers, tried in this order. */
  const ReportIdColumnNames: seq<string> := ["Report ID", "Report"]
}

=== FILE: discovery.dfy ===
/**
 * Report discovery in `src/main.py` and `src/preprocess.py`: the identifiers
 * read from the names of processed files and of source PDFs, and the lookup
 * of a report's PDF.  A directory listing is the set of its file names, or
 * `None` when the directory does not exist.
 */
module Discovery {
  import opened Wrappers
  import opened Text
  import opened Order
  import opened FileNames
  import CheckMissing

  /** The pattern `discover_processed_reports` uses for a data type; other types have none. */
  function ProcessedPattern(dataType: string): Option<string -> Option<string>>
  {
    if dataType == "image" then Some(PageImageId)
    else if dataType == "text" then Some(TextFileId)
    else None
  }

  /** The sorted identifiers a pattern finds in a listing. */
  function SortedIds(files: set<string>, parse: string -> Option<string>): (ids: seq<string>)
    ensures StrictlySorted(ids)
    ensures forall id :: id in ids <==> exists f :: f in files && parse(f) == Some(id)
  {
    SortedElements(CheckMissing.ScanIds(files, parse))
  }

  /**
   * `discover_processed_reports` (`src/main.py` lines 174-217): the sorted
   * identifiers of the processed files; nothing when the directory is missing
   * or the data type is neither "image" nor "text".
   */
  function DiscoverProcessedReports(dir: Option<set<string>>, dataType: string): (ids: seq<string>)
    ensures StrictlySorted(ids)
    ensures dir.None? || (dataType != "image" && dataType != "text") ==> ids == []
    ensures forall id :: id in ids ==> id != [] && AllDigits(id)
    ensures dir.Some? && dataType == "text" ==>
              forall id :: id in ids <==> id != [] && AllDigits(id) && id + ".txt" in dir.value
    ensures dir.Some? && dataType == "image" ==>
              forall id :: id in ids <==> exists f :: f in dir.value && PageImageId(f) == Some(id)
  {
    if dir.None? then []
    else
      match ProcessedPattern(dataType)
      case None => []
      case Some(parse) =>
        var ids := SortedIds(dir.value, parse);
        assert forall id :: id in ids ==> id != [] && AllDigits(id) by {
          forall id | id in ids ensures id != [] && AllDigits(id) {
            var f :| f in dir.value && parse(f) == Some(id);
          }
        }
        if dataType == "text" then
          TextIds(dir.value);
          ids
        else ids
  }

  /** A text file is discovered exactly when its name is digits and ".txt". */
  lemma TextIds(files: set<string>)
    ensures forall id :: id in SortedIds(files, TextFileId) <==> id != [] && AllDigits(id) && id + ".txt" in files
  {
    var ids := SortedIds(files, TextFileId);
    forall id ensures id in ids <==> id != [] && AllDigits(id) && id + ".txt" in files {
      if id in ids {
        var f :| f in files && TextFileId(f) == Some(id);
        TextNameOf(f);
      }
      if id != [] && AllDigits(id) && id + ".txt" in files {
        TextIdOf(id);
      }
    }
  }

  /** A name the text pattern accepts is its identifier followed by ".txt". */
  lemma TextNameOf(f: string)
    requires TextFileId(f).Some?
    ensures var id := TextFileId(f).value; id != [] && AllDigits(id) && f == id + ".txt"
  {
    assert f == f[..|f| - 4] + f[|f| - 4..];
  }

  /** Digits followed by ".txt" name their digits. */
  lemma TextIdOf(id: string)
    requires id != [] && AllDigits(id)
    ensures TextFileId(id + ".txt") == Some(id)
  {
    var f := id + ".txt";
    assert f[..|f| - 4] == id && f[|f| - 4..] == ".txt";
  }

  /** A page image spelt optional "RRI", digits, "_page_", digits, ".png", in any case, has its report discovered. */
  lemma PageImageDiscovered(dir: set<string>, prefix: string, id: string, tag: string, page: string, ext: string)
    requires prefix + id + tag + page + ext in dir
    requires prefix == [] || EqualsIgnoreCase(prefix, "rri")
    requires |id| > 0 && AllDigits(id) && EqualsIgnoreCase(tag, "_page_")
    requires |page| > 0 && AllDigits(page) && EqualsIgnoreCase(ext, ".png")
    ensures id in DiscoverProcessedReports(Some(dir), "image")
  {
    PageImageIdOf(prefix, id, tag, page, ext);
  }

  /** The PDF pattern of each dataset in `src/main.py`; other datasets have none. */
  function MainPdfPattern(dataset: string): Option<string -> Option<string>>
  {
    if dataset == "benson" then Some(RriPdfId)
    else if dataset == "sugo" then Some(DigitPdfId)
    else None
  }

  /** The PDF pattern of each dataset in `src/preprocess.py`; other datasets have none. */
  function PreprocessPdfPattern(dataset: string): Option<string -> Option<string>>
  {
    if dataset == "benson" then Some(RriStemId)
    else if dataset == "sugo" then Some(DigitPdfId)
    else None
  }

  /** Both drafts of `find_report_ids_from_pdfs`: the sorted identifiers of the PDFs the dataset's pattern accepts. */
  function PdfReportIds(pattern: Option<string -> Option<string>>, dir: Option<set<string>>): (ids: seq<string>)
    ensures StrictlySorted(ids)
    ensures pattern.None? || dir.None? ==> ids == []
    ensures pattern.Some? && dir.Some? ==>
              forall id :: id in ids <==> exists f :: f in dir.value && pattern.value(f) == Some(id)
  {
    if pattern.None? || dir.None? then [] else SortedIds(dir.value, pattern.value)
  }

  /**
   * `find_report_ids_from_pdfs` of `src/main.py` (lines 276-312): benson PDFs
   * give "RRI" and at least three digits, sugo PDFs give their digits.
   */
  function MainPdfReportIds(dataset: string, dir: Option<set<string>>): (ids: seq<string>)
    ensures StrictlySorted(ids)
    ensures (dataset != "benson" && dataset != "sugo") || dir.None? ==> ids == []
    ensures dataset == "benson" ==>
              forall id :: id in ids ==> |id| >= 6 && id[..3] == "RRI" && AllDigits(id[3..])
    ensures dataset == "sugo" ==> forall id :: id in ids ==> id != [] && AllDigits(id)
  {
    var ids := PdfReportIds(MainPdfPattern(dataset), dir);
    if dataset == "benson" && dir.Some? then
      assert forall id :: id in ids ==> |id| >= 6 && id[..3] == "RRI" && AllDigits(id[3..]) by {
        forall id | id in ids ensures |id| >= 6 && id[..3] == "RRI" && AllDigits(id[3..]) {
          var f :| f in dir.value && RriPdfId(f) == Some(id);
          RriPdfIdShape(f);
        }
      }
      ids
    else if dataset == "sugo" && dir.Some? then
      assert forall id :: id in ids ==> id != [] && AllDigits(id) by {
        forall id | id in ids ensures id != [] && AllDigits(id) {
          var f :| f in dir.value && DigitPdfId(f) == Some(id);
          DigitPdfIdShape(f);
        }
      }
      ids
    else ids
  }

  /** A benson identifier is "RRI" and at least three digits. */
  lemma RriPdfIdShape(f: string)
    requires RriPdfId(f).Some?
    ensures var id := RriPdfId(f).value; |id| >= 6 && id[..3] == "RRI" && AllDigits(id[3..])
  {
    var d := f[DigitsStart(f)..|f| - 4];
    assert RriPdfId(f).value == "RRI" + d && ("RRI" + d)[3..] == d;
  }

  /** A sugo identifier is a non-empty run of digits. */
  lemma DigitPdfIdShape(f: string)
    requires DigitPdfId(f).Some?
    ensures var id := DigitPdfId(f).value; id != [] && AllDigits(id)
  {
  }

  /**
   * `find_report_ids_from_pdfs` of `src/preprocess.py` (lines 13-42): the
   * benson identifier is the captured stem with plain spaces removed.
   */
  function PreprocessPdfReportIds(dataset: string, dir: Option<set<string>>): (ids: seq<string>)
    ensures StrictlySorted(ids)
    ensures (dataset != "benson" && dataset != "sugo") || dir.None? ==> ids == []
    ensures dataset == "benson" && dir.Some? ==>
              forall id :: id in ids <==> exists f :: f in dir.value && RriStemId(f) == Some(id)
    ensures dataset == "sugo" ==> ids == MainPdfReportIds(dataset, dir)
  {
    PdfReportIds(PreprocessPdfPattern(dataset), dir)
  }

  /** A benson PDF spelt `RRI`, an optional blank, at least three digits and `.pdf`, in any case, is found by `src/main.py`. */
  lemma BensonPdfFound(dir: set<string>, prefix: string, gap: string, digits: string, ext: string)
    requires prefix + gap + digits + ext in dir
    requires EqualsIgnoreCase(prefix, "rri") && OptionalSpace(gap)
    requires |digits| >= 3 && AllDigits(digits) && EqualsIgnoreCase(ext, ".pdf")
    ensures "RRI" + digits in MainPdfReportIds("benson", Some(dir))
  {
    RriPdfIdOf(prefix, gap, digits, ext);
  }

  /**
   * `find_pdf_path` (`src/preprocess.py` lines 44-60) as the file name it
   * returns: "<id>.pdf" when it exists, else "RRI <rest>.pdf" for an
   * identifier that starts with "RRI", else nothing.
   */
  function FindPdfPath(id: string, dir: set<string>): (r: Option<string>)
    ensures r.Some? ==> r.value in dir
    ensures id + ".pdf" in dir ==> r == Some(id + ".pdf")
    ensures r.None? <==> id + ".pdf" !in dir && (!StartsWith(id, "RRI") || "RRI " + id[3..] + ".pdf" !in dir)
  {
    if id + ".pdf" in dir then Some(id + ".pdf")
    else if StartsWith(id, "RRI") && "RRI " + id[3..] + ".pdf" in dir then Some("RRI " + id[3..] + ".pdf")
    else None
  }

  /** The documented case: identifier "RRI" and digits from "RRI <digits>.pdf" is located at that file when there is no unspaced one. */
  lemma SpacedPdfLocated(dir: set<string>, digits: string)
    requires "RRI " + digits + ".pdf" in dir && "RRI" + digits + ".pdf" !in dir
    requires |digits| >= 3 && AllDigits(digits)
    ensures "RRI" + digits in PreprocessPdfReportIds("benson", Some(dir))
    ensures FindPdfPath("RRI" + digits, dir) == Some("RRI " + digits + ".pdf")
  {
    var name := "RRI " + digits + ".pdf";
    SpacedSpelling(digits);
    RriStemIdOf("RRI", " ", digits, ".pdf");
    assert name in dir && RriStemId(name) == Some("RRI" + digits);
  }

  /** How "RRI <digits>.pdf" is spelt from its parts, and what the unspaced identifier keeps after its prefix. */
  lemma SpacedSpelling(digits: string)
    ensures "RRI" + " " + digits + ".pdf" == "RRI " + digits + ".pdf"
    ensures "RRI" + (if " " == [' '] then [] else " ") + digits == "RRI" + digits
    ensures StartsWith("RRI" + digits, "RRI") && ("RRI" + digits)[3..] == digits
  {
  }

  /** A benson PDF named "rri 002.pdf" yields identifier "rri002", and `find_pdf_path` cannot locate it. */
  lemma LowerCaseSpacedPdfLost()
    ensures PreprocessPdfReportIds("benson", Some({"rri 002.pdf"})) == ["rri002"]
    ensures FindPdfPath("rri002", {"rri 002.pdf"}) == None
  {
    LowerCaseSpacedIds();
    LowerCaseSpacedMiss();
  }

  lemma LowerCaseSpacedIds()
    ensures PreprocessPdfReportIds("benson", Some({"rri 002.pdf"})) == ["rri002"]
  {
    LowerCaseSpacedStem();
    SingleFileIds("rri 002.pdf", "rri002", RriStemId);
  }

  lemma LowerCaseSpacedMiss()
    ensures FindPdfPath("rri002", {"rri 002.pdf"}) == None
  {
    assert "rri002" + ".pdf" != "rri 002.pdf" by {
      assert ("rri002" + ".pdf")[3] != "rri 002.pdf"[3];
    }
    assert !StartsWith("rri002", "RRI") by {
      assert "rri002"[0] != "RRI"[0];
    }
  }

  lemma LowerCaseSpacedStem()
    ensures RriStemId("rri 002.pdf") == Some("rri002")
  {
    LowerCaseSpacedSpelling();
    RriStemIdOf("rri", " ", "002", ".pdf");
  }

  lemma LowerCaseSpacedSpelling()
    ensures "rri" + " " + "002" + ".pdf" == "rri 002.pdf"
    ensures "rri" + (if " " == [' '] then [] else " ") + "002" == "rri002"
    ensures EqualsIgnoreCase("rri", "rri") && OptionalSpace(" ") && AllDigits("002") && EqualsIgnoreCase(".pdf", ".pdf")
  {
  }

  /** A listing of one file that a pattern accepts yields that file's identifier alone. */
  lemma SingleFileIds(name: string, id: string, parse: string -> Option<string>)
    requires parse(name) == Some(id)
    ensures PdfReportIds(Some(parse), Some({name})) == [id]
  {
    var ids := PdfReportIds(Some(parse), Some({name}));
    forall y ensures y in ids <==> y == id {
      if y in ids {
        var f :| f in {name} && parse(f) == Some(y);
      }
      if y == id {
        assert name in {name};
      }
    }
    OnlyElement(ids, id);
  }

  /** A sorted sequence holding only `x` is `[x]`. */
  lemma OnlyElement(s: seq<string>, x: string)
    requires StrictlySorted(s) && forall y :: y in s <==> y == x
    ensures s == [x]
  {
    assert x in s;
    if |s| > 1 {
      assert s[0] in s && s[1] in s && Less(s[0], s[1]);
      LessIrreflexive(s[0]);
    }
  }

  /**
   * `find_pdf_path` as its docstring means it: "<id>.pdf" when it exists,
   * else the first listed PDF whose identifier under the dataset's pattern is
   * `id`, which covers "RRI <rest>.pdf" and any other spelling the pattern
   * accepts.
   */
  function LocatePdf(id: string, dir: set<string>, dataset: string): (r: Option<string>)
    ensures r.Some? ==> r.value in dir
    ensures id + ".pdf" in dir ==> r == Some(id + ".pdf")
    ensures r.Some? && r.value != id + ".pdf" ==>
              PreprocessPdfPattern(dataset).Some? && PreprocessPdfPattern(dataset).value(r.value) == Some(id)
  {
    if id + ".pdf" in dir then Some(id + ".pdf")
    else
      match PreprocessPdfPattern(dataset)
      case None => None
      case Some(parse) =>
        var named := SortedElements(set f | f in dir && parse(f) == Some(id));
        if named == [] then None
        else
          assert named[0] in named;
          Some(named[0])
  }

  /** Every identifier `src/preprocess.py` discovers has a PDF that the corrected lookup locates. */
  lemma EveryDiscoveredPdfLocated(dataset: string, dir: set<string>, id: string)
    requires id in PreprocessPdfReportIds(dataset, Some(dir))
    ensures LocatePdf(id, dir, dataset).Some?
  {
    if id + ".pdf" !in dir {
      var parse := PreprocessPdfPattern(dataset).value;
      var f :| f in dir && parse(f) == Some(id);
      var named := set g | g in dir && parse(g) == Some(id);
      assert f in named;
      assert f in SortedElements(named);
    }
  }
}

=== FILE: error_distribution.dfy ===
/**
 * Which columns the extraction got wrong, read back from the accuracy files
 * (analyze_error_distribution.py): the differences table of each file is
 * parsed for its column names, the names are matched against the columns the
 * file says were compared, and the names are ranked by how often they occur.
 */
module ErrorDistribution {
  import opened Wrappers
  import opened Text
  import Sorting
  import Tables

  /** Header of the column that names the field in the differences table (line 48). */
  const ColumnHeader: string := "Column"
  const DifferencesMarker: string := "--- Differences ---"
  const ComparedPrefix: string := "Compared Columns ("

  /** A line that reads as the differences marker once stripped. */
  predicate IsMarker(line: string)
  {
    Trim(line) == DifferencesMarker
  }

  /** The first index from `i` on at which `p` holds. */
  function FirstWhere<T>(xs: seq<T>, p: T -> bool, i: nat): (r: Option<nat>)
    requires i <= |xs|
    ensures r.Some? ==> i <= r.value < |xs| && p(xs[r.value])
    ensures r.Some? ==> forall j :: i <= j < r.value ==> !p(xs[j])
    decreases |xs| - i
  {
    if i == |xs| then None
    else if p(xs[i]) then Some(i)
    else FirstWhere(xs, p, i + 1)
  }

  /** The search finds nothing exactly when `p` holds nowhere from `i` on. */
  lemma {:induction false} FirstWhereNone<T>(xs: seq<T>, p: T -> bool, i: nat)
    requires i <= |xs|
    ensures FirstWhere(xs, p, i).None? <==> forall j :: i <= j < |xs| ==> !p(xs[j])
    decreases |xs| - i
  {
    if i < |xs| && !p(xs[i]) {
      FirstWhereNone(xs, p, i + 1);
    }
  }

  /** The search finds `m` when `m` is the first index from `i` on at which `p` holds. */
  lemma {:induction false} FirstWhereAt<T>(xs: seq<T>, p: T -> bool, i: nat, m: nat)
    requires i <= m < |xs| && p(xs[m])
    requires forall j :: i <= j < m ==> !p(xs[j])
    ensures FirstWhere(xs, p, i) == Some(m)
    decreases m - i
  {
    if i < m {
      FirstWhereAt(xs, p, i + 1, m);
    }
  }

  /** Index of the first marker line at or after `i` (lines 55-59). */
  function FindMarker(lines: seq<string>, i: nat): (r: Option<nat>)
    requires i <= |lines|
    ensures r.Some? ==> i <= r.value < |lines|
  {
    FirstWhere(lines, IsMarker, i)
  }

  /** A found line is a marker line, and no line before it from `i` on is one. */
  lemma FindMarkerSome(lines: seq<string>, i: nat)
    requires i <= |lines| && FindMarker(lines, i).Some?
    ensures IsMarker(lines[FindMarker(lines, i).value])
    ensures forall j :: i <= j < FindMarker(lines, i).value ==> !IsMarker(lines[j])
  {
  }

  /** No marker line from `i` on exactly when the search finds none. */
  lemma FindMarkerNone(lines: seq<string>, i: nat)
    requires i <= |lines|
    ensures FindMarker(lines, i).None? <==> forall j :: i <= j < |lines| ==> !IsMarker(lines[j])
  {
    FirstWhereNone(lines, IsMarker, i);
  }

  /** Whether a stripped line is drawn as a table row: it begins and ends with a bar. */
  predicate IsBarred(stripped: string)
  {
    StartsWith(stripped, "|") && EndsWith(stripped, "|")
  }

  /**
   * The header cells of a stripped line (lines 73-78): the non-empty stripped
   * pieces between bars for a barred line, the words otherwise.
   */
  function HeaderCells(stripped: string): seq<string>
  {
    if IsBarred(stripped) then NonEmptyTrimmed(Split(stripped, '|')) else Words(stripped)
  }

  /**
   * Lines 69-81 for one line: the position of the header cell when the
   * stripped line is non-blank, mentions the header and has it as a cell.
   */
  function HeaderColumn(line: string): (r: Option<nat>)
  {
    var st := Trim(line);
    if st == [] || !Contains(st, ColumnHeader) then None
    else
      var hs := HeaderCells(st);
      var col := Tables.ColumnIndex(hs, ColumnHeader);
      if col == |hs| then None else Some(col)
  }

  /** A header line is one that mentions the header and has it as a cell; the column is its first such cell. */
  lemma HeaderColumnMeans(line: string)
    ensures HeaderColumn(line).Some? <==>
              Contains(Trim(line), ColumnHeader) && ColumnHeader in HeaderCells(Trim(line))
    ensures HeaderColumn(line).Some? ==>
              var hs := HeaderCells(Trim(line));
              var col := HeaderColumn(line).value;
              col < |hs| && hs[col] == ColumnHeader && forall k :: 0 <= k < col ==> hs[k] != ColumnHeader
  {
  }

  /** Where the data rows start after a header at `h`: one line further past a rule line (lines 82-86). */
  function DataStart(lines: seq<string>, h: nat): (d: nat)
    requires h < |lines|
    ensures h < d <= h + 2 && d <= |lines|
  {
    var d := h + 1;
    if d < |lines| && (StartsWith(Trim(lines[d]), "|-") || StartsWith(Trim(lines[d]), "+-")) then d + 1 else d
  }

  /** The first index in `[i, end)` whose element `f` maps to a value. */
  function FirstHit<T, U>(xs: seq<T>, f: T -> Option<U>, i: nat, end: nat): (r: Option<nat>)
    requires end <= |xs|
    ensures r.Some? ==> i <= r.value < end && f(xs[r.value]).Some?
    ensures r.Some? ==> forall j :: i <= j < r.value ==> f(xs[j]).None?
    decreases end - i
  {
    if i >= end then None
    else if f(xs[i]).Some? then Some(i)
    else FirstHit(xs, f, i + 1, end)
  }

  /** The search finds nothing exactly when no element of the window maps to a value. */
  lemma {:induction false} FirstHitNone<T, U>(xs: seq<T>, f: T -> Option<U>, i: nat, end: nat)
    requires end <= |xs|
    ensures FirstHit(xs, f, i, end).None? <==> forall j :: i <= j < end ==> f(xs[j]).None?
    decreases end - i
  {
    if i < end && f(xs[i]).None? {
      FirstHitNone(xs, f, i + 1, end);
    }
  }

  /**
   * The header search of lines 68-89 over the window `[i, end)`: the header
   * cell's position in the first header line, and where the data starts.
   */
  function FindHeader(lines: seq<string>, i: nat, end: nat): (r: Option<(nat, nat)>)
    requires end <= |lines|
    ensures r.Some? ==> i < r.value.1 <= |lines|
  {
    match FirstHit(lines, HeaderColumn, i, end)
    case None => None
    case Some(h) => Some((HeaderColumn(lines[h]).value, DataStart(lines, h)))
  }

  /**
   * The search fails exactly when no line of the window is a header line;
   * otherwise it reports the first header line's column and data start.
   */
  lemma FindHeaderMeans(lines: seq<string>, i: nat, end: nat)
    requires end <= |lines|
    ensures FindHeader(lines, i, end).None? <==> forall j :: i <= j < end ==> HeaderColumn(lines[j]).None?
    ensures FindHeader(lines, i, end).Some? ==>
              exists h: nat :: i <= h < end && HeaderColumn(lines[h]).Some?
                && (forall j :: i <= j < h ==> HeaderColumn(lines[j]).None?)
                && FindHeader(lines, i, end).value == (HeaderColumn(lines[h]).value, DataStart(lines, h))
  {
    FirstHitNone(lines, HeaderColumn, i, end);
    FirstHitSome(lines, HeaderColumn, i, end);
  }

  /** A successful search names the first element of the window that maps to a value. */
  lemma FirstHitSome<T, U>(xs: seq<T>, f: T -> Option<U>, i: nat, end: nat)
    requires end <= |xs|
    ensures FirstHit(xs, f, i, end).Some? ==>
              exists h: nat :: i <= h < end && f(xs[h]).Some? && (forall j :: i <= j < h ==> f(xs[j]).None?)
                && FirstHit(xs, f, i, end) == Some(h)
  {
    if FirstHit(xs, f, i, end).Some? {
      var h := FirstHit(xs, f, i, end).value;
      assert f(xs[h]).Some?;
    }
  }

  /** `re.split(r'\s{2,}', s)[0]`: `s` up to its first run of two or more blanks. */
  function BeforeDoubleSpace(s: string): (r: string)
    ensures |r| <= |s| && r == s[..|r|]
    ensures forall i :: 0 <= i < |r| - 1 ==> !(IsSpace(r[i]) && IsSpace(r[i + 1]))
    ensures |r| < |s| ==> |r| + 1 < |s| && IsSpace(s[|r|]) && IsSpace(s[|r| + 1])
  {
    if |s| < 2 then s
    else if IsSpace(s[0]) && IsSpace(s[1]) then []
    else
      var rest := BeforeDoubleSpace(s[1..]);
      [s[0]] + rest
  }

  /** Whether a stripped line closes the table (lines 101-103). */
  predicate EndsTable(stripped: string)
  {
    (StartsWith(stripped, "---") && stripped != DifferencesMarker)
    || (StartsWith(stripped, "+-") && EndsWith(stripped, "--+"))
  }

  /** The field name a data row carries in cell `col` (lines 105-114). */
  function RowName(line: string, col: nat): Option<string>
  {
    var st := Trim(line);
    if IsBarred(st) then
      var cells := NonEmptyTrimmed(Split(line, '|'));
      if col < |cells| then Some(cells[col]) else None
    else if col == 0 && !StartsWith(st, "|") then Some(BeforeDoubleSpace(st))
    else None
  }

  /** The compared columns containing `name`, in their order. */
  function Containing(known: seq<string>, name: string): (r: seq<string>)
    ensures forall k :: k in r <==> k in known && Contains(k, name)
  {
    if known == [] then []
    else if Contains(known[0], name) then [known[0]] + Containing(known[1..], name)
    else Containing(known[1..], name)
  }

  /** `max(cs, key=len)`: the first of the longest. */
  function FirstLongest(cs: seq<string>): (r: string)
    requires cs != []
    ensures r in cs
    ensures forall c :: c in cs ==> |c| <= |r|
    ensures exists i :: 0 <= i < |cs| && cs[i] == r && forall j :: 0 <= j < i ==> |cs[j]| < |r|
  {
    if |cs| == 1 then cs[0]
    else
      var rest := FirstLongest(cs[1..]);
      assert forall c :: c in cs ==> c == cs[0] || c in cs[1..];
      if |rest| > |cs[0]| then
        var i :| 0 <= i < |cs[1..]| && cs[1..][i] == rest && forall j :: 0 <= j < i ==> |cs[1..][j]| < |rest|;
        assert cs[i + 1] == rest && forall j :: 0 <= j < i + 1 ==> |cs[j]| < |rest|;
        rest
      else cs[0]
  }

  /**
   * Lines 116-127: a parsed name is kept when there is no list of compared
   * columns or it is one of them; otherwise the longest compared column that
   * contains it replaces it, when there is one.
   */
  function Normalize(name: string, compared: seq<string>): (r: string)
    ensures compared == [] || name in compared ==> r == name
    ensures r == name || r in compared
  {
    if compared == [] || name in compared then name
    else
      var cands := Containing(compared, name);
      if cands == [] then name
      else
        var r := FirstLongest(cands);
        assert r in compared;
        r
  }

  /**
   * A name is replaced exactly when it is not a compared column but is part
   * of one; the replacement is the first of the longest compared columns
   * containing it.
   */
  lemma NormalizeMeans(name: string, compared: seq<string>)
    ensures var r := Normalize(name, compared);
            (r != name <==> compared != [] && name !in compared && exists k :: k in compared && Contains(k, name))
            && (r != name ==> r in compared && Contains(r, name))
            && (r != name ==> forall k :: k in compared && Contains(k, name) ==> |k| <= |r|)
            && (r != name ==> FirstOfLength(compared, name, r))
  {
    if compared != [] && name !in compared && exists k :: k in compared && Contains(k, name) {
      var k :| k in compared && Contains(k, name);
      assert k in Containing(compared, name);
      ContainingFirstLongest(compared, name);
    }
  }

  /** `r` stands at some position of `known`, and every earlier column containing `name` is shorter. */
  predicate FirstOfLength(known: seq<string>, name: string, r: string)
  {
    exists i :: 0 <= i < |known| && known[i] == r
      && forall j :: 0 <= j < i && Contains(known[j], name) ==> |known[j]| < |r|
  }

  /** A position found in the tail of `known` stays valid once the head, shorter or not containing `name`, goes in front. */
  lemma FirstOfLengthCons(known: seq<string>, name: string, r: string)
    requires known != [] && FirstOfLength(known[1..], name, r)
    requires Contains(known[0], name) ==> |known[0]| < |r|
    ensures FirstOfLength(known, name, r)
  {
    var i :| 0 <= i < |known[1..]| && known[1..][i] == r
             && forall j :: 0 <= j < i && Contains(known[1..][j], name) ==> |known[1..][j]| < |r|;
    assert known[i + 1] == r;
    forall j | 0 <= j < i + 1 && Contains(known[j], name)
      ensures |known[j]| < |r|
    {
      if j > 0 {
        assert known[j] == known[1..][j - 1];
      }
    }
  }

  /** The first of the longest containing columns is, among all compared columns, the first containing one that long. */
  lemma {:induction false} ContainingFirstLongest(known: seq<string>, name: string)
    requires Containing(known, name) != []
    ensures FirstOfLength(known, name, FirstLongest(Containing(known, name)))
  {
    var cands := Containing(known, name);
    var r := FirstLongest(cands);
    var tail := Containing(known[1..], name);
    if Contains(known[0], name) {
      assert cands == [known[0]] + tail;
      if tail != [] && |FirstLongest(tail)| > |known[0]| {
        assert cands[1..] == tail;
        assert r == FirstLongest(tail);
        ContainingFirstLongest(known[1..], name);
        FirstOfLengthCons(known, name, r);
      } else {
        assert r == known[0];
      }
    } else {
      assert cands == tail;
      ContainingFirstLongest(known[1..], name);
      FirstOfLengthCons(known, name, r);
    }
  }

  /** What one pass of the data-row loop does with a line: skip it, stop, or read a name. */
  datatype RowStep = Skip | Stop | Take(name: string)

  /** One pass of the loop of lines 96-128 over `line`, reading cell `col`. */
  function StepOf(line: string, col: nat, compared: seq<string>): RowStep
  {
    var st := Trim(line);
    if st == [] then Skip
    else if EndsTable(st) then Stop
    else
      match RowName(line, col)
      case Some(name) => if name != [] && name != ColumnHeader then Take(Normalize(name, compared)) else Skip
      case None => Skip
  }

  /** `StepOf` for a fixed column and list of compared columns, as a function of the line. */
  function RowSteps(col: nat, compared: seq<string>): string -> RowStep
  {
    line => StepOf(line, col, compared)
  }

  /** The names a loop reads from `xs[i..]`, one step per element, up to the first stop. */
  function Scan<T>(xs: seq<T>, step: T -> RowStep, i: nat): (names: seq<string>)
    requires i <= |xs|
    ensures |names| <= |xs| - i
    decreases |xs| - i
  {
    if i == |xs| then []
    else
      match step(xs[i])
      case Skip => Scan(xs, step, i + 1)
      case Stop => []
      case Take(name) => [name] + Scan(xs, step, i + 1)
  }

  /** The data-row loop of lines 96-128 from line `i`, up to the line that closes the table. */
  function ScanRows(lines: seq<string>, i: nat, col: nat, compared: seq<string>): (names: seq<string>)
    requires i <= |lines|
    ensures |names| <= |lines| - i
  {
    Scan(lines, RowSteps(col, compared), i)
  }

  /** The end of the header search after a marker at `m`: four lines on, or the end of the file (line 68). */
  function HeaderWindowEnd(m: nat, n: nat): (end: nat)
    requires m < n
    ensures m < end <= n && end <= m + 5
  {
    if m + 5 < n then m + 5 else n
  }

  /**
   * `parse_error_columns_from_file` (lines 32-135).  `contents` is `None` when
   * the file cannot be read, which yields no names.
   */
  function ParseErrorColumns(contents: Option<seq<string>>, compared: seq<string>): (names: seq<string>)
    ensures contents.None? ==> names == []
    ensures contents.Some? && FindMarker(contents.value, 0).None? ==> names == []
  {
    match contents
    case None => []
    case Some(lines) =>
      match FindMarker(lines, 0)
      case None => []
      case Some(m) =>
        match FindHeader(lines, m + 1, HeaderWindowEnd(m, |lines|))
        case None => []
        case Some((col, data)) =>
          ScanRows(lines, data, col, compared)
  }

  /** A file whose four lines after the marker hold no header line yields no names (lines 68-93). */
  lemma NoHeaderNoNames(lines: seq<string>, m: nat, compared: seq<string>)
    requires FindMarker(lines, 0) == Some(m)
    requires forall j :: m + 1 <= j < HeaderWindowEnd(m, |lines|) ==> HeaderColumn(lines[j]).None?
    ensures ParseErrorColumns(Some(lines), compared) == []
  {
    var end := HeaderWindowEnd(m, |lines|);
    FirstHitNone(lines, HeaderColumn, m + 1, end);
    HeaderSearchFails(lines, m, compared);
  }

  lemma HeaderSearchFails(lines: seq<string>, m: nat, compared: seq<string>)
    requires FindMarker(lines, 0) == Some(m) && m < |lines|
    requires FirstHit(lines, HeaderColumn, m + 1, HeaderWindowEnd(m, |lines|)).None?
    ensures ParseErrorColumns(Some(lines), compared) == []
  {
  }

  /** The pre-parse of lines 183-195 from line `i`: the first non-blank line after a "Compared Columns (" line. */
  function ComparedFrom(lines: seq<string>, i: nat, reading: bool): (cols: seq<string>)
    requires i <= |lines|
    ensures forall k :: 0 <= k < |cols| ==> cols[k] != [] && IsTrimmed(cols[k]) && ',' !in cols[k]
    decreases |lines| - i
  {
    if i == |lines| then []
    else
      var st := Trim(lines[i]);
      if StartsWith(st, ComparedPrefix) then ComparedFrom(lines, i + 1, true)
      else if reading && st != [] then
        var parts := Split(st, ',');
        var cols := NonEmptyTrimmed(parts);
        assert forall k :: 0 <= k < |cols| ==> ',' !in cols[k] by {
          NonEmptyTrimmedKeeps(parts, ',');
        }
        cols
      else ComparedFrom(lines, i + 1, reading)
  }

  /** Stripping and dropping pieces keeps a character that no piece had out. */
  lemma {:induction false} NonEmptyTrimmedKeeps(parts: seq<string>, c: char)
    requires forall i :: 0 <= i < |parts| ==> c !in parts[i]
    ensures forall i :: 0 <= i < |NonEmptyTrimmed(parts)| ==> c !in NonEmptyTrimmed(parts)[i]
  {
    if parts != [] {
      TailAvoids(parts, c);
      NonEmptyTrimmedKeeps(parts[1..], c);
      TrimKeepsOut(parts[0], c);
      if Trim(parts[0]) != [] {
        ConsAvoids(Trim(parts[0]), NonEmptyTrimmed(parts[1..]), c);
      }
    }
  }

  lemma TailAvoids<T>(parts: seq<seq<T>>, c: T)
    requires parts != [] && forall i :: 0 <= i < |parts| ==> c !in parts[i]
    ensures c !in parts[0] && forall i :: 0 <= i < |parts[1..]| ==> c !in parts[1..][i]
  {
  }

  lemma ConsAvoids<T>(x: seq<T>, xs: seq<seq<T>>, c: T)
    requires c !in x && forall i :: 0 <= i < |xs| ==> c !in xs[i]
    ensures forall i :: 0 <= i < |[x] + xs| ==> c !in ([x] + xs)[i]
  {
  }

  /** The columns a file says were compared; none when it cannot be read. */
  function ComparedColumns(contents: Option<seq<string>>): seq<string>
  {
    match contents
    case None => []
    case Some(lines) => ComparedFrom(lines, 0, false)
  }

  /** One counted name and how often it occurred. */
  type Tally = (string, nat)

  /** No name is counted twice, as in a dictionary. */
  predicate DistinctNames(cs: seq<Tally>)
  {
    forall i, j :: 0 <= i < j < |cs| ==> cs[i].0 != cs[j].0
  }

  /** `Counter.update` with one name: its count goes up by one, or it is appended with count one. */
  function Bump(cs: seq<Tally>, x: string): (r: seq<Tally>)
    requires DistinctNames(cs)
    ensures DistinctNames(r)
    ensures |cs| <= |r| <= |cs| + 1
    ensures forall i :: 0 <= i < |cs| ==> r[i].0 == cs[i].0 && r[i].1 == cs[i].1 + (if cs[i].0 == x then 1 else 0)
    ensures |r| == |cs| + 1 <==> forall i :: 0 <= i < |cs| ==> cs[i].0 != x
    ensures |r| == |cs| + 1 ==> r[|cs|] == (x, 1)
  {
    if cs == [] then [(x, 1)]
    else if cs[0].0 == x then [(x, cs[0].1 + 1)] + cs[1..]
    else [cs[0]] + Bump(cs[1..], x)
  }

  /**
   * `Counter(xs).items()` (line 211): each distinct name once, in order of
   * first appearance; `CountsCount` and `CountsCover` state what is counted.
   */
  function Counts(xs: seq<string>): (cs: seq<Tally>)
    ensures DistinctNames(cs)
  {
    if xs == [] then [] else Bump(Counts(xs[..|xs| - 1]), xs[|xs| - 1])
  }

  /** Each counted name occurs in the input, as often as its count says. */
  lemma {:induction false} CountsCount(xs: seq<string>)
    ensures forall i :: 0 <= i < |Counts(xs)| ==>
              Counts(xs)[i].0 in xs && Counts(xs)[i].1 == multiset(xs)[Counts(xs)[i].0]
  {
    if xs != [] {
      var init := xs[..|xs| - 1];
      var x := xs[|xs| - 1];
      assert xs == init + [x];
      CountsCount(init);
      CountsCover(init);
      assert Counts(xs) == Bump(Counts(init), x);
      BumpCounts(Counts(init), init, x, xs);
    }
  }

  /** Counting one more name keeps every count equal to the number of occurrences. */
  lemma BumpCounts(prev: seq<Tally>, init: seq<string>, x: string, xs: seq<string>)
    requires xs == init + [x]
    requires DistinctNames(prev)
    requires forall i :: 0 <= i < |prev| ==> prev[i].0 in init && prev[i].1 == multiset(init)[prev[i].0]
    requires forall y :: y in init ==> Named(prev, y)
    ensures var r := Bump(prev, x);
            forall i :: 0 <= i < |r| ==> r[i].0 in xs && r[i].1 == multiset(xs)[r[i].0]
  {
    var r := Bump(prev, x);
    forall i | 0 <= i < |r| ensures r[i].0 in xs && r[i].1 == multiset(xs)[r[i].0] {
      if i < |prev| {
        assert prev[i].0 in init;
      } else {
        assert x !in init;
      }
    }
  }

  /** `y` is one of the counted names. */
  predicate Named(cs: seq<Tally>, y: string)
  {
    exists i :: 0 <= i < |cs| && cs[i].0 == y
  }

  /** Every name of the input is counted. */
  lemma {:induction false} CountsCover(xs: seq<string>)
    ensures forall y :: y in xs ==> Named(Counts(xs), y)
  {
    if xs != [] {
      var init := xs[..|xs| - 1];
      var x := xs[|xs| - 1];
      assert xs == init + [x];
      CountsCover(init);
      var prev := Counts(init);
      var r := Bump(prev, x);
      assert r == Counts(xs);
      forall y | y in xs ensures Named(r, y) {
        if y in init {
          var k :| 0 <= k < |prev| && prev[k].0 == y;
          assert r[k].0 == y;
        } else if |r| == |prev| {
          var k :| 0 <= k < |prev| && prev[k].0 == x;
          assert r[k].0 == y;
        } else {
          assert r[|prev|].0 == y;
        }
      }
    }
  }

  /** Sum of the counts. */
  function Total(cs: seq<Tally>): nat
  {
    if cs == [] then 0 else cs[0].1 + Total(cs[1..])
  }

  lemma {:induction false} BumpTotal(cs: seq<Tally>, x: string)
    requires DistinctNames(cs)
    ensures Total(Bump(cs, x)) == Total(cs) + 1
  {
    if cs != [] && cs[0].0 != x {
      BumpTotal(cs[1..], x);
      assert Bump(cs, x)[1..] == Bump(cs[1..], x);
    } else if cs != [] {
      assert Bump(cs, x)[1..] == cs[1..];
    }
  }

  /** Every occurrence is counted once: the counts add up to the number of names. */
  lemma {:induction false} CountsTotal(xs: seq<string>)
    ensures Total(Counts(xs)) == |xs|
  {
    if xs != [] {
      CountsTotal(xs[..|xs| - 1]);
      BumpTotal(Counts(xs[..|xs| - 1]), xs[|xs| - 1]);
    }
  }

  /** `sort_values(by='Error_Frequency', ascending=False)`: larger counts first. */
  predicate MoreFrequent(a: Tally, b: Tally)
  {
    a.1 >= b.1
  }

  lemma MoreFrequentIsTotalPreorder()
    ensures Sorting.TotalPreorder(MoreFrequent)
  {
  }

  /** The counts ranked from the most to the least frequent name (line 213). */
  function Ranking(xs: seq<string>): (r: seq<Tally>)
    ensures Sorting.SortedBy(r, MoreFrequent)
    ensures multiset(r) == multiset(Counts(xs))
  {
    MoreFrequentIsTotalPreorder();
    Sorting.SortBy(Counts(xs), MoreFrequent)
  }

  /** A sequence without repeated names holds each entry at most once. */
  lemma {:induction false} DistinctOnce(a: seq<Tally>, e: Tally)
    requires DistinctNames(a)
    ensures multiset(a)[e] <= 1
  {
    if a != [] {
      assert a == [a[0]] + a[1..];
      DistinctOnce(a[1..], e);
      if a[0] == e {
        assert e !in a[1..] by {
          forall k | 0 <= k < |a[1..]| ensures a[1..][k] != e {
            assert a[1..][k] == a[k + 1];
          }
        }
      }
    }
  }

  /** An entry found at two positions is counted twice by the multiset. */
  lemma TwiceCounted(b: seq<Tally>, i: nat, j: nat)
    requires i < j < |b| && b[i] == b[j]
    ensures multiset(b)[b[i]] >= 2
  {
    assert b == b[..j] + [b[j]] + b[j + 1..];
    assert b[i] in b[..j];
  }

  /** The ranked entries are the counted ones: each name occurs as often as its count says. */
  lemma RankingCount(xs: seq<string>)
    ensures forall i :: 0 <= i < |Ranking(xs)| ==>
              Ranking(xs)[i].0 in xs && Ranking(xs)[i].1 == multiset(xs)[Ranking(xs)[i].0]
  {
    var r := Ranking(xs);
    var cs := Counts(xs);
    CountsCount(xs);
    forall i | 0 <= i < |r| ensures r[i].0 in xs && r[i].1 == multiset(xs)[r[i].0] {
      assert r[i] in multiset(cs);
      var k :| 0 <= k < |cs| && cs[k] == r[i];
    }
  }

  /** Every name of the input is ranked. */
  lemma RankingCover(xs: seq<string>)
    ensures forall y :: y in xs ==> Named(Ranking(xs), y)
  {
    var r := Ranking(xs);
    var cs := Counts(xs);
    CountsCover(xs);
    forall y | y in xs ensures Named(r, y) {
      var k :| 0 <= k < |cs| && cs[k].0 == y;
      assert cs[k] in multiset(r);
      var i :| 0 <= i < |r| && r[i] == cs[k];
    }
  }

  /** No name is ranked twice. */
  lemma RankingDistinct(xs: seq<string>)
    ensures DistinctNames(Ranking(xs))
  {
    var r := Ranking(xs);
    RankingCount(xs);
    forall i, j | 0 <= i < j < |r| ensures r[i].0 != r[j].0 {
      if r[i].0 == r[j].0 {
        TwiceCounted(r, i, j);
        DistinctOnce(Counts(xs), r[i]);
        assert false;
      }
    }
  }

  /**
   * What the table of error frequencies says about the error names `xs`:
   * every name once, with the number of times it occurs, most frequent first.
   */
  ghost predicate Ranks(r: seq<Tally>, xs: seq<string>)
  {
    Sorting.SortedBy(r, MoreFrequent)
    && DistinctNames(r)
    && (forall i :: 0 <= i < |r| ==> r[i].0 in xs && r[i].1 == multiset(xs)[r[i].0])
    && (forall y :: y in xs ==> Named(r, y))
  }

  /** The `.txt` names of a listing, in listing order (line 169). */
  function TextFiles(names: seq<string>): (r: seq<string>)
    ensures forall f :: f in r <==> f in names && EndsWith(f, ".txt")
  {
    if names == [] then []
    else if EndsWith(names[0], ".txt") then [names[0]] + TextFiles(names[1..])
    else TextFiles(names[1..])
  }

  /**
   * The error names of one file (lines 179-201): its compared columns are
   * read first and used to normalise the names of its differences table.
   */
  function FileErrors(name: string, read: string -> Option<seq<string>>): seq<string>
  {
    var contents := read(name);
    ParseErrorColumns(contents, ComparedColumns(contents))
  }

  /** The error names of all files, file after file (line 202). */
  function AllErrors(files: seq<string>, read: string -> Option<seq<string>>): seq<string>
  {
    if files == [] then [] else FileErrors(files[0], read) + AllErrors(files[1..], read)
  }

  datatype AnalysisError = NoAccuracyDirectory | NoTextFiles | NoErrors

  /**
   * `analyze_error_distribution_for_provider_model` (lines 160-213).  The
   * accuracy directory is its listing in `os.listdir` order (`None` when it
   * is not a directory) and `read` gives a file's lines.
   */
  function Analyze(listing: Option<seq<string>>, read: string -> Option<seq<string>>): (r: Result<seq<Tally>, AnalysisError>)
    ensures r == Err(NoAccuracyDirectory) <==> listing.None?
    ensures r == Err(NoTextFiles) <==> listing.Some? && forall f :: f in listing.value ==> !EndsWith(f, ".txt")
    ensures r == Err(NoErrors) <==> listing.Some? && TextFiles(listing.value) != []
                                    && AllErrors(TextFiles(listing.value), read) == []
    ensures r.Ok? ==> listing.Some? && Ranks(r.value, AllErrors(TextFiles(listing.value), read))
  {
    match listing
    case None => Err(NoAccuracyDirectory)
    case Some(names) =>
      var files := TextFiles(names);
      if files == [] then
        Err(NoTextFiles)
      else
        assert files[0] in names && EndsWith(files[0], ".txt");
        var errors := AllErrors(files, read);
        if errors == [] then Err(NoErrors)
        else
          RankingCount(errors);
          RankingCover(errors);
          RankingDistinct(errors);
          Ok(Ranking(errors))
  }
}

=== FILE: error_read_back.dfy ===
/**
 * Reading an accuracy file back: what `analyze_error_distribution.py`
 * recovers from a file that `evaluation.main` wrote.  The compared columns
 * come back as written, and the differences table yields the column of
 * every difference, in order.
 */
module ErrorReadBack {
  import opened Wrappers
  import opened Text
  import Cells
  import Tables
  import Scoring
  import AccuracyFile
  import opened ErrorDistribution

  /** A plain field name: non-empty, stripped, and without the comma and bar that the file uses as separators. */
  predicate PlainName(c: string)
  {
    c != [] && IsTrimmed(c) && ',' !in c && '|' !in c
  }

  /** `p` stays at the front of `p + rest` when stripped, if `p` has non-blank ends. */
  lemma TrimKeepsPrefix(p: string, rest: string)
    requires p != [] && !IsSpace(p[0]) && !IsSpace(p[|p| - 1])
    ensures StartsWith(Trim(p + rest), p)
  {
    var s := p + rest;
    var k: nat :| PaddedAt(s, Trim(s), k);
    assert PaddedAt(s, Trim(s), k);
    assert k == 0 by {
      assert s[0] == p[0];
    }
    assert |Trim(s)| >= |p| by {
      assert s[|p| - 1] == p[|p| - 1];
    }
    assert Trim(s)[..|p|] == s[..|p|];
  }

  /** A line that starts with a non-blank character other than a dash is not the marker. */
  lemma NotMarkerByHead(line: string)
    requires line != [] && !IsSpace(line[0]) && line[0] != '-'
    ensures !IsMarker(line)
  {
    TrimHead(line);
  }

  /** A blank line is not the marker. */
  lemma NewlineNotMarker()
    ensures !IsMarker("\n")
  {
    TrimPadded([], [], "\n");
    assert [] + [] + "\n" == "\n";
  }

  /** The line `text + "\n"` strips to `text` when `text` is stripped already. */
  lemma TrimNewline(text: string)
    requires IsTrimmed(text)
    ensures Trim(text + "\n") == text
  {
    TrimPadded([], text, "\n");
    assert [] + text + "\n" == text + "\n";
  }

  /** The joined column names start with the first name. */
  lemma JoinStart(cols: seq<string>)
    requires cols != []
    ensures |cols[0]| <= |Join(cols, ", ")| && Join(cols, ", ")[..|cols[0]|] == cols[0]
    ensures |cols| > 1 ==> Join(cols, ", ")[|cols[0]|] == ','
  {
    if |cols| > 1 {
      assert Join(cols, ", ") == cols[0] + ", " + Join(cols[1..], ", ");
    }
  }

  /** A comma-free prefix of the joined names is a prefix of the first name. */
  lemma JoinStartsWith(cols: seq<string>, p: string)
    requires cols != [] && ',' !in p
    requires StartsWith(Join(cols, ", "), p)
    ensures StartsWith(cols[0], p)
  {
    JoinStart(cols);
    var j := Join(cols, ", ");
    if |cols[0]| >= |p| {
      assert cols[0][..|p|] == j[..|p|];
    }
  }

  /** Joining non-empty stripped names keeps both ends of the result non-blank. */
  lemma {:induction false} JoinTrimmed(cols: seq<string>)
    requires cols != []
    requires forall i :: 0 <= i < |cols| ==> cols[i] != [] && IsTrimmed(cols[i])
    ensures var j := Join(cols, ", "); j != [] && IsTrimmed(j)
    ensures Join(cols, ", ")[0] == cols[0][0]
  {
    if |cols| > 1 {
      JoinTrimmed(cols[1..]);
      var rest := Join(cols[1..], ", ");
      assert Join(cols, ", ") == cols[0] + ", " + rest;
    }
  }

  /** Each name after a leading space, as `split(',')` leaves the names after the first. */
  function Spaced(cs: seq<string>): (r: seq<string>)
    ensures |r| == |cs| && forall i :: 0 <= i < |cs| ==> r[i] == " " + cs[i]
  {
    seq(|cs|, i requires 0 <= i < |cs| => " " + cs[i])
  }

  /** Joining with ", " is joining with "," the names after the first with a leading space. */
  lemma {:induction false} JoinComma(cols: seq<string>, lead: string)
    requires cols != []
    ensures Join([lead + cols[0]] + Spaced(cols[1..]), ",") == lead + Join(cols, ", ")
    decreases |cols|
  {
    var parts := [lead + cols[0]] + Spaced(cols[1..]);
    if |cols| > 1 {
      JoinComma(cols[1..], " ");
      assert parts[1..] == [" " + cols[1..][0]] + Spaced(cols[1..][1..]);
    }
  }

  /** Stripping the spaced names and dropping empty ones gives the names back. */
  lemma {:induction false} TrimSpaced(cs: seq<string>)
    requires forall i :: 0 <= i < |cs| ==> cs[i] != [] && IsTrimmed(cs[i])
    ensures NonEmptyTrimmed(Spaced(cs)) == cs
  {
    if cs != [] {
      TrimPadded(" ", cs[0], []);
      assert " " + cs[0] + [] == Spaced(cs)[0];
      assert Spaced(cs)[1..] == Spaced(cs[1..]);
      TrimSpaced(cs[1..]);
    }
  }

  /** Splitting the joined names at commas gives the first name and the others after a space. */
  lemma CommaParts(cols: seq<string>)
    requires cols != [] && forall i :: 0 <= i < |cols| ==> PlainName(cols[i])
    ensures Split(Join(cols, ", "), ',') == [cols[0]] + Spaced(cols[1..])
  {
    var parts := [cols[0]] + Spaced(cols[1..]);
    JoinComma(cols, "");
    assert [] + cols[0] == cols[0];
    assert [] + Join(cols, ", ") == Join(cols, ", ");
    forall i | 0 <= i < |parts| ensures ',' !in parts[i] {
      if i > 0 {
        assert parts[i] == " " + cols[i];
      }
    }
    SplitOfJoin(parts, ',');
  }

  /** Stripping those pieces gives the names back. */
  lemma TrimParts(cols: seq<string>)
    requires cols != [] && forall i :: 0 <= i < |cols| ==> PlainName(cols[i])
    ensures NonEmptyTrimmed([cols[0]] + Spaced(cols[1..])) == cols
  {
    var parts := [cols[0]] + Spaced(cols[1..]);
    TrimOfTrimmed(cols[0]);
    assert parts[1..] == Spaced(cols[1..]);
    TrimSpaced(cols[1..]);
    assert cols == [cols[0]] + cols[1..];
  }

  /** `[p.strip() for p in line.split(',') if p.strip()]` undoes `', '.join` for plain names. */
  lemma SplitJoinedNames(cols: seq<string>)
    requires cols != [] && forall i :: 0 <= i < |cols| ==> PlainName(cols[i])
    ensures NonEmptyTrimmed(Split(Join(cols, ", "), ',')) == cols
  {
    var parts := Split(Join(cols, ", "), ',');
    CommaParts(cols);
    TrimParts(cols);
    assert NonEmptyTrimmed(parts) == NonEmptyTrimmed([cols[0]] + Spaced(cols[1..]));
  }

  /** The pre-parse passes over a line that neither opens the list nor is to be read. */
  lemma ComparedSkip(lines: seq<string>, i: nat, reading: bool)
    requires i < |lines|
    requires !StartsWith(Trim(lines[i]), ComparedPrefix) && !(reading && Trim(lines[i]) != [])
    ensures ComparedFrom(lines, i, reading) == ComparedFrom(lines, i + 1, reading)
  {
  }

  /** A line that opens the list makes the pre-parse read the next non-blank line. */
  lemma ComparedOpen(lines: seq<string>, i: nat, reading: bool)
    requires i < |lines| && StartsWith(Trim(lines[i]), ComparedPrefix)
    ensures ComparedFrom(lines, i, reading) == ComparedFrom(lines, i + 1, true)
  {
  }

  /** The non-blank line read after the opening line gives the names. */
  lemma ComparedTake(lines: seq<string>, i: nat)
    requires i < |lines| && !StartsWith(Trim(lines[i]), ComparedPrefix) && Trim(lines[i]) != []
    ensures ComparedFrom(lines, i, true) == NonEmptyTrimmed(Split(Trim(lines[i]), ','))
  {
  }

  /** What the read-back needs of the compared columns. */
  predicate ReadableColumns(cols: seq<string>)
  {
    cols != []
    && (forall i :: 0 <= i < |cols| ==> PlainName(cols[i]))
    && !StartsWith(cols[0], ComparedPrefix)
    && !StartsWith(cols[0], DifferencesMarker)
  }

  /** The stripped column line is the joined names, which neither starts the compared list nor is the marker. */
  lemma ColumnLine(cols: seq<string>)
    requires ReadableColumns(cols)
    ensures Trim(Join(cols, ", ") + "\n") == Join(cols, ", ")
    ensures Join(cols, ", ") != [] && !StartsWith(Join(cols, ", "), ComparedPrefix)
    ensures !IsMarker(Join(cols, ", ") + "\n")
  {
    var j := Join(cols, ", ");
    JoinTrimmed(cols);
    TrimNewline(j);
    KeysHaveNoComma();
    JoinAvoids(cols, ComparedPrefix);
    JoinAvoids(cols, DifferencesMarker);
    NotMarkerUnlessPrefix(j + "\n", j);
  }

  lemma KeysHaveNoComma()
    ensures ',' !in ComparedPrefix && ',' !in DifferencesMarker
  {
  }

  /** The joined names start with a comma-free text only when the first name does. */
  lemma JoinAvoids(cols: seq<string>, p: string)
    requires cols != [] && ',' !in p && !StartsWith(cols[0], p)
    ensures !StartsWith(Join(cols, ", "), p)
  {
    if StartsWith(Join(cols, ", "), p) {
      JoinStartsWith(cols, p);
    }
  }

  lemma NotMarkerUnlessPrefix(line: string, t: string)
    requires Trim(line) == t && !StartsWith(t, DifferencesMarker)
    ensures !IsMarker(line)
  {
  }

  /** The first two lines of a written file, as the pre-parse sees them. */
  lemma HeaderFront(s: Scoring.Score, fixed4: real -> string, table: seq<string>)
    ensures var lines := AccuracyFile.FileLines(s, fixed4, table);
            |lines| >= 8
            && Trim(lines[0]) != [] && Trim(lines[0])[0] == 'R' && !StartsWith(Trim(lines[0]), ComparedPrefix)
            && StartsWith(Trim(lines[1]), ComparedPrefix)
            && lines[2] == Join(s.columns, ", ") + "\n"
  {
    var lines := AccuracyFile.FileLines(s, fixed4, table);
    var header := AccuracyFile.HeaderLines(s, fixed4);
    AccuracyFile.HeaderLineForms(s, fixed4);
    FrontLines(lines, header);
    ReportLineHead(s.formattedId);
    TrimKeepsPrefix(ComparedPrefix, Decimal(|s.columns|) + "):\n");
    assert header[1] == ComparedPrefix + (Decimal(|s.columns|) + "):\n");
  }

  /** The first three of lines that begin with `header` are its first three. */
  lemma FrontLines<T>(lines: seq<T>, header: seq<T>)
    requires |lines| >= 8 && lines[..8] == header
    ensures lines[0] == header[0] && lines[1] == header[1] && lines[2] == header[2]
  {
    assert lines[0] == lines[..8][0] && lines[1] == lines[..8][1] && lines[2] == lines[..8][2];
  }

  /** The identifier line strips to a text that starts with its key, so not with the compared-columns key. */
  lemma ReportLineHead(id: string)
    ensures var t := Trim("Report ID: " + id + "\n");
            t != [] && t[0] == 'R' && !StartsWith(t, ComparedPrefix)
  {
    var line := "Report ID: " + id + "\n";
    assert line[0] == 'R';
    TrimHead(line);
  }

  /**
   * Lines 179-195 recover the compared columns of a written file exactly,
   * whatever follows the header.
   */
  lemma ComparedReadBack(s: Scoring.Score, fixed4: real -> string, table: seq<string>)
    requires ReadableColumns(s.columns)
    ensures ComparedColumns(Some(AccuracyFile.FileLines(s, fixed4, table))) == s.columns
  {
    var lines := AccuracyFile.FileLines(s, fixed4, table);
    HeaderFront(s, fixed4, table);
    ComparedSkip(lines, 0, false);
    ComparedOpen(lines, 1, false);
    ColumnLine(s.columns);
    ComparedTake(lines, 2);
    SplitJoinedNames(s.columns);
  }

  /** The search finds the marker at `m` when it is the first one from `i` on. */
  lemma FindMarkerAt(lines: seq<string>, i: nat, m: nat)
    requires i <= m < |lines| && IsMarker(lines[m])
    requires forall j :: i <= j < m ==> !IsMarker(lines[j])
    ensures FindMarker(lines, i) == Some(m)
  {
    FirstWhereAt(lines, IsMarker, i, m);
  }

  /** None of the eight header lines of a written file is the marker. */
  lemma HeaderHasNoMarker(s: Scoring.Score, fixed4: real -> string, table: seq<string>)
    requires ReadableColumns(s.columns)
    ensures var lines := AccuracyFile.FileLines(s, fixed4, table);
            forall j :: 0 <= j < 8 ==> !IsMarker(lines[j])
  {
    var lines := AccuracyFile.FileLines(s, fixed4, table);
    var header := AccuracyFile.HeaderLines(s, fixed4);
    HeaderLinesNotMarker(s, fixed4);
    FrontAvoids(lines, header, IsMarker);
  }

  /** Each header line is not the marker: six start with a capital, one is blank, one is the column line. */
  lemma HeaderLinesNotMarker(s: Scoring.Score, fixed4: real -> string)
    requires ReadableColumns(s.columns)
    ensures var header := AccuracyFile.HeaderLines(s, fixed4);
            !IsMarker(header[0]) && !IsMarker(header[1]) && !IsMarker(header[2]) && !IsMarker(header[3])
            && !IsMarker(header[4]) && !IsMarker(header[5]) && !IsMarker(header[6]) && !IsMarker(header[7])
  {
    var header := AccuracyFile.HeaderLines(s, fixed4);
    KeyedNotMarker("Report ID: ", s.formattedId);
    KeyedNotMarker("Compared Columns (", Decimal(|s.columns|) + "):");
    AccuracyFile.HeaderLineForms(s, fixed4);
    ColumnLine(s.columns);
    NewlineNotMarker();
    KeyedNotMarker("Total comparable cells: ", Decimal(s.total));
    KeyedNotMarker("Correct cells: ", Decimal(s.correct));
    KeyedNotMarker("Incorrect cells: ", Decimal(s.incorrect));
    KeyedNotMarker("Overall accuracy: ", fixed4(s.accuracy));
  }

  /** A line that starts with a key beginning with a capital letter is not the marker. */
  lemma KeyedNotMarker(key: string, value: string)
    requires key != [] && 'A' <= key[0] <= 'Z'
    ensures !IsMarker(key + value + "\n")
  {
    var line := key + value + "\n";
    assert line[0] == key[0];
    NotMarkerByHead(line);
  }

  /** Lines that begin with eight lines none of which has `p` have none among their first eight. */
  lemma FrontAvoids<T>(lines: seq<T>, header: seq<T>, p: T -> bool)
    requires |lines| >= 8 && lines[..8] == header
    requires !p(header[0]) && !p(header[1]) && !p(header[2]) && !p(header[3])
    requires !p(header[4]) && !p(header[5]) && !p(header[6]) && !p(header[7])
    ensures forall j :: 0 <= j < 8 ==> !p(lines[j])
  {
    forall j | 0 <= j < 8 ensures !p(lines[j]) {
      assert lines[j] == header[j];
      if j == 0 {} else if j == 1 {} else if j == 2 {} else if j == 3 {} else if j == 4 {} else if j == 5 {} else if j == 6 {}
    }
  }

  /** The marker of a written file with differences is its tenth line. */
  lemma MarkerLine(s: Scoring.Score, fixed4: real -> string, table: seq<string>)
    requires ReadableColumns(s.columns) && s.incorrect > 0
    ensures FindMarker(AccuracyFile.FileLines(s, fixed4, table), 0) == Some(9)
  {
    var lines := AccuracyFile.FileLines(s, fixed4, table);
    HeaderHasNoMarker(s, fixed4, table);
    BlankThenMarker(s, fixed4, table);
    MarkerNinth(lines);
  }

  /** Lines whose first marker is the tenth are searched to the tenth. */
  lemma MarkerNinth(lines: seq<string>)
    requires |lines| >= 10 && IsMarker(lines[9])
    requires forall j :: 0 <= j < 8 ==> !IsMarker(lines[j])
    requires !IsMarker(lines[8])
    ensures FindMarker(lines, 0) == Some(9)
  {
    forall j | 0 <= j < 9 ensures !IsMarker(lines[j]) {
      if j == 8 {
        assert lines[j] == lines[8];
      }
    }
    FindMarkerAt(lines, 0, 9);
  }

  /** After the header of a file with differences come a blank line and the marker. */
  lemma BlankThenMarker(s: Scoring.Score, fixed4: real -> string, table: seq<string>)
    requires s.incorrect > 0
    ensures var lines := AccuracyFile.FileLines(s, fixed4, table);
            |lines| >= 10 && !IsMarker(lines[8]) && IsMarker(lines[9])
  {
    var lines := AccuracyFile.FileLines(s, fixed4, table);
    assert lines[8] == lines[8..][0] == "\n";
    assert lines[9] == lines[8..][1] == DifferencesMarker + "\n";
    NewlineNotMarker();
    TrimNewline(DifferencesMarker);
  }

  /** A written file without differences has no marker. */
  lemma NoMarkerLine(s: Scoring.Score, fixed4: real -> string, table: seq<string>)
    requires ReadableColumns(s.columns) && s.incorrect == 0
    ensures FindMarker(AccuracyFile.FileLines(s, fixed4, table), 0).None?
  {
    HeaderHasNoMarker(s, fixed4, table);
  }

  /** A padded cell strips to its text. */
  lemma TrimPadCell(text: string, width: nat)
    requires IsTrimmed(text)
    ensures Trim(AccuracyFile.PadCell(text, width)) == text
  {
    var n := if |text| < width then width - |text| else 0;
    var post := AccuracyFile.Repeat(' ', n) + " ";
    SpacesThenSpace(n);
    LeadingSpace();
    TrimPadded(" ", text, post);
    PadCellSplit(text, width, n);
  }

  lemma LeadingSpace()
    ensures forall i :: 0 <= i < |" "| ==> IsSpace(" "[i])
  {
  }

  /** Spaces followed by a space are all blank. */
  lemma SpacesThenSpace(n: nat)
    ensures var post := AccuracyFile.Repeat(' ', n) + " ";
            forall i :: 0 <= i < |post| ==> IsSpace(post[i])
  {
    var post := AccuracyFile.Repeat(' ', n) + " ";
    forall i | 0 <= i < |post| ensures IsSpace(post[i]) {
      assert post[i] == ' ';
    }
  }

  /** A padded cell is a space, the text, and its fill followed by a space. */
  lemma PadCellSplit(text: string, width: nat, n: nat)
    requires n == if |text| < width then width - |text| else 0
    ensures AccuracyFile.PadCell(text, width) == " " + text + (AccuracyFile.Repeat(' ', n) + " ")
  {
  }

  /** The first cell of a row, whatever follows the row on its line, is the first text. */
  lemma FirstCell(texts: seq<string>, widths: seq<nat>, tail: string)
    requires |texts| == |widths| && texts != []
    requires texts[0] != [] && IsTrimmed(texts[0]) && '|' !in texts[0]
    ensures var cells := NonEmptyTrimmed(Split(AccuracyFile.RenderRow(texts, widths) + tail, '|'));
            cells != [] && cells[0] == texts[0]
  {
    var pad := AccuracyFile.PadCell(texts[0], widths[0]);
    var after := AccuracyFile.RowCells(texts[1..], widths[1..]) + tail;
    RowThenTail(texts, widths, tail);
    PadCellNoBar(texts[0], widths[0]);
    SplitBarred(pad, after, '|');
    TrimPadCell(texts[0], widths[0]);
    FirstKept(pad, Split(after, '|'));
  }

  /** A row followed by more text: a bar, the first padded cell, a bar, and the rest. */
  lemma RowThenTail(texts: seq<string>, widths: seq<nat>, tail: string)
    requires |texts| == |widths| && texts != []
    ensures AccuracyFile.RenderRow(texts, widths) + tail
            == ['|'] + AccuracyFile.PadCell(texts[0], widths[0]) + ['|'] + (AccuracyFile.RowCells(texts[1..], widths[1..]) + tail)
  {
    AccuracyFile.RowHead(texts, widths);
    RegroupLast(['|'], AccuracyFile.PadCell(texts[0], widths[0]), ['|'], AccuracyFile.RowCells(texts[1..], widths[1..]), tail);
  }

  lemma RegroupLast<T>(a: seq<T>, b: seq<T>, c: seq<T>, d: seq<T>, e: seq<T>)
    ensures a + b + c + d + e == a + b + c + (d + e)
  {
  }

  /** Padding a bar-free text adds no bar. */
  lemma PadCellNoBar(text: string, width: nat)
    requires '|' !in text
    ensures '|' !in AccuracyFile.PadCell(text, width)
  {
    var n := if |text| < width then width - |text| else 0;
    PadCellSplit(text, width, n);
  }

  /** After an empty piece, the first kept piece is the stripped second one, when that is not blank. */
  lemma FirstKept(a: string, rest: seq<string>)
    requires Trim(a) != []
    ensures var r := NonEmptyTrimmed([[], a] + rest); r != [] && r[0] == Trim(a)
  {
    var parts := [[], a] + rest;
    TrimOfTrimmed([]);
    PairTail([], a, rest);
    DropBlank(parts);
    KeepHead([a] + rest);
  }

  lemma PairTail<T>(x: T, y: T, rest: seq<T>)
    ensures ([x, y] + rest)[0] == x && ([x, y] + rest)[1..] == [y] + rest
  {
  }

  lemma DropBlank(parts: seq<string>)
    requires parts != [] && Trim(parts[0]) == []
    ensures NonEmptyTrimmed(parts) == NonEmptyTrimmed(parts[1..])
  {
  }

  lemma KeepHead(parts: seq<string>)
    requires parts != [] && Trim(parts[0]) != []
    ensures NonEmptyTrimmed(parts) == [Trim(parts[0])] + NonEmptyTrimmed(parts[1..])
  {
  }

  /** A rendered row strips to itself, starting and ending with a bar. */
  lemma RowLineTrim(texts: seq<string>, widths: seq<nat>)
    requires |texts| == |widths| && texts != []
    ensures var row := AccuracyFile.RenderRow(texts, widths);
            Trim(row + "\n") == row && row != [] && IsBarred(row) && !EndsTable(row)
  {
    AccuracyFile.RowEnds(texts, widths);
    BarredLine(AccuracyFile.RenderRow(texts, widths));
  }

  /** A line drawn between bars strips to itself, is barred, and does not end the table. */
  lemma BarredLine(row: string)
    requires |row| >= 2 && row[0] == '|' && row[|row| - 1] == '|'
    ensures Trim(row + "\n") == row && IsBarred(row) && !EndsTable(row)
  {
    BarredShape(row);
    TrimNewline(row);
  }

  lemma BarredShape(row: string)
    requires |row| >= 2 && row[0] == '|' && row[|row| - 1] == '|'
    ensures IsBarred(row) && !EndsTable(row) && IsTrimmed(row)
  {
    EndsOfOne(row, '|');
    assert !StartsWith(row, "---") by {
      assert row[0] != "---"[0];
    }
    assert !StartsWith(row, "+-") by {
      assert row[0] != "+-"[0];
    }
  }

  lemma EndsOfOne<T>(xs: seq<T>, x: T)
    requires |xs| >= 1 && xs[0] == x && xs[|xs| - 1] == x
    ensures xs[..1] == [x] && xs[|xs| - 1..] == [x]
  {
  }

  /** Both rules of a table strip to themselves. */
  lemma RuleTrim(widths: seq<nat>, edge: char)
    requires widths != [] && (edge == '+' || edge == '|')
    ensures var r := AccuracyFile.Rule(widths, edge);
            Trim(r + "\n") == r && Trim(r) == r && r != []
  {
    AccuracyFile.RuleShape(widths, edge);
    TrimNewline(AccuracyFile.Rule(widths, edge));
    TrimOfTrimmed(AccuracyFile.Rule(widths, edge));
  }

  /** The rule above the header does not mention the header. */
  lemma BorderNotHeader(widths: seq<nat>)
    requires widths != []
    ensures HeaderColumn(AccuracyFile.Rule(widths, '+') + "\n").None?
  {
    var r := AccuracyFile.Rule(widths, '+');
    RuleTrim(widths, '+');
    AccuracyFile.RuleShape(widths, '+');
    assert !Contains(r, ColumnHeader) by {
      forall i: nat | i <= |r| ensures !OccursAt(r, ColumnHeader, i) {
        if i < |r| {
          assert r[i] != 'C';
        }
      }
    }
  }

  /** A row shows its first text right after the opening bar and a space. */
  lemma FirstTextAt(texts: seq<string>, widths: seq<nat>)
    requires |texts| == |widths| && texts != []
    ensures OccursAt(AccuracyFile.RenderRow(texts, widths), texts[0], 2)
  {
    var n := if |texts[0]| < widths[0] then widths[0] - |texts[0]| else 0;
    AccuracyFile.RowHead(texts, widths);
    PadCellSplit(texts[0], widths[0], n);
    OccursAfterBarSpace(texts[0], AccuracyFile.Repeat(' ', n) + " ", AccuracyFile.RowCells(texts[1..], widths[1..]));
  }

  /** A text placed right after a bar and a space occurs at the third character. */
  lemma OccursAfterBarSpace(text: string, fill: string, cells: string)
    ensures OccursAt("|" + (" " + text + fill) + "|" + cells, text, 2)
  {
    InfixAfter("|", " ", text, fill, "|", cells);
  }

  /** In `a + (b + c + d) + e + f`, `c` sits right after `a` and `b`. */
  lemma InfixAfter<T>(a: seq<T>, b: seq<T>, c: seq<T>, d: seq<T>, e: seq<T>, f: seq<T>)
    ensures var s := a + (b + c + d) + e + f;
            |a| + |b| + |c| <= |s| && s[|a| + |b|..|a| + |b| + |c|] == c
  {
    var s := a + (b + c + d) + e + f;
    assert s == (a + b) + c + (d + e + f);
  }

  /** The header row mentions the field column's header. */
  lemma HeaderRowContains(widths: seq<nat>)
    requires |widths| == |AccuracyFile.DifferenceHeaders|
    ensures Contains(AccuracyFile.RenderRow(AccuracyFile.DifferenceHeaders, widths), ColumnHeader)
  {
    FirstTextAt(AccuracyFile.DifferenceHeaders, widths);
  }

  /** The header cells of the header row start with the field column's header. */
  lemma HeaderRowCells(widths: seq<nat>)
    requires |widths| == |AccuracyFile.DifferenceHeaders|
    ensures var row := AccuracyFile.RenderRow(AccuracyFile.DifferenceHeaders, widths);
            HeaderCells(row) != [] && HeaderCells(row)[0] == ColumnHeader
  {
    var hs := AccuracyFile.DifferenceHeaders;
    var row := AccuracyFile.RenderRow(hs, widths);
    RowLineTrim(hs, widths);
    FirstCell(hs, widths, []);
    assert row + [] == row;
  }

  /** The header row of the differences table is the header line, with the field column first. */
  lemma HeaderRowColumn(widths: seq<nat>)
    requires |widths| == |AccuracyFile.DifferenceHeaders|
    ensures HeaderColumn(AccuracyFile.RenderRow(AccuracyFile.DifferenceHeaders, widths) + "\n") == Some(0)
  {
    var row := AccuracyFile.RenderRow(AccuracyFile.DifferenceHeaders, widths);
    RowLineTrim(AccuracyFile.DifferenceHeaders, widths);
    HeaderRowContains(widths);
    HeaderRowCells(widths);
    assert Tables.ColumnIndex(HeaderCells(row), ColumnHeader) == 0;
  }

  /** The rule under the header starts with a bar and a dash. */
  lemma SeparatorLine(widths: seq<nat>)
    requires widths != []
    ensures StartsWith(Trim(AccuracyFile.Rule(widths, '|') + "\n"), "|-")
  {
    RuleTrim(widths, '|');
    AccuracyFile.RuleShape(widths, '|');
  }

  /** The closing rule ends the table. */
  lemma ClosingRule(widths: seq<nat>)
    requires widths != []
    ensures var r := AccuracyFile.Rule(widths, '+'); Trim(r) != [] && EndsTable(Trim(r))
  {
    var r := AccuracyFile.Rule(widths, '+');
    RuleTrim(widths, '+');
    AccuracyFile.RuleShape(widths, '+');
    assert r[|r| - 3..] == "--+";
  }

  /** `line` is a data row of the table that names `name`. */
  predicate RowLineOf(line: string, name: string)
  {
    Trim(line) != [] && !EndsTable(Trim(line)) && RowName(line, 0) == Some(name)
  }

  /** `line` closes the table. */
  predicate ClosesTable(line: string)
  {
    Trim(line) != [] && EndsTable(Trim(line))
  }

  /** A rendered data row names its first text. */
  lemma DataRowLine(texts: seq<string>, widths: seq<nat>)
    requires |texts| == |widths| && texts != []
    requires texts[0] != [] && IsTrimmed(texts[0]) && '|' !in texts[0]
    ensures RowLineOf(AccuracyFile.RenderRow(texts, widths) + "\n", texts[0])
  {
    RowLineTrim(texts, widths);
    FirstCell(texts, widths, "\n");
  }

  /** Each name normalised against the compared columns. */
  function Normalized(names: seq<string>, compared: seq<string>): (r: seq<string>)
    ensures |r| == |names|
  {
    seq(|names|, i requires 0 <= i < |names| => Normalize(names[i], compared))
  }

  /**
   * The row loop reads the names of consecutive data rows, in order, up to
   * the line that closes the table.
   */
  lemma ScanNames(lines: seq<string>, base: nat, names: seq<string>, compared: seq<string>)
    requires base + |names| < |lines|
    requires forall i :: 0 <= i < |names| ==> RowLineOf(lines[base + i], names[i])
    requires forall i :: 0 <= i < |names| ==> names[i] != [] && names[i] != ColumnHeader
    requires ClosesTable(lines[base + |names|])
    ensures ScanRows(lines, base, 0, compared) == Normalized(names, compared)
  {
    RowStepsTake(lines, base, names, compared);
    RowStepStop(lines[base + |names|], compared);
    ScanReads(lines, RowSteps(0, compared), base, Normalized(names, compared));
  }

  /** Each data row makes the loop read its normalised name. */
  lemma RowStepsTake(lines: seq<string>, base: nat, names: seq<string>, compared: seq<string>)
    requires base + |names| < |lines|
    requires forall i :: 0 <= i < |names| ==> RowLineOf(lines[base + i], names[i])
    requires forall i :: 0 <= i < |names| ==> names[i] != [] && names[i] != ColumnHeader
    ensures forall i :: 0 <= i < |names| ==> RowSteps(0, compared)(lines[base + i]) == Take(Normalized(names, compared)[i])
  {
    forall i | 0 <= i < |names| ensures RowSteps(0, compared)(lines[base + i]) == Take(Normalized(names, compared)[i]) {
      RowStepTake(lines[base + i], names[i], compared);
    }
  }

  /** A loop whose steps from `base` read `ys` one by one and then stop reads `ys`. */
  lemma ScanReads<T>(xs: seq<T>, step: T -> RowStep, base: nat, ys: seq<string>)
    requires base + |ys| < |xs|
    requires forall i :: 0 <= i < |ys| ==> step(xs[base + i]) == Take(ys[i])
    requires step(xs[base + |ys|]) == Stop
    ensures Scan(xs, step, base) == ys
  {
    ScanTakes(xs, step, base, ys, 0);
    assert ys[0..] == ys;
  }

  /** A loop whose steps from `base` read `ys` one by one and then stop reads `ys[k..]` from `base + k`. */
  lemma {:induction false} ScanTakes<T>(xs: seq<T>, step: T -> RowStep, base: nat, ys: seq<string>, k: nat)
    requires k <= |ys| && base + |ys| < |xs|
    requires forall i :: 0 <= i < |ys| ==> step(xs[base + i]) == Take(ys[i])
    requires step(xs[base + |ys|]) == Stop
    ensures Scan(xs, step, base + k) == ys[k..]
    decreases |ys| - k
  {
    if k < |ys| {
      ScanTakes(xs, step, base, ys, k + 1);
      assert step(xs[base + k]) == Take(ys[k]);
      assert ys[k..] == [ys[k]] + ys[k + 1..];
    }
  }

  /** A data row makes the loop read its normalised name. */
  lemma RowStepTake(line: string, name: string, compared: seq<string>)
    requires RowLineOf(line, name) && name != [] && name != ColumnHeader
    ensures RowSteps(0, compared)(line) == Take(Normalize(name, compared))
  {
  }

  /** The closing line makes the loop stop. */
  lemma RowStepStop(line: string, compared: seq<string>)
    requires ClosesTable(line)
    ensures RowSteps(0, compared)(line) == Stop
  {
  }

  /** With the marker on the tenth line and the header on the twelfth, the parse is the row loop from the fourteenth. */
  lemma ParseSteps(lines: seq<string>, compared: seq<string>)
    requires 14 < |lines| && FindMarker(lines, 0) == Some(9) && FindHeader(lines, 10, 14) == Some((0, 13))
    ensures ParseErrorColumns(Some(lines), compared) == ScanRows(lines, 13, 0, compared)
  {
  }

  /** In a written table the header search stops at the header row and the data starts after its rule. */
  lemma HeaderFound(lines: seq<string>, widths: seq<nat>)
    requires 14 <= |lines| && |widths| == |AccuracyFile.DifferenceHeaders|
    requires lines[10] == AccuracyFile.Rule(widths, '+') + "\n"
    requires lines[11] == AccuracyFile.RenderRow(AccuracyFile.DifferenceHeaders, widths) + "\n"
    requires lines[12] == AccuracyFile.Rule(widths, '|') + "\n"
    ensures FindHeader(lines, 10, 14) == Some((0, 13))
  {
    BorderNotHeader(widths);
    HeaderRowColumn(widths);
    SeparatorLine(widths);
    assert FirstHit(lines, HeaderColumn, 11, 14) == Some(11);
    assert FirstHit(lines, HeaderColumn, 10, 14) == Some(11);
    assert DataStart(lines, 11) == 13;
  }

  /** Names that are among the compared columns are left as they are. */
  lemma NormalizedKnown(names: seq<string>, compared: seq<string>)
    requires forall i :: 0 <= i < |names| ==> names[i] in compared
    ensures Normalized(names, compared) == names
  {
  }

  /** The columns of the differences, in order. */
  function ColumnsOf(ds: seq<Scoring.Difference>): (r: seq<string>)
    ensures |r| == |ds| && forall i :: 0 <= i < |ds| ==> r[i] == ds[i].column
  {
    seq(|ds|, i requires 0 <= i < |ds| => ds[i].column)
  }

  /** What the read-back needs of a score: readable column names and differences that name them. */
  predicate Readable(s: Scoring.Score)
  {
    ReadableColumns(s.columns)
    && |s.differences| == s.incorrect
    && forall i :: 0 <= i < |s.differences| ==>
         s.differences[i].column in s.columns && s.differences[i].column != ColumnHeader
  }

  /** The rows of the written table name the columns of the differences. */
  lemma WrittenRows(s: Scoring.Score, fixed4: real -> string, render: Cells.Cell -> string)
    requires Readable(s) && s.incorrect > 0
    ensures var lines := AccuracyFile.WrittenFile(s, fixed4, render);
            var names := ColumnsOf(s.differences);
            13 + |names| < |lines|
            && (forall i :: 0 <= i < |names| ==> RowLineOf(lines[13 + i], names[i]))
            && (forall i :: 0 <= i < |names| ==> names[i] != [] && names[i] != ColumnHeader)
            && ClosesTable(lines[13 + |names|])
  {
    var ds := s.differences;
    var table := AccuracyFile.DifferenceTable(ds, render);
    var lines := AccuracyFile.WrittenFile(s, fixed4, render);
    var ws := AccuracyFile.DifferenceWidths(ds, render);
    var names := ColumnsOf(ds);
    assert lines[8..] == ["\n", DifferencesMarker + "\n"] + table;
    forall i | 0 <= i < |names| ensures RowLineOf(lines[13 + i], names[i]) && names[i] != [] && names[i] != ColumnHeader {
      assert lines[13 + i] == table[3 + i];
      var texts := AccuracyFile.DifferenceTexts(ds[i], render);
      assert ds[i].column in s.columns;
      assert texts[0] == names[i];
      DataRowLine(texts, ws);
    }
    assert lines[13 + |names|] == table[|ds| + 3];
    ClosingRule(ws);
  }

  /** The header search finds the header row of the written table. */
  lemma WrittenHeader(s: Scoring.Score, fixed4: real -> string, render: Cells.Cell -> string)
    requires Readable(s) && s.incorrect > 0
    ensures var lines := AccuracyFile.WrittenFile(s, fixed4, render);
            14 < |lines| && FindHeader(lines, 10, 14) == Some((0, 13))
  {
    var ds := s.differences;
    var table := AccuracyFile.DifferenceTable(ds, render);
    var lines := AccuracyFile.WrittenFile(s, fixed4, render);
    var ws := AccuracyFile.DifferenceWidths(ds, render);
    assert lines[8..] == ["\n", DifferencesMarker + "\n"] + table;
    assert lines[10] == table[0] && lines[11] == table[1] && lines[12] == table[2];
    HeaderFound(lines, ws);
  }

  /**
   * Lines 32-135 read back from a written file the column of every
   * difference, in the order written, each normalised against `compared`;
   * a file without differences yields none.
   */
  lemma DifferencesReadBack(s: Scoring.Score, fixed4: real -> string, render: Cells.Cell -> string, compared: seq<string>)
    requires Readable(s)
    ensures ParseErrorColumns(Some(AccuracyFile.WrittenFile(s, fixed4, render)), compared)
            == Normalized(ColumnsOf(s.differences), compared)
  {
    var lines := AccuracyFile.WrittenFile(s, fixed4, render);
    var table := AccuracyFile.DifferenceTable(s.differences, render);
    if s.incorrect == 0 {
      NoMarkerLine(s, fixed4, table);
    } else {
      MarkerLine(s, fixed4, table);
      WrittenHeader(s, fixed4, render);
      ParseSteps(lines, compared);
      WrittenRows(s, fixed4, render);
      ScanNames(lines, 13, ColumnsOf(s.differences), compared);
    }
  }

  /**
   * A written file read back with its own compared columns gives exactly the
   * columns of its differences: the normalisation leaves them as they are.
   */
  lemma ErrorsReadBack(s: Scoring.Score, fixed4: real -> string, render: Cells.Cell -> string)
    requires Readable(s)
    ensures var contents := Some(AccuracyFile.WrittenFile(s, fixed4, render));
            ParseErrorColumns(contents, ComparedColumns(contents)) == ColumnsOf(s.differences)
  {
    var table := AccuracyFile.DifferenceTable(s.differences, render);
    ComparedReadBack(s, fixed4, table);
    DifferencesReadBack(s, fixed4, render, s.columns);
    NormalizedKnown(ColumnsOf(s.differences), s.columns);
  }
}

=== FILE: filenames.dfy ===
/**
 * The file-name conventions from which report identifiers are read.  Each
 * regular expression of the pipeline is matched by a small hand-written
 * scanner; its contract states, position by position, which names the
 * pattern accepts and which group it captures, and a companion lemma builds
 * an accepted name from its parts.
 *
 * Case-insensitive matching (`re.IGNORECASE`) is `EqualsIgnoreCase` against
 * the lower-case literal; `\s` is `IsSpace`; `\d` is `IsDigit`.
 */
module FileNames {
  import opened Wrappers
  import opened Text

  /** Length of the run of digits that starts `s`: what a greedy `\d+` consumes. */
  function DigitSpan(s: string): (k: nat)
    ensures k <= |s|
    ensures AllDigits(s[..k])
    ensures k < |s| ==> !IsDigit(s[k])
  {
    if s != [] && IsDigit(s[0]) then 1 + DigitSpan(s[1..]) else 0
  }

  lemma {:induction false} DigitSpanOf(d: string, rest: string)
    requires AllDigits(d)
    requires rest == [] || !IsDigit(rest[0])
    ensures DigitSpan(d + rest) == |d|
  {
    if d != [] {
      assert (d + rest)[0] == d[0];
      assert (d + rest)[1..] == d[1..] + rest;
      DigitSpanOf(d[1..], rest);
    } else {
      assert d + rest == rest;
    }
  }

  /** A case-insensitive match of a literal that starts with a non-digit starts with a non-digit. */
  lemma NonDigitHead(x: string, lit: string)
    requires EqualsIgnoreCase(x, lit) && lit != [] && !IsDigit(lit[0])
    ensures !IsDigit(x[0])
  {
    assert LowerChar(x[0]) == LowerChar(lit[0]);
  }

  /** Text with no blank at all has no plain space to remove. */
  lemma NoBlankNoSpaceChar(s: string)
    requires NoSpace(s)
    ensures ' ' !in s
  {
    forall i | 0 <= i < |s|
      ensures s[i] != ' '
    {
      assert !IsSpace(s[i]);
    }
  }

  /**
   * A greedy digit run followed by the literal `lit` up to the end of the
   * text: equivalently, everything before the last |lit| characters is a digit.
   */
  lemma DigitsThenLiteral(s: string, lit: string)
    requires lit != [] && !IsDigit(lit[0])
    ensures EqualsIgnoreCase(s[DigitSpan(s)..], lit) <==>
            (|s| >= |lit| && AllDigits(s[..|s| - |lit|]) && EqualsIgnoreCase(s[|s| - |lit|..], lit))
  {
    var m := |s| - |lit|;
    if |s| >= |lit| && AllDigits(s[..m]) && EqualsIgnoreCase(s[m..], lit) {
      NonDigitHead(s[m..], lit);
      DigitsBefore(s, m);
    }
  }

  /** When everything before `m` is a digit and the character at `m` is not, the digit run ends at `m`. */
  lemma DigitsBefore(s: string, m: nat)
    requires m < |s| && AllDigits(s[..m]) && !IsDigit(s[m])
    ensures DigitSpan(s) == m
  {
    TakeDrop(s, m);
    DigitSpanOf(s[..m], s[m..]);
  }

  lemma TakeDrop<T>(xs: seq<T>, m: nat)
    requires m < |xs|
    ensures xs == xs[..m] + xs[m..] && xs[m..][0] == xs[m]
  {
  }

  /** `\s?`, greedy: one leading whitespace character is consumed if there is one. */
  function SkipSpace(s: string): (r: string)
    ensures r == s || (s != [] && IsSpace(s[0]) && r == s[1..])
    ensures r != [] ==> !IsSpace(s[0]) || r == s[1..]
  {
    if s != [] && IsSpace(s[0]) then s[1..] else s
  }

  /** A zero- or one-character gap that `\s?` accepts. */
  predicate OptionalSpace(gap: string)
  {
    gap == [] || (|gap| == 1 && IsSpace(gap[0]))
  }

  /** Where the digits start in a name that begins `RRI\s?`. */
  function DigitsStart(name: string): nat
  {
    if |name| > 3 && IsSpace(name[3]) then 4 else 3
  }

  /** `src/check_missing.py`'s PDF pattern `^RRI\s?(\d{3})\.pdf$` (ignoring case); the ID is "RRI" and the three digits. */
  function CheckedPdfId(name: string): (r: Option<string>)
    ensures r.Some? <==> (|name| == 10 || (|name| == 11 && IsSpace(name[3])))
                         && EqualsIgnoreCase(name[..3], "rri")
                         && AllDigits(name[|name| - 7..|name| - 4])
                         && EqualsIgnoreCase(name[|name| - 4..], ".pdf")
    ensures r.Some? ==> r.value == "RRI" + name[|name| - 7..|name| - 4]
  {
    if |name| < 3 || !EqualsIgnoreCase(name[..3], "rri") then None
    else
      var rest := SkipSpace(name[3..]);
      assert rest == name[DigitsStart(name)..];
      assert |name| == 10 && IsSpace(name[3]) ==> !AllDigits(name[3..6]) by {
        if |name| == 10 && IsSpace(name[3]) {
          assert name[3..6][0] == name[3];
        }
      }
      assert |rest| == 7 <==> (|name| == 10 && !IsSpace(name[3])) || (|name| == 11 && IsSpace(name[3]));
      assert |rest| == 7 ==> rest[..3] == name[|name| - 7..|name| - 4] && rest[3..] == name[|name| - 4..];
      if |rest| == 7 && AllDigits(rest[..3]) && EqualsIgnoreCase(rest[3..], ".pdf")
      then Some("RRI" + rest[..3])
      else None
  }

  /** Every name spelt `RRI`, an optional blank, three digits and `.pdf`, in any case, yields "RRI" and the digits. */
  lemma CheckedPdfIdOf(prefix: string, gap: string, digits: string, ext: string)
    requires EqualsIgnoreCase(prefix, "rri") && OptionalSpace(gap)
    requires |digits| == 3 && AllDigits(digits) && EqualsIgnoreCase(ext, ".pdf")
    ensures CheckedPdfId(prefix + gap + digits + ext) == Some("RRI" + digits)
  {
    var name := prefix + gap + digits + ext;
    assert name[..3] == prefix;
    assert name[|name| - 7..|name| - 4] == digits;
    assert name[|name| - 4..] == ext;
    if gap != [] {
      assert name[3] == gap[0];
    }
  }

  /**
   * `src/check_missing.py`'s accuracy-file pattern `^(RRI\s\d{3})_accuracy\.txt$`
   * (ignoring case); the ID is the captured group with plain spaces removed, so the
   * letters keep their case and any other blank stays.
   */
  function AccuracyFileId(name: string): (r: Option<string>)
    ensures r.Some? <==> |name| == 20 && EqualsIgnoreCase(name[..3], "rri") && IsSpace(name[3])
                         && AllDigits(name[4..7]) && EqualsIgnoreCase(name[7..], "_accuracy.txt")
    ensures r.Some? ==> r.value == name[..3] + (if name[3] == ' ' then [] else name[3..4]) + name[4..7]
  {
    if |name| == 20 && EqualsIgnoreCase(name[..3], "rri") && IsSpace(name[3])
       && AllDigits(name[4..7]) && EqualsIgnoreCase(name[7..], "_accuracy.txt")
    then
      RemoveSpacesFromStem(name[..3], name[3..4], name[4..7]);
      ThreeParts(name, 3, 4, 7);
      Some(RemoveChar(name[..7], ' '))
    else None
  }

  /** A prefix cut at `i` and `j` is its three pieces in order. */
  lemma ThreeParts<T>(xs: seq<T>, i: nat, j: nat, k: nat)
    requires i <= j <= k <= |xs|
    ensures xs[..k] == xs[..i] + xs[i..j] + xs[j..k]
  {
  }

  /** Dropping the spaces of a stem `RRI`, one blank, digits: only a plain-space blank disappears. */
  lemma RemoveSpacesFromStem(prefix: string, gap: string, digits: string)
    requires EqualsIgnoreCase(prefix, "rri") && |gap| <= 1 && AllDigits(digits)
    ensures RemoveChar(prefix + gap + digits, ' ')
            == prefix + (if gap == [' '] then [] else gap) + digits
  {
    EqualsIgnoreCaseNoSpace(prefix, "rri");
    NoBlankNoSpaceChar(prefix);
    NoBlankNoSpaceChar(digits);
    RemoveCharConcat(prefix + gap, digits, ' ');
    RemoveCharConcat(prefix, gap, ' ');
    if gap != [] {
      assert gap == [gap[0]];
      if gap[0] == ' ' {
        assert RemoveChar(gap, ' ') == RemoveChar([], ' ');
      }
    }
  }

  /** `^(?:RRI)?`: the length of an optional case-insensitive "RRI" prefix. */
  function RriPrefixLength(name: string): nat
  {
    if |name| >= 3 && EqualsIgnoreCase(name[..3], "rri") then 3 else 0
  }

  /** `_page_\d+\.png$`: what must follow the report digits of a page image. */
  predicate PageTail(t: string)
  {
    |t| >= 6 && EqualsIgnoreCase(t[..6], "_page_")
    && var m := DigitSpan(t[6..]); m > 0 && EqualsIgnoreCase(t[6..][m..], ".png")
  }

  /** `(\d+)_page_\d+\.png$` on the text after the optional prefix. */
  function PageBodyId(body: string): (r: Option<string>)
    ensures r.Some? ==>
      var e := |r.value|;
      e > 0 && AllDigits(r.value) && e + 6 < |body| - 4 && body[..e] == r.value
      && EqualsIgnoreCase(body[e..e + 6], "_page_") && AllDigits(body[e + 6..|body| - 4])
      && EqualsIgnoreCase(body[|body| - 4..], ".png")
  {
    var k := DigitSpan(body);
    var rest := body[k..];
    if k > 0 && PageTail(rest) then
      PageBodyShape(body, k);
      Some(body[..k])
    else None
  }

  /** Digits up to `k`, then a page tail: the tail's pieces sit at fixed offsets of the whole name. */
  lemma PageBodyShape(body: string, k: nat)
    requires k == DigitSpan(body) && k > 0 && PageTail(body[k..])
    ensures k + 6 < |body| - 4 && AllDigits(body[..k])
    ensures EqualsIgnoreCase(body[k..k + 6], "_page_") && AllDigits(body[k + 6..|body| - 4])
    ensures EqualsIgnoreCase(body[|body| - 4..], ".png")
  {
    var page := body[k..][6..];
    var m := DigitSpan(page);
    NestedSlices(body, k, 6, m);
    PageDigitsInBody(body, k, m);
  }

  lemma PageDigitsInBody(body: string, k: nat, m: nat)
    requires k + 6 + m + 4 == |body| && AllDigits(body[k..][6..][..m])
    ensures AllDigits(body[k + 6..|body| - 4])
  {
    var digits := body[k..][6..][..m];
    var mid := body[k + 6..|body| - 4];
    forall i | 0 <= i < |mid| ensures IsDigit(mid[i]) {
      assert mid[i] == digits[i];
    }
  }

  /** Slicing a suffix twice is slicing the whole at the summed offsets. */
  lemma NestedSlices<T>(xs: seq<T>, k: nat, j: nat, m: nat)
    requires k + j + m <= |xs|
    ensures xs[k..][..j] == xs[k..k + j]
    ensures xs[k..][j..][..m] == xs[k + j..k + j + m]
    ensures xs[k..][j..][m..] == xs[k + j + m..]
  {
  }

  /**
   * `src/main.py`'s page-image pattern `^(?:RRI)?(\d+)_page_\d+\.png$` (ignoring
   * case); the ID is the first digit run.
   */
  function PageImageId(name: string): (r: Option<string>)
    ensures r.Some? ==>
      var body := name[RriPrefixLength(name)..];
      var e := |r.value|;
      e > 0 && AllDigits(r.value) && e + 6 < |body| - 4 && body[..e] == r.value
      && EqualsIgnoreCase(body[e..e + 6], "_page_") && AllDigits(body[e + 6..|body| - 4])
      && EqualsIgnoreCase(body[|body| - 4..], ".png")
  {
    PageBodyId(name[RriPrefixLength(name)..])
  }

  /** A tail spelt "_page_", digits, ".png" in any case is a page tail, and does not start with a digit. */
  lemma PageTailOf(tag: string, page: string, ext: string)
    requires EqualsIgnoreCase(tag, "_page_") && |page| > 0 && AllDigits(page) && EqualsIgnoreCase(ext, ".png")
    ensures PageTail(tag + page + ext) && !IsDigit((tag + page + ext)[0])
  {
    var t := tag + page + ext;
    assert t[..6] == tag;
    assert t[6..] == page + ext;
    NonDigitHead(ext, ".png");
    DigitSpanOf(page, ext);
    assert (page + ext)[|page|..] == ext;
    NonDigitHead(tag, "_page_");
  }

  lemma PageBodyIdOf(id: string, tail: string)
    requires |id| > 0 && AllDigits(id) && PageTail(tail) && !IsDigit(tail[0])
    ensures PageBodyId(id + tail) == Some(id)
  {
    DigitSpanOf(id, tail);
    assert (id + tail)[|id|..] == tail;
    assert (id + tail)[..|id|] == id;
  }

  /** Every name spelt optional "RRI", digits, "_page_", digits, ".png", in any case, yields the first digits. */
  lemma PageImageIdOf(prefix: string, id: string, tag: string, page: string, ext: string)
    requires prefix == [] || EqualsIgnoreCase(prefix, "rri")
    requires |id| > 0 && AllDigits(id) && EqualsIgnoreCase(tag, "_page_")
    requires |page| > 0 && AllDigits(page) && EqualsIgnoreCase(ext, ".png")
    ensures PageImageId(prefix + id + tag + page + ext) == Some(id)
  {
    var tail := tag + page + ext;
    PageTailOf(tag, page, ext);
    PageBodyIdOf(id, tail);
    var name := prefix + (id + tail);
    assert (id + tail)[0] == id[0];
    PrefixThenDigits(prefix, id + tail);
    assert PageImageId(name) == PageBodyId(id + tail);
    Regroup(prefix, id, tag, page, ext);
  }

  lemma Regroup(a: string, b: string, c: string, d: string, e: string)
    ensures a + b + c + d + e == a + (b + (c + d + e))
  {
  }

  /** The optional "RRI" prefix is recognised exactly when it is there, because the digits cannot start it. */
  lemma PrefixThenDigits(prefix: string, body: string)
    requires prefix == [] || EqualsIgnoreCase(prefix, "rri")
    requires body != [] && IsDigit(body[0])
    ensures (prefix + body)[RriPrefixLength(prefix + body)..] == body
  {
    var name := prefix + body;
    if prefix == [] {
      assert name == body;
      if |name| >= 3 {
        assert name[..3][0] == name[0];
        assert LowerChar(name[0]) == name[0];
      }
    } else {
      assert name[..3] == prefix;
    }
  }

  /** `src/main.py`'s text pattern `^(\d+)\.txt$` (case-sensitive); the ID is the digits. */
  function TextFileId(name: string): (r: Option<string>)
    ensures r.Some? <==> |name| > 4 && AllDigits(name[..|name| - 4]) && name[|name| - 4..] == ".txt"
    ensures r.Some? ==> r.value == name[..|name| - 4]
  {
    var k := DigitSpan(name);
    DigitsThenExact(name, ".txt");
    if k > 0 && name[k..] == ".txt" then Some(name[..k]) else None
  }

  /** `DigitsThenLiteral` for a case-sensitive literal. */
  lemma DigitsThenExact(s: string, lit: string)
    requires lit != [] && !IsDigit(lit[0])
    ensures s[DigitSpan(s)..] == lit <==> (|s| >= |lit| && AllDigits(s[..|s| - |lit|]) && s[|s| - |lit|..] == lit)
  {
    var m := |s| - |lit|;
    if |s| >= |lit| && AllDigits(s[..m]) && s[m..] == lit {
      DigitsBefore(s, m);
    }
  }

  /** The sugo PDF pattern `^(\d+)\.pdf$` (ignoring case), shared by `src/main.py` and `src/preprocess.py`; the ID is the digits. */
  function DigitPdfId(name: string): (r: Option<string>)
    ensures r.Some? <==> |name| > 4 && AllDigits(name[..|name| - 4]) && EqualsIgnoreCase(name[|name| - 4..], ".pdf")
    ensures r.Some? ==> r.value == name[..|name| - 4]
  {
    var k := DigitSpan(name);
    DigitsThenLiteral(name, ".pdf");
    if k > 0 && EqualsIgnoreCase(name[k..], ".pdf") then Some(name[..k]) else None
  }

  /** The benson PDF pattern of `src/main.py`, `^RRI\s?(\d{3,})\.pdf$` (ignoring case); the ID is "RRI" and the digits. */
  function RriPdfId(name: string): (r: Option<string>)
    ensures r.Some? <==> |name| >= 3 && EqualsIgnoreCase(name[..3], "rri")
                         && |name| >= DigitsStart(name) + 7
                         && AllDigits(name[DigitsStart(name)..|name| - 4])
                         && EqualsIgnoreCase(name[|name| - 4..], ".pdf")
    ensures r.Some? ==> r.value == "RRI" + name[DigitsStart(name)..|name| - 4]
  {
    if |name| < 3 || !EqualsIgnoreCase(name[..3], "rri") then None
    else
      var rest := SkipSpace(name[3..]);
      var k := DigitSpan(rest);
      RestAfterPrefix(name);
      AtLeastThreeDigitsThenPdf(rest);
      SuffixOfRest(name, DigitsStart(name), rest);
      if k >= 3 && EqualsIgnoreCase(rest[k..], ".pdf") then Some("RRI" + rest[..k]) else None
  }

  /** After the prefix, `\s?` leaves the name from where the digits start. */
  lemma RestAfterPrefix(name: string)
    requires |name| >= 3
    ensures SkipSpace(name[3..]) == name[DigitsStart(name)..]
  {
  }

  /** `\d{3,}\.pdf$` on the rest of a name: at least three digits, then ".pdf" in any case, up to the end. */
  lemma AtLeastThreeDigitsThenPdf(rest: string)
    ensures var k := DigitSpan(rest);
            (k >= 3 && EqualsIgnoreCase(rest[k..], ".pdf")) <==>
            (|rest| >= 7 && AllDigits(rest[..|rest| - 4]) && EqualsIgnoreCase(rest[|rest| - 4..], ".pdf"))
    ensures EqualsIgnoreCase(rest[DigitSpan(rest)..], ".pdf") ==> DigitSpan(rest) == |rest| - 4
  {
    DigitsThenLiteral(rest, ".pdf");
  }

  /** Positions in the rest of a name, counted from the end, are the same positions in the name. */
  lemma SuffixOfRest(name: string, j: nat, rest: string)
    requires j <= |name| && rest == name[j..]
    ensures |rest| >= 4 ==> rest[..|rest| - 4] == name[j..|name| - 4] && rest[|rest| - 4..] == name[|name| - 4..]
  {
  }

  /** Where the parts of a name spelt `RRI`, an optional blank, digits and a four-character extension sit. */
  lemma RriNameParts(prefix: string, gap: string, digits: string, ext: string)
    requires EqualsIgnoreCase(prefix, "rri") && OptionalSpace(gap)
    requires digits != [] && AllDigits(digits) && |ext| == 4
    ensures var name := prefix + gap + digits + ext;
            |name| >= 3 && DigitsStart(name) == 3 + |gap| && |name| >= DigitsStart(name) + |digits| + 4
            && name[..3] == prefix && name[3..DigitsStart(name)] == gap
            && name[DigitsStart(name)..|name| - 4] == digits && name[|name| - 4..] == ext
  {
    var name := prefix + gap + digits + ext;
    FourParts(prefix, gap, digits, ext);
    if gap != [] {
      assert name[3] == gap[0];
    } else {
      assert name[3] == digits[0];
    }
  }

  lemma FourParts<T>(a: seq<T>, b: seq<T>, c: seq<T>, d: seq<T>)
    ensures var s := a + b + c + d;
            s[..|a|] == a && s[|a|..|a| + |b|] == b && s[|a| + |b|..|s| - |d|] == c && s[|s| - |d|..] == d
  {
  }

  /** Every name spelt `RRI`, an optional blank, at least three digits and `.pdf`, in any case, yields "RRI" and the digits. */
  lemma RriPdfIdOf(prefix: string, gap: string, digits: string, ext: string)
    requires EqualsIgnoreCase(prefix, "rri") && OptionalSpace(gap)
    requires |digits| >= 3 && AllDigits(digits) && EqualsIgnoreCase(ext, ".pdf")
    ensures RriPdfId(prefix + gap + digits + ext) == Some("RRI" + digits)
  {
    RriNameParts(prefix, gap, digits, ext);
  }

  /**
   * The benson PDF pattern of `src/preprocess.py`, `^(RRI\s?\d{3,})\.pdf$` (ignoring
   * case); the ID is the whole captured stem with plain spaces removed, so the
   * prefix keeps its case and a blank other than a space stays.
   */
  function RriStemId(name: string): (r: Option<string>)
    ensures r.Some? <==> RriPdfId(name).Some?
    ensures r.Some? ==> r.value == name[..3] + (if name[3..DigitsStart(name)] == [' '] then [] else name[3..DigitsStart(name)])
                                   + name[DigitsStart(name)..|name| - 4]
  {
    if RriPdfId(name).Some? then
      var j := DigitsStart(name);
      RemoveSpacesFromStem(name[..3], name[3..j], name[j..|name| - 4]);
      ThreeParts(name, 3, j, |name| - 4);
      Some(RemoveChar(name[..|name| - 4], ' '))
    else None
  }

  /** Both benson patterns accept the same names, and on a name spelt "RRI" with no blank or a plain space they agree. */
  lemma BensonDraftsAgree(name: string)
    requires RriPdfId(name).Some? && name[..3] == "RRI"
    requires DigitsStart(name) == 3 || name[3] == ' '
    ensures RriStemId(name) == RriPdfId(name)
  {
    var j := DigitsStart(name);
    var digits := name[j..|name| - 4];
    assert name[3..j] == [] || name[3..j] == [' '];
    assert RriStemId(name).value == name[..3] + [] + digits;
    assert name[..3] + [] + digits == "RRI" + digits;
  }

  /** The stem pattern on a name spelt from its parts keeps the prefix as written and drops a plain-space blank. */
  lemma RriStemIdOf(prefix: string, gap: string, digits: string, ext: string)
    requires EqualsIgnoreCase(prefix, "rri") && OptionalSpace(gap)
    requires |digits| >= 3 && AllDigits(digits) && EqualsIgnoreCase(ext, ".pdf")
    ensures RriStemId(prefix + gap + digits + ext) == Some(prefix + (if gap == [' '] then [] else gap) + digits)
  {
    RriNameParts(prefix, gap, digits, ext);
    RriPdfIdOf(prefix, gap, digits, ext);
  }

  /** The two benson drafts disagree on case: `src/preprocess.py` keeps a lower-case prefix that `src/main.py` rewrites. */
  lemma BensonDraftsDifferOnCase()
    ensures RriPdfId("rri002.pdf") == Some("RRI002")
    ensures RriStemId("rri002.pdf") == Some("rri002")
  {
    LowerCaseSpelling();
    RriPdfIdOf("rri", [], "002", ".pdf");
    RriStemIdOf("rri", [], "002", ".pdf");
  }

  lemma LowerCaseSpelling()
    ensures "rri" + [] + "002" + ".pdf" == "rri002.pdf"
    ensures "RRI" + "002" == "RRI002"
    ensures "rri" + (if [] == [' '] then [] else []) + "002" == "rri002"
    ensures EqualsIgnoreCase("rri", "rri") && OptionalSpace([]) && AllDigits("002") && EqualsIgnoreCase(".pdf", ".pdf")
  {
  }
}

=== FILE: json.dfy ===
/** The JSON values that `json.load` produces and `json.dump` writes. */
module Json {

  datatype Value =
    | Null
    | Bool(b: bool)
    | Number(literal: string)
    | Str(s: string)
    | Array(items: seq<Value>)
    | Object(fields: map<string, Value>)
}

=== FILE: order.dfy ===
/**
 * Python's ordering of `str` values (code point by code point, a proper prefix first)
 * and `sorted(...)` of a set of strings.
 */
module Order {

  /** Python's `a < b` on strings. */
  predicate Less(a: string, b: string)
  {
    if |a| == 0 then |b| > 0
    else if |b| == 0 then false
    else a[0] < b[0] || (a[0] == b[0] && Less(a[1..], b[1..]))
  }

  lemma {:induction false} LessIrreflexive(a: string)
    ensures !Less(a, a)
    decreases |a|
  {
    if |a| > 0 {
      LessIrreflexive(a[1..]);
    }
  }

  lemma {:induction false} LessTransitive(a: string, b: string, c: string)
    requires Less(a, b) && Less(b, c)
    ensures Less(a, c)
    decreases |a|
  {
    if |a| > 0 && a[0] == b[0] && b[0] == c[0] {
      LessTransitive(a[1..], b[1..], c[1..]);
    }
  }

  /** Any two different strings are ordered one way, and never both ways. */
  lemma {:induction false} LessTrichotomous(a: string, b: string)
    ensures a != b <==> (Less(a, b) || Less(b, a))
    ensures !(Less(a, b) && Less(b, a))
    decreases |a|
  {
    if |a| > 0 && |b| > 0 {
      LessTrichotomous(a[1..], b[1..]);
      if a[0] == b[0] && a[1..] == b[1..] {
        assert a == [a[0]] + a[1..] && b == [b[0]] + b[1..];
      }
    }
  }

  /** The order facts in quantified form, for the proofs that need them for every pair. */
  lemma LessIsStrictTotalOrder()
    ensures forall a, b :: a != b <==> (Less(a, b) || Less(b, a))
    ensures forall a, b :: !(Less(a, b) && Less(b, a))
    ensures forall a, b, c :: Less(a, b) && Less(b, c) ==> Less(a, c)
  {
    forall a, b ensures a != b <==> (Less(a, b) || Less(b, a)) {
      LessTrichotomous(a, b);
    }
    forall a, b ensures !(Less(a, b) && Less(b, a)) {
      LessTrichotomous(a, b);
    }
    forall a, b, c | Less(a, b) && Less(b, c) ensures Less(a, c) {
      LessTransitive(a, b, c);
    }
  }

  /** Every element is strictly smaller than every later one: sorted and free of duplicates. */
  predicate StrictlySorted(s: seq<string>)
  {
    forall i, j :: 0 <= i < j < |s| ==> Less(s[i], s[j])
  }

  /** `m` is a least element of `s`. */
  predicate IsLeast(m: string, s: set<string>)
  {
    m in s && forall y :: y in s ==> !Less(y, m)
  }

  lemma {:induction false} LeastExists(s: set<string>)
    requires s != {}
    ensures exists m :: IsLeast(m, s)
    decreases s
  {
    var x :| x in s;
    if s - {x} == {} {
      LessIrreflexive(x);
      assert s == {x};
      assert IsLeast(x, s);
    } else {
      LeastExists(s - {x});
      var m :| IsLeast(m, s - {x});
      LessIsStrictTotalOrder();
      if Less(x, m) {
        assert IsLeast(x, s);
      } else {
        assert IsLeast(m, s);
      }
    }
  }

  /** `m` is a greatest element of `s`. */
  predicate IsGreatest(m: string, s: set<string>)
  {
    m in s && forall y :: y in s ==> !Less(m, y)
  }

  lemma {:induction false} GreatestExists(s: set<string>)
    requires s != {}
    ensures exists m :: IsGreatest(m, s)
    decreases s
  {
    var x :| x in s;
    if s - {x} == {} {
      LessIrreflexive(x);
      assert s == {x};
      assert IsGreatest(x, s);
    } else {
      GreatestExists(s - {x});
      var m :| IsGreatest(m, s - {x});
      LessIsStrictTotalOrder();
      if Less(m, x) {
        assert IsGreatest(x, s);
      } else {
        assert IsGreatest(m, s);
      }
    }
  }

  /** Python's `sorted(s)` for a set of strings. */
  function SortedElements(s: set<string>): (r: seq<string>)
    ensures StrictlySorted(r)
    ensures forall x :: x in r <==> x in s
    ensures |r| == |s|
    decreases s
  {
    if s == {} then []
    else
      LeastExists(s);
      LessIsStrictTotalOrder();
      var m :| IsLeast(m, s);
      [m] + SortedElements(s - {m})
  }

  lemma HeadIsElement(s: seq<string>)
    ensures |s| > 0 ==> s[0] in s
  {
  }

  /** Two strictly sorted sequences with the same elements are the same sequence. */
  lemma {:induction false} StrictlySortedUnique(a: seq<string>, b: seq<string>)
    requires StrictlySorted(a) && StrictlySorted(b)
    requires forall x :: x in a <==> x in b
    ensures a == b
    decreases |a|
  {
    LessIsStrictTotalOrder();
    HeadIsElement(a);
    HeadIsElement(b);
    if a == [] || b == [] {
      if a != [] || b != [] {
        assert false;
      }
    } else if a[0] != b[0] {
      assert false;
    } else {
      assert a == [a[0]] + a[1..] && b == [b[0]] + b[1..];
      forall x ensures x in a[1..] <==> x in b[1..] {
        if x in a[1..] {
          var k :| 0 <= k < |a| - 1 && a[1..][k] == x;
          assert Less(a[0], a[k + 1]);
          assert x in b && x != b[0];
        }
        if x in b[1..] {
          var k :| 0 <= k < |b| - 1 && b[1..][k] == x;
          assert Less(b[0], b[k + 1]);
          assert x in a && x != a[0];
        }
      }
      StrictlySortedUnique(a[1..], b[1..]);
    }
  }
}

=== FILE: report_ids.dfy ===
/**
 * The two small string conventions shared by `src/api_interaction.py`,
 * `src/evaluation.py` and `src/main.py`: the spaced form of a report
 * identifier ("RRI002" becomes "RRI 002") and the file-system slug of a model
 * identifier.
 */
module ReportIds {
  import opened Wrappers
  import opened Text
  import opened FileNames

  /** `report_id[:3] + " " + report_id[3:]`, with Python's clamping of slices on short identifiers. */
  function FormatReportId(id: string): (r: string)
    ensures |r| == |id| + 1
    ensures |id| >= 3 ==> r[..3] == id[..3] && r[3] == ' ' && r[4..] == id[3..]
    ensures |id| < 3 ==> r == id + " "
  {
    var k := if |id| < 3 then |id| else 3;
    id[..k] + " " + id[k..]
  }

  /** Removing the inserted space gives back any identifier that has none. */
  lemma FormatThenUnspace(id: string)
    requires ' ' !in id
    ensures RemoveChar(FormatReportId(id), ' ') == id
  {
    var k := if |id| < 3 then |id| else 3;
    PartsAvoid(id, k, ' ');
    RemoveCharBetween(id[..k], id[k..], ' ');
  }

  /** Both halves of a sequence lack what the whole lacks, and make up the whole. */
  lemma PartsAvoid<T>(xs: seq<T>, k: nat, x: T)
    requires k <= |xs| && x !in xs
    ensures x !in xs[..k] && x !in xs[k..] && xs[..k] + xs[k..] == xs
  {
    assert forall y :: y in xs[..k] ==> y in xs;
    assert forall y :: y in xs[k..] ==> y in xs;
  }

  /**
   * The accuracy file `src/evaluation.py` writes for a canonical identifier
   * ("RRI" and three digits) is named from the spaced form, and
   * `src/check_missing.py` reads the canonical identifier back from that name.
   */
  lemma AccuracyFileNameRoundTrip(digits: string)
    requires |digits| == 3 && AllDigits(digits)
    ensures AccuracyFileId(FormatReportId("RRI" + digits) + "_accuracy.txt") == Some("RRI" + digits)
  {
    var id := "RRI" + digits;
    var name := FormatReportId(id) + "_accuracy.txt";
    assert FormatReportId(id) == "RRI " + digits;
    assert name[..3] == "RRI" && name[3] == ' ' && name[4..7] == digits && name[7..] == "_accuracy.txt";
    assert EqualsIgnoreCase(name[..3], "rri");
    assert EqualsIgnoreCase(name[7..], "_accuracy.txt");
    assert name[..3] + [] + name[4..7] == id;
  }

  /** `model_id.replace('/', '_').replace(':', '_')`: a model identifier made safe for a directory name. */
  function ModelSlug(model: string): (r: string)
    ensures |r| == |model|
    ensures '/' !in r && ':' !in r
    ensures forall i :: 0 <= i < |model| ==> r[i] == (if model[i] == '/' || model[i] == ':' then '_' else model[i])
  {
    ReplaceChar(ReplaceChar(model, '/', '_'), ':', '_')
  }

  /** A slug is its own slug, so slugging a directory name twice names the same directory. */
  lemma ModelSlugIdempotent(model: string)
    ensures ModelSlug(ModelSlug(model)) == ModelSlug(model)
  {
  }
}

=== FILE: reporting.dfy ===
/**
 * The summary over all accuracy files (reporting.py): each file's identifier
 * and accuracy, then the count, mean, median, extremes and the listing
 * sorted by identifier.
 */
module Reporting {
  import opened Wrappers
  import opened Text
  import Order
  import Sorting
  import Scoring
  import AccuracyFile

  /** What one file yields: the identifier and the accuracy, each possibly missing. */
  datatype Extracted = Extracted(reportId: Option<string>, accuracy: Option<real>)

  const ReportIdKey: string := "Report ID:"
  const AccuracyKey: string := "Overall accuracy:"
  /** The Chinese label older files used for the accuracy. */
  const LegacyAccuracyKey: string := "总体准确率:"

  predicate IsIdLine(line: string)
  {
    StartsWith(line, ReportIdKey)
  }

  predicate IsAccuracyLine(line: string)
  {
    StartsWith(line, AccuracyKey) || StartsWith(line, LegacyAccuracyKey)
  }

  /** The text between the first colon of `line` and the next one (or the end). */
  function SecondField(line: string): (f: string)
    requires ':' in line
    ensures ':' !in f
  {
    var rest := line[IndexOf(line, ':') + 1..];
    rest[..IndexOf(rest, ':')]
  }

  /** `SecondField` is the second piece of `line.split(":")`. */
  lemma SecondFieldIsSplit(line: string)
    requires ':' in line
    ensures |Split(line, ':')| >= 2 && Split(line, ':')[1] == SecondField(line)
  {
    var k := IndexOf(line, ':');
    var rest := line[k + 1..];
    SplitRest(line, ':');
    SplitHead(rest, ':');
    SecondOfCons(line[..k], Split(rest, ':'));
  }

  lemma SecondOfCons<T>(a: T, rest: seq<T>)
    requires rest != []
    ensures |[a] + rest| >= 2 && ([a] + rest)[1] == rest[0]
  {
  }

  /** `line.split(":")[1].strip()` on a key line. */
  function FieldValue(line: string): (v: string)
    requires IsIdLine(line) || IsAccuracyLine(line)
    ensures IsTrimmed(v) && ':' !in v
  {
    KeyLineHasColon(line);
    Trim(SecondField(line))
  }

  /** A line carrying either key contains the colon that ends the key. */
  lemma KeyLineHasColon(line: string)
    requires IsIdLine(line) || IsAccuracyLine(line)
    ensures ':' in line
  {
    if IsIdLine(line) {
      assert line[9] == ':';
    } else if StartsWith(line, AccuracyKey) {
      assert line[16] == ':';
    } else {
      assert line[5] == ':';
    }
  }

  /** One step of the loop of lines 36-46: a key line overrides what earlier lines gave. */
  function ScanLine(st: Extracted, line: string, parse: string -> Option<real>): Extracted
  {
    var id := if IsIdLine(line) then Some(FieldValue(line)) else st.reportId;
    var acc := if IsAccuracyLine(line) then parse(FieldValue(line)) else st.accuracy;
    Extracted(id, acc)
  }

  /** `i` is the last line of `lines` that names the report. */
  predicate LastIdLine(lines: seq<string>, i: nat)
  {
    i < |lines| && IsIdLine(lines[i]) && forall j :: i < j < |lines| ==> !IsIdLine(lines[j])
  }

  /** `i` is the last line of `lines` that states an accuracy. */
  predicate LastAccuracyLine(lines: seq<string>, i: nat)
  {
    i < |lines| && IsAccuracyLine(lines[i]) && forall j :: i < j < |lines| ==> !IsAccuracyLine(lines[j])
  }

  /** The loop of lines 36-46 over all lines, the last line applied last. */
  function ScanLines(lines: seq<string>, parse: string -> Option<real>): Extracted
  {
    if lines == [] then Extracted(None, None)
    else ScanLine(ScanLines(lines[..|lines| - 1], parse), lines[|lines| - 1], parse)
  }

  /** The identifier comes from the last identifier line, and is missing without one. */
  lemma ScanLinesId(lines: seq<string>, parse: string -> Option<real>)
    ensures ScanLines(lines, parse).reportId.None? <==> forall i :: 0 <= i < |lines| ==> !IsIdLine(lines[i])
    ensures forall i: nat :: LastIdLine(lines, i) ==> ScanLines(lines, parse).reportId == Some(FieldValue(lines[i]))
  {
    if forall i :: 0 <= i < |lines| ==> !IsIdLine(lines[i]) {
      NoIdLine(lines, parse);
    } else {
      var i :| 0 <= i < |lines| && IsIdLine(lines[i]);
      SomeIdLine(lines, parse, i);
    }
    forall i: nat | LastIdLine(lines, i)
      ensures ScanLines(lines, parse).reportId == Some(FieldValue(lines[i]))
    {
      IdFromLast(lines, parse, i);
    }
  }

  lemma {:induction false} NoIdLine(lines: seq<string>, parse: string -> Option<real>)
    requires forall i :: 0 <= i < |lines| ==> !IsIdLine(lines[i])
    ensures ScanLines(lines, parse).reportId.None?
  {
    if lines != [] {
      var init := lines[..|lines| - 1];
      assert forall i :: 0 <= i < |init| ==> init[i] == lines[i];
      NoIdLine(init, parse);
      assert !IsIdLine(lines[|lines| - 1]);
    }
  }

  lemma {:induction false} SomeIdLine(lines: seq<string>, parse: string -> Option<real>, i: nat)
    requires i < |lines| && IsIdLine(lines[i])
    ensures ScanLines(lines, parse).reportId.Some?
  {
    var init := lines[..|lines| - 1];
    if i < |init| {
      assert init[i] == lines[i];
      SomeIdLine(init, parse, i);
    }
  }

  lemma {:induction false} IdFromLast(lines: seq<string>, parse: string -> Option<real>, i: nat)
    requires LastIdLine(lines, i)
    ensures ScanLines(lines, parse).reportId == Some(FieldValue(lines[i]))
  {
    var init := lines[..|lines| - 1];
    var last := lines[|lines| - 1];
    if i < |init| {
      LastInInit(lines, IsIdLine, i);
      IdFromLast(init, parse, i);
      IdStep(ScanLines(init, parse), last, parse);
    } else {
      IdHit(ScanLines(init, parse), last, parse);
    }
  }

  /** A line past the last one that satisfies `p` still comes after it once the final line is dropped. */
  lemma LastInInit<T>(xs: seq<T>, p: T -> bool, i: nat)
    requires i + 1 < |xs| && p(xs[i]) && forall j :: i < j < |xs| ==> !p(xs[j])
    ensures var init := xs[..|xs| - 1];
            init[i] == xs[i] && p(init[i]) && (forall j :: i < j < |init| ==> !p(init[j])) && !p(xs[|xs| - 1])
  {
  }

  lemma IdStep(st: Extracted, line: string, parse: string -> Option<real>)
    requires !IsIdLine(line)
    ensures ScanLine(st, line, parse).reportId == st.reportId
  {
  }

  lemma IdHit(st: Extracted, line: string, parse: string -> Option<real>)
    requires IsIdLine(line)
    ensures ScanLine(st, line, parse).reportId == Some(FieldValue(line))
  {
  }

  /**
   * The accuracy is the parse of the last accuracy line (so a later line that
   * does not parse discards an earlier good one), and is missing without one.
   */
  lemma ScanLinesAccuracy(lines: seq<string>, parse: string -> Option<real>)
    ensures (forall i :: 0 <= i < |lines| ==> !IsAccuracyLine(lines[i])) ==> ScanLines(lines, parse).accuracy.None?
    ensures forall i: nat :: LastAccuracyLine(lines, i) ==> ScanLines(lines, parse).accuracy == parse(FieldValue(lines[i]))
  {
    if forall i :: 0 <= i < |lines| ==> !IsAccuracyLine(lines[i]) {
      NoAccuracyLine(lines, parse);
    }
    forall i: nat | LastAccuracyLine(lines, i)
      ensures ScanLines(lines, parse).accuracy == parse(FieldValue(lines[i]))
    {
      AccuracyFromLast(lines, parse, i);
    }
  }

  lemma {:induction false} NoAccuracyLine(lines: seq<string>, parse: string -> Option<real>)
    requires forall i :: 0 <= i < |lines| ==> !IsAccuracyLine(lines[i])
    ensures ScanLines(lines, parse).accuracy.None?
  {
    if lines != [] {
      var init := lines[..|lines| - 1];
      assert forall i :: 0 <= i < |init| ==> init[i] == lines[i];
      NoAccuracyLine(init, parse);
      assert !IsAccuracyLine(lines[|lines| - 1]);
    }
  }

  lemma {:induction false} AccuracyFromLast(lines: seq<string>, parse: string -> Option<real>, i: nat)
    requires LastAccuracyLine(lines, i)
    ensures ScanLines(lines, parse).accuracy == parse(FieldValue(lines[i]))
  {
    var init := lines[..|lines| - 1];
    var last := lines[|lines| - 1];
    if i < |init| {
      LastInInit(lines, IsAccuracyLine, i);
      AccuracyFromLast(init, parse, i);
      AccuracyStep(ScanLines(init, parse), last, parse);
    } else {
      AccuracyHit(ScanLines(init, parse), last, parse);
    }
  }

  lemma AccuracyStep(st: Extracted, line: string, parse: string -> Option<real>)
    requires !IsAccuracyLine(line)
    ensures ScanLine(st, line, parse).accuracy == st.accuracy
  {
  }

  lemma AccuracyHit(st: Extracted, line: string, parse: string -> Option<real>)
    requires IsAccuracyLine(line)
    ensures ScanLine(st, line, parse).accuracy == parse(FieldValue(line))
  {
  }

  /** Lines without either key leave the scan where it was. */
  lemma {:induction false} ScanLinesIgnores(lines: seq<string>, rest: seq<string>, parse: string -> Option<real>)
    requires forall i :: 0 <= i < |rest| ==> !IsIdLine(rest[i]) && !IsAccuracyLine(rest[i])
    ensures ScanLines(lines + rest, parse) == ScanLines(lines, parse)
    decreases |rest|
  {
    if rest != [] {
      var init := rest[..|rest| - 1];
      assert (lines + rest)[..|lines + rest| - 1] == lines + init;
      assert (lines + rest)[|lines + rest| - 1] == rest[|rest| - 1];
      ScanLinesIgnores(lines, init, parse);
    } else {
      assert lines + rest == lines;
    }
  }

  /**
   * `extract_accuracy_from_file` (lines 29-58).  `contents` is `None` when the
   * file cannot be opened or decoded.  An accuracy is returned only together
   * with an identifier.
   */
  function ExtractAccuracy(contents: Option<seq<string>>, parse: string -> Option<real>): (e: Extracted)
    ensures contents.None? ==> e == Extracted(None, None)
    ensures e.accuracy.Some? ==> e.reportId.Some?
    ensures contents.Some? ==> e.reportId == ScanLines(contents.value, parse).reportId
    ensures contents.Some? ==> (e.accuracy.Some? <==>
              ScanLines(contents.value, parse).reportId.Some? && ScanLines(contents.value, parse).accuracy.Some?)
    ensures e.accuracy.Some? ==> e.accuracy == ScanLines(contents.value, parse).accuracy
  {
    match contents
    case None => Extracted(None, None)
    case Some(lines) =>
      var st := ScanLines(lines, parse);
      if st.accuracy.Some? && st.reportId.Some? then st else Extracted(st.reportId, None)
  }

  /** The first character of a key line is the first character of its key. */
  lemma KeyLineStart(line: string)
    ensures IsIdLine(line) ==> line != [] && line[0] == 'R'
    ensures IsAccuracyLine(line) ==> line != [] && (line[0] == 'O' || line[0] == '总')
  {
    if IsIdLine(line) {
      assert line[..10][0] == line[0];
    }
    if StartsWith(line, AccuracyKey) {
      assert line[..17][0] == line[0];
    }
    if StartsWith(line, LegacyAccuracyKey) {
      assert line[..6][0] == line[0];
    }
  }

  /** A line whose first character cannot begin a key is not a key line. */
  lemma NotKeyLine(line: string)
    requires line != [] && line[0] != 'R' && line[0] != 'O' && line[0] != '总'
    ensures !IsIdLine(line) && !IsAccuracyLine(line)
  {
  }

  /** The second field of `pre + ":" + tail` is `tail` when neither part has a colon. */
  lemma SecondFieldOf(pre: string, tail: string)
    requires ':' !in pre && ':' !in tail
    ensures ':' in pre + [':'] + tail
    ensures SecondField(pre + [':'] + tail) == tail
  {
    var line := pre + [':'] + tail;
    IndexOfAfter(pre, ':', tail);
    assert line[|pre| + 1..] == tail;
  }

  /** The field value of `key + " " + v + "\n"` is `v` for a stripped, colon-free `v`. */
  lemma FieldValueOf(key: string, v: string)
    requires key == ReportIdKey || key == AccuracyKey || key == LegacyAccuracyKey
    requires IsTrimmed(v) && ':' !in v
    requires IsIdLine(key + " " + v + "\n") || IsAccuracyLine(key + " " + v + "\n")
    ensures FieldValue(key + " " + v + "\n") == v
  {
    var pre := key[..|key| - 1];
    KeyEndsInColon(key);
    KeyRegroup(key, pre, ':', " ", v, "\n");
    FieldValueAfter(pre, v);
  }

  /** Each key is colon-free text followed by one colon. */
  lemma KeyEndsInColon(key: string)
    requires key == ReportIdKey || key == AccuracyKey || key == LegacyAccuracyKey
    ensures key != [] && ':' !in key[..|key| - 1] && key == key[..|key| - 1] + [':']
  {
  }

  lemma KeyRegroup<T>(key: seq<T>, pre: seq<T>, c: T, a: seq<T>, v: seq<T>, b: seq<T>)
    requires key == pre + [c]
    ensures key + a + v + b == pre + [c] + (a + v + b)
  {
  }

  /** The field value after a colon-free prefix, its colon and a blank is the stripped rest. */
  lemma FieldValueAfter(pre: string, v: string)
    requires ':' !in pre && IsTrimmed(v) && ':' !in v
    requires IsIdLine(pre + [':'] + (" " + v + "\n")) || IsAccuracyLine(pre + [':'] + (" " + v + "\n"))
    ensures FieldValue(pre + [':'] + (" " + v + "\n")) == v
  {
    var tail := " " + v + "\n";
    assert ':' !in tail by {
      assert tail == [' '] + v + ['\n'];
    }
    SecondFieldOf(pre, tail);
    TrimPadded(" ", v, "\n");
  }

  /** The identifier line as `evaluation.main` writes it. */
  lemma IdLineOf(v: string)
    requires IsTrimmed(v) && ':' !in v
    ensures IsIdLine("Report ID: " + v + "\n") && !IsAccuracyLine("Report ID: " + v + "\n")
    ensures FieldValue("Report ID: " + v + "\n") == v
  {
    var line := "Report ID: " + v + "\n";
    assert line == ReportIdKey + " " + v + "\n";
    assert line[..10] == ReportIdKey;
    KeyLineStart(line);
    FieldValueOf(ReportIdKey, v);
  }

  /** The accuracy line as `evaluation.main` writes it. */
  lemma AccuracyLineOf(v: string)
    requires IsTrimmed(v) && ':' !in v
    ensures IsAccuracyLine("Overall accuracy: " + v + "\n") && !IsIdLine("Overall accuracy: " + v + "\n")
    ensures FieldValue("Overall accuracy: " + v + "\n") == v
  {
    var line := "Overall accuracy: " + v + "\n";
    assert line == AccuracyKey + " " + v + "\n";
    assert line[..17] == AccuracyKey;
    KeyLineStart(line);
    FieldValueOf(AccuracyKey, v);
  }

  /** The first header line is the only one that names the report. */
  lemma HeaderIdLine(s: Scoring.Score, fixed4: real -> string)
    requires IsTrimmed(s.formattedId) && ':' !in s.formattedId
    requires IsTrimmed(fixed4(s.accuracy)) && ':' !in fixed4(s.accuracy)
    requires !IsIdLine(Join(s.columns, ", ") + "\n")
    ensures var header := AccuracyFile.HeaderLines(s, fixed4);
            LastIdLine(header, 0) && FieldValue(header[0]) == s.formattedId
  {
    var header := AccuracyFile.HeaderLines(s, fixed4);
    IdLineOf(s.formattedId);
    AccuracyLineOf(fixed4(s.accuracy));
    HeaderCountsNotId(s, fixed4);
    OnlyFirstIdLine(header);
  }

  /** The header lines between the identifier and the accuracy start with letters no key starts with. */
  lemma HeaderCountsNotId(s: Scoring.Score, fixed4: real -> string)
    ensures var header := AccuracyFile.HeaderLines(s, fixed4);
            !IsIdLine(header[1]) && !IsIdLine(header[3]) && !IsIdLine(header[4])
            && !IsIdLine(header[5]) && !IsIdLine(header[6])
  {
    var header := AccuracyFile.HeaderLines(s, fixed4);
    assert header[1][0] == 'C' && header[3][0] == '\n' && header[4][0] == 'T';
    assert header[5][0] == 'C' && header[6][0] == 'I';
    NotKeyLine(header[1]);
    NotKeyLine(header[3]);
    NotKeyLine(header[4]);
    NotKeyLine(header[5]);
    NotKeyLine(header[6]);
  }

  /** Eight lines of which only the first names a report have it as their last identifier line. */
  lemma OnlyFirstIdLine(header: seq<string>)
    requires |header| == 8 && IsIdLine(header[0])
    requires !IsIdLine(header[1]) && !IsIdLine(header[2]) && !IsIdLine(header[3]) && !IsIdLine(header[4])
    requires !IsIdLine(header[5]) && !IsIdLine(header[6]) && !IsIdLine(header[7])
    ensures LastIdLine(header, 0)
  {
    forall j | 0 < j < 8 ensures !IsIdLine(header[j]) {
      if j == 1 {} else if j == 2 {} else if j == 3 {} else if j == 4 {} else if j == 5 {} else if j == 6 {}
    }
  }

  /** The last header line states the accuracy. */
  lemma HeaderAccuracyLine(s: Scoring.Score, fixed4: real -> string)
    requires IsTrimmed(fixed4(s.accuracy)) && ':' !in fixed4(s.accuracy)
    ensures var header := AccuracyFile.HeaderLines(s, fixed4);
            LastAccuracyLine(header, 7) && FieldValue(header[7]) == fixed4(s.accuracy)
  {
    AccuracyLineOf(fixed4(s.accuracy));
  }

  /** Scanning the header finds the identifier and the accuracy it was written with. */
  lemma ScanHeader(s: Scoring.Score, fixed4: real -> string, parse: string -> Option<real>)
    requires IsTrimmed(s.formattedId) && ':' !in s.formattedId
    requires IsTrimmed(fixed4(s.accuracy)) && ':' !in fixed4(s.accuracy)
    requires !IsIdLine(Join(s.columns, ", ") + "\n")
    ensures ScanLines(AccuracyFile.HeaderLines(s, fixed4), parse)
            == Extracted(Some(s.formattedId), parse(fixed4(s.accuracy)))
  {
    var header := AccuracyFile.HeaderLines(s, fixed4);
    HeaderIdLine(s, fixed4);
    HeaderAccuracyLine(s, fixed4);
    ScanLinesId(header, parse);
    ScanLinesAccuracy(header, parse);
  }

  /** The differences section after the header changes nothing the scan finds. */
  lemma ScanPastHeader(s: Scoring.Score, fixed4: real -> string, table: seq<string>, parse: string -> Option<real>)
    requires forall i :: 0 <= i < |table| ==> !IsIdLine(table[i]) && !IsAccuracyLine(table[i])
    ensures ScanLines(AccuracyFile.FileLines(s, fixed4, table), parse)
            == ScanLines(AccuracyFile.HeaderLines(s, fixed4), parse)
  {
    var header := AccuracyFile.HeaderLines(s, fixed4);
    var lines := AccuracyFile.FileLines(s, fixed4, table);
    if s.incorrect > 0 {
      var opening := ["\n", AccuracyFile.DifferencesMarker + "\n"];
      assert lines == (header + opening) + table;
      NotKeyLine(opening[0]);
      NotKeyLine(opening[1]);
      ScanLinesIgnores(header + opening, table, parse);
      ScanLinesIgnores(header, opening, parse);
    }
  }

  /**
   * Reading back the file `evaluation.main` writes yields its identifier and
   * its parsed accuracy, when nothing else in the file looks like a key line.
   */
  lemma ExtractWrittenFile(s: Scoring.Score, fixed4: real -> string, table: seq<string>, parse: string -> Option<real>)
    requires IsTrimmed(s.formattedId) && ':' !in s.formattedId
    requires IsTrimmed(fixed4(s.accuracy)) && ':' !in fixed4(s.accuracy)
    requires var joined := Join(s.columns, ", ") + "\n"; !IsIdLine(joined) && !IsAccuracyLine(joined)
    requires forall i :: 0 <= i < |table| ==> !IsIdLine(table[i]) && !IsAccuracyLine(table[i])
    requires parse(fixed4(s.accuracy)).Some?
    ensures ExtractAccuracy(Some(AccuracyFile.FileLines(s, fixed4, table)), parse)
            == Extracted(Some(s.formattedId), parse(fixed4(s.accuracy)))
  {
    ScanHeader(s, fixed4, parse);
    ScanPastHeader(s, fixed4, table, parse);
  }

  /** One entry of the listing: the identifier shown and the accuracy. */
  datatype Entry = Entry(id: string, accuracy: real)

  /** The identifier taken from the file name when the file's own is blank (line 84). */
  function FallbackId(filename: string): (id: string)
    ensures ' ' !in id
  {
    RemoveChar(RemoveAll(filename, "_accuracy.txt"), ' ')
  }

  /**
   * What one file contributes to the summary (lines 80-86): nothing without a
   * valid accuracy, otherwise the file's identifier, or the name-derived one
   * when that identifier is the empty string.
   */
  function EntryFor(filename: string, contents: Option<seq<string>>, parse: string -> Option<real>): (r: Option<Entry>)
    ensures r.None? <==> ExtractAccuracy(contents, parse).accuracy.None?
    ensures r.Some? ==> Some(r.value.accuracy) == ExtractAccuracy(contents, parse).accuracy
    ensures r.Some? ==> var id := ExtractAccuracy(contents, parse).reportId.value;
              r.value.id == (if id != "" then id else FallbackId(filename))
  {
    var e := ExtractAccuracy(contents, parse);
    if e.accuracy.None? then None
    else Some(Entry(if e.reportId.value != "" then e.reportId.value else FallbackId(filename), e.accuracy.value))
  }

  /**
   * A file whose name follows the accuracy-file pattern and whose identifier
   * line is blank is listed under the name's identifier with spaces removed.
   */
  lemma FallbackFromFileName(stem: string, contents: seq<string>, parse: string -> Option<real>)
    requires '_' !in stem
    requires ExtractAccuracy(Some(contents), parse).accuracy.Some?
    requires ExtractAccuracy(Some(contents), parse).reportId == Some("")
    ensures EntryFor(stem + "_accuracy.txt", Some(contents), parse).value.id == RemoveChar(stem, ' ')
  {
    RemoveAllSuffix(stem, "_accuracy.txt");
  }

  /** The `.txt` names of the directory in ascending order (line 72). */
  function TextFiles(names: set<string>): (files: seq<string>)
    ensures Order.StrictlySorted(files)
    ensures forall f :: f in files <==> f in names && EndsWith(f, ".txt")
  {
    Order.SortedElements(set f | f in names && EndsWith(f, ".txt"))
  }

  /** The loop of lines 78-86: the entries of the files, in file order. */
  function Collect(files: seq<string>, read: string -> Option<seq<string>>, parse: string -> Option<real>): (es: seq<Entry>)
    ensures |es| <= |files|
  {
    if files == [] then []
    else
      var rest := Collect(files[1..], read, parse);
      match EntryFor(files[0], read(files[0]), parse)
      case None => rest
      case Some(e) => [e] + rest
  }

  /**
   * The collected entries are exactly the entries of the files that have one:
   * nothing is collected only when no file has an entry.
   */
  lemma {:induction false} CollectEntries(files: seq<string>, read: string -> Option<seq<string>>, parse: string -> Option<real>)
    ensures var es := Collect(files, read, parse);
            (es == [] <==> forall i :: 0 <= i < |files| ==> EntryFor(files[i], read(files[i]), parse).None?)
            && (forall i :: 0 <= i < |files| && EntryFor(files[i], read(files[i]), parse).Some? ==>
                  EntryFor(files[i], read(files[i]), parse).value in es)
            && (forall e :: e in es ==> exists i :: 0 <= i < |files| && EntryFor(files[i], read(files[i]), parse) == Some(e))
  {
    if files != [] {
      CollectEntries(files[1..], read, parse);
      assert forall i :: 1 <= i < |files| ==> files[i] == files[1..][i - 1];
    }
  }

  /** Collecting over two lists of files is collecting over each in turn. */
  lemma {:induction false} CollectAppend(a: seq<string>, b: seq<string>, read: string -> Option<seq<string>>, parse: string -> Option<real>)
    ensures Collect(a + b, read, parse) == Collect(a, read, parse) + Collect(b, read, parse)
  {
    if a == [] {
      assert a + b == b;
    } else {
      assert (a + b)[0] == a[0];
      assert (a + b)[1..] == a[1..] + b;
      CollectAppend(a[1..], b, read, parse);
    }
  }

  function Accuracies(es: seq<Entry>): (xs: seq<real>)
    ensures |xs| == |es| && forall i :: 0 <= i < |es| ==> xs[i] == es[i].accuracy
  {
    seq(|es|, i requires 0 <= i < |es| => es[i].accuracy)
  }

  function Sum(xs: seq<real>): real
  {
    if xs == [] then 0.0 else xs[0] + Sum(xs[1..])
  }

  /** A sum of terms within `[lo, hi]` lies within `[n * lo, n * hi]`. */
  lemma {:induction false} SumBetween(xs: seq<real>, lo: real, hi: real)
    requires forall i :: 0 <= i < |xs| ==> lo <= xs[i] <= hi
    ensures (|xs| as real) * lo <= Sum(xs) <= (|xs| as real) * hi
  {
    if xs != [] {
      SumBetween(xs[1..], lo, hi);
      assert (|xs| as real) * lo == lo + (|xs[1..]| as real) * lo;
      assert (|xs| as real) * hi == hi + (|xs[1..]| as real) * hi;
    }
  }

  /** A sum of `n` copies of `x` is `n * x`. */
  lemma {:induction false} SumConstant(xs: seq<real>, x: real)
    requires forall i :: 0 <= i < |xs| ==> xs[i] == x
    ensures Sum(xs) == (|xs| as real) * x
  {
    if xs != [] {
      SumConstant(xs[1..], x);
      assert (|xs| as real) * x == x + (|xs[1..]| as real) * x;
    }
  }

  /** `np.mean`. */
  function Mean(xs: seq<real>): (m: real)
    requires |xs| > 0
    ensures m * (|xs| as real) == Sum(xs)
  {
    Sum(xs) / (|xs| as real)
  }

  /** The mean lies within any bounds of the values. */
  lemma MeanBetween(xs: seq<real>, lo: real, hi: real)
    requires |xs| > 0
    requires forall i :: 0 <= i < |xs| ==> lo <= xs[i] <= hi
    ensures lo <= Mean(xs) <= hi
  {
    SumBetween(xs, lo, hi);
  }

  predicate AtMost(a: real, b: real)
  {
    a <= b
  }

  lemma AtMostIsTotalPreorder()
    ensures Sorting.TotalPreorder(AtMost)
  {
  }

  /** `np.median`: the middle value, or the mean of the two middle values. */
  function Median(xs: seq<real>): (m: real)
    requires |xs| > 0
    ensures var t := (AtMostIsTotalPreorder(); Sorting.SortBy(xs, AtMost));
            Sorting.SortedBy(t, AtMost) && multiset(t) == multiset(xs)
            && (|xs| % 2 == 1 ==> m == t[|xs| / 2])
            && (|xs| % 2 == 0 ==> m == (t[|xs| / 2 - 1] + t[|xs| / 2]) / 2.0)
  {
    AtMostIsTotalPreorder();
    var t := Sorting.SortBy(xs, AtMost);
    var n := |t|;
    if n % 2 == 1 then t[n / 2] else (t[n / 2 - 1] + t[n / 2]) / 2.0
  }

  /** Every value of a sorted rearrangement of `xs` is one of the values of `xs`. */
  lemma ElementOfPermutation(t: seq<real>, xs: seq<real>, k: nat)
    requires multiset(t) == multiset(xs) && k < |t|
    ensures exists i :: 0 <= i < |xs| && xs[i] == t[k]
  {
    assert t[k] in multiset(xs);
  }

  /** The median lies within any bounds of the values. */
  lemma MedianBetween(xs: seq<real>, lo: real, hi: real)
    requires |xs| > 0
    requires forall i :: 0 <= i < |xs| ==> lo <= xs[i] <= hi
    ensures lo <= Median(xs) <= hi
  {
    AtMostIsTotalPreorder();
    var t := Sorting.SortBy(xs, AtMost);
    var n := |xs|;
    PermutationBetween(t, xs, lo, hi);
    if n % 2 == 0 {
      HalfSumBetween(t[n / 2 - 1], t[n / 2], lo, hi);
    }
  }

  /** A rearrangement of values within bounds stays within them. */
  lemma PermutationBetween(t: seq<real>, xs: seq<real>, lo: real, hi: real)
    requires multiset(t) == multiset(xs)
    requires forall i :: 0 <= i < |xs| ==> lo <= xs[i] <= hi
    ensures forall k :: 0 <= k < |t| ==> lo <= t[k] <= hi
  {
    forall k | 0 <= k < |t| ensures lo <= t[k] <= hi {
      ElementOfPermutation(t, xs, k);
    }
  }

  lemma HalfSumBetween(a: real, b: real, lo: real, hi: real)
    requires lo <= a <= hi && lo <= b <= hi
    ensures lo <= (a + b) / 2.0 <= hi
  {
  }

  /** When every report has the same accuracy, the mean and the median are that accuracy. */
  lemma ConstantStatistics(xs: seq<real>, x: real)
    requires |xs| > 0
    requires forall i :: 0 <= i < |xs| ==> xs[i] == x
    ensures Mean(xs) == x && Median(xs) == x
  {
    MeanBetween(xs, x, x);
    MedianBetween(xs, x, x);
  }

  /** `k` is where `np.argmin` points: a least value, and the first one. */
  predicate FirstMinimumAt(xs: seq<real>, k: nat)
  {
    k < |xs| && (forall i :: 0 <= i < |xs| ==> xs[k] <= xs[i]) && (forall i :: 0 <= i < k ==> xs[k] < xs[i])
  }

  /** `k` is where `np.argmax` points: a greatest value, and the first one. */
  predicate FirstMaximumAt(xs: seq<real>, k: nat)
  {
    k < |xs| && (forall i :: 0 <= i < |xs| ==> xs[i] <= xs[k]) && (forall i :: 0 <= i < k ==> xs[i] < xs[k])
  }

  /** `np.argmin` (line 99). */
  method ArgMin(xs: seq<real>) returns (k: nat)
    requires |xs| > 0
    ensures FirstMinimumAt(xs, k)
  {
    k := 0;
    var i := 1;
    while i < |xs|
      invariant 1 <= i <= |xs| && k < i
      invariant forall j :: 0 <= j < i ==> xs[k] <= xs[j]
      invariant forall j :: 0 <= j < k ==> xs[k] < xs[j]
    {
      if xs[i] < xs[k] {
        k := i;
      }
      i := i + 1;
    }
  }

  /** `np.argmax` (line 100). */
  method ArgMax(xs: seq<real>) returns (k: nat)
    requires |xs| > 0
    ensures FirstMaximumAt(xs, k)
  {
    k := 0;
    var i := 1;
    while i < |xs|
      invariant 1 <= i <= |xs| && k < i
      invariant forall j :: 0 <= j < i ==> xs[j] <= xs[k]
      invariant forall j :: 0 <= j < k ==> xs[j] < xs[k]
    {
      if xs[i] > xs[k] {
        k := i;
      }
      i := i + 1;
    }
  }

  /** The order of `sorted(zip(report_ids, accuracies))`: by identifier, then by accuracy. */
  predicate EntryAtMost(a: Entry, b: Entry)
  {
    Order.Less(a.id, b.id) || (a.id == b.id && a.accuracy <= b.accuracy)
  }

  /** The listing order has no ties, so the sorted listing is unique. */
  lemma EntryOrder()
    ensures Sorting.TotalPreorder(EntryAtMost)
    ensures Sorting.Antisymmetric(EntryAtMost)
  {
    Order.LessIsStrictTotalOrder();
  }

  /** Why no summary is produced; each ends the program with status 1. */
  datatype ReportError = NoAccuracyDirectory | NoTextFiles | NoValidAccuracy

  /** The statistics written to the summary file (lines 107-129). */
  datatype Summary = Summary(count: nat, mean: real, median: real,
                             minimum: real, minimumId: string,
                             maximum: real, maximumId: string,
                             listing: seq<Entry>)

  /**
   * `sm` holds the statistics of the entries `es` as lines 93-129 compute
   * them: the count, the mean and the median (both within the extremes), the
   * first least and first greatest accuracy with their identifiers, and the
   * entries in ascending (identifier, accuracy) order.
   */
  ghost predicate Summarizes(sm: Summary, es: seq<Entry>)
  {
    var xs := Accuracies(es);
    sm.count == |es| > 0
    && sm.mean == Mean(xs) && sm.median == Median(xs)
    && sm.minimum <= sm.mean <= sm.maximum
    && sm.minimum <= sm.median <= sm.maximum
    && (exists k: nat :: FirstMinimumAt(xs, k) && sm.minimum == xs[k] && sm.minimumId == es[k].id)
    && (exists k: nat :: FirstMaximumAt(xs, k) && sm.maximum == xs[k] && sm.maximumId == es[k].id)
    && Sorting.SortedBy(sm.listing, EntryAtMost)
    && multiset(sm.listing) == multiset(es)
  }

  /** The statistics of lines 93-129 over a non-empty list of entries. */
  method Summarize(es: seq<Entry>) returns (sm: Summary)
    requires |es| > 0
    ensures Summarizes(sm, es)
  {
    var xs := Accuracies(es);
    var lo := ArgMin(xs);
    var hi := ArgMax(xs);
    MeanBetween(xs, xs[lo], xs[hi]);
    MedianBetween(xs, xs[lo], xs[hi]);
    EntryOrder();
    var sorted := Sorting.SortBy(es, EntryAtMost);
    sm := Summary(|es|, Mean(xs), Median(xs), xs[lo], es[lo].id, xs[hi], es[hi].id, sorted);
    assert FirstMinimumAt(xs, lo) && sm.minimum == xs[lo] && sm.minimumId == es[lo].id;
    assert FirstMaximumAt(xs, hi) && sm.maximum == xs[hi] && sm.maximumId == es[hi].id;
  }

  /**
   * `generate_report` (lines 61-129) without the printing and the histogram.
   * `listing` is the directory's contents, `None` when it is not a directory;
   * `read` gives a file's lines and `parse` is `float`.
   */
  method GenerateReport(listing: Option<set<string>>, read: string -> Option<seq<string>>, parse: string -> Option<real>)
    returns (r: Result<Summary, ReportError>)
    ensures listing.None? <==> r == Err(NoAccuracyDirectory)
    ensures r == Err(NoTextFiles) <==> listing.Some? && TextFiles(listing.value) == []
    ensures r == Err(NoValidAccuracy) <==>
              listing.Some? && TextFiles(listing.value) != [] && Collect(TextFiles(listing.value), read, parse) == []
    ensures r.Ok? ==> listing.Some? && Summarizes(r.value, Collect(TextFiles(listing.value), read, parse))
  {
    if listing.None? {
      return Err(NoAccuracyDirectory);
    }
    var files := TextFiles(listing.value);
    if files == [] {
      return Err(NoTextFiles);
    }
    var es := Collect(files, read, parse);
    if es == [] {
      return Err(NoValidAccuracy);
    }
    var sm := Summarize(es);
    r := Ok(sm);
  }
}

=== FILE: scoring.dfy ===
/**
 * The per-report scorer of `src/evaluation.py` (`standardize_columns` and the
 * comparison part of `main`) as a pure function of the two sheets, already
 * read: select the report's rows, standardise the column names, align both
 * sheets on their sorted common columns, compare cell by cell and count.
 */
module Scoring {
  import opened Wrappers
  import opened Text
  import opened Order
  import opened Cells
  import opened Tables
  import opened ReportIds
  import Config

  type Row = seq<Cell>

  /** One column name after `standardize_columns`: a known misspelling is corrected, any other name kept. */
  function StandardName(c: string): string
  {
    if c in Config.ColumnNameMapping then Config.ColumnNameMapping[c] else c
  }

  /** `standardize_columns` (lines 15-19): `rename` with the correction table, ignoring names it lacks. */
  function StandardizeColumns(columns: seq<string>): (r: seq<string>)
    ensures |r| == |columns|
    ensures forall i :: 0 <= i < |columns| && columns[i] in Config.ColumnNameMapping ==>
              r[i] == Config.ColumnNameMapping[columns[i]]
    ensures forall i :: 0 <= i < |columns| && columns[i] !in Config.ColumnNameMapping ==> r[i] == columns[i]
  {
    seq(|columns|, i requires 0 <= i < |columns| => StandardName(columns[i]))
  }

  /** A corrected name is never itself a misspelling, so standardising twice changes nothing more. */
  lemma StandardizeIdempotent(columns: seq<string>)
    ensures StandardizeColumns(StandardizeColumns(columns)) == StandardizeColumns(columns)
  {
    forall c | c in Config.ColumnNameMapping.Values
      ensures c !in Config.ColumnNameMapping
    {
    }
  }

  /** The identifier columns are never renamed, so they keep their names through standardisation. */
  lemma StandardizeKeepsIdColumns(columns: seq<string>, i: nat)
    requires i < |columns| && columns[i] in Config.ReportIdColumnNames
    ensures StandardizeColumns(columns)[i] == columns[i]
  {
  }

  /** The two rewrites `main` applies to an identifier column. */
  datatype IdCleaning =
    | Strip    // `astype(str).str.strip()` (lines 135-136)
    | Unspace  // `astype(str).str.replace(r'\s+', '', regex=True)` (lines 171-174)

  /** One identifier cell rewritten; a missing identifier reads "nan" either way. */
  function CleanId(how: IdCleaning, c: Cell): Cell
  {
    match how
    case Strip => Str(Trim(AsText(c)))
    case Unspace => Str(RemoveWhitespace(AsText(c)))
  }

  /** `df[col] = ...` on column `k`: that cell of every row rewritten, every other cell kept. */
  function MapColumn(rows: seq<Row>, k: nat, how: IdCleaning): (r: seq<Row>)
    requires forall i :: 0 <= i < |rows| ==> k < |rows[i]|
    ensures |r| == |rows|
    ensures forall i :: 0 <= i < |rows| ==> |r[i]| == |rows[i]| && r[i][k] == CleanId(how, rows[i][k])
    ensures forall i, j :: 0 <= i < |rows| && 0 <= j < |rows[i]| && j != k ==> r[i][j] == rows[i][j]
  {
    seq(|rows|, i requires 0 <= i < |rows| => rows[i][k := CleanId(how, rows[i][k])])
  }

  /** `df[df[col] == id]`: the rows whose identifier cell is exactly `id`, in their order. */
  function RowsWithId(rows: seq<Row>, k: nat, id: string): (r: seq<Row>)
    requires forall i :: 0 <= i < |rows| ==> k < |rows[i]|
    ensures multiset(r) <= multiset(rows)
    ensures forall i :: 0 <= i < |r| ==> k < |r[i]| && r[i][k] == Str(id)
  {
    if rows == [] then []
    else
      var rest := RowsWithId(rows[1..], k, id);
      assert rows == [rows[0]] + rows[1..];
      (if rows[0][k] == Str(id) then [rows[0]] else []) + rest
  }

  /** Every row naming `id` is kept, as often as it occurs. */
  lemma {:induction false} RowsWithIdKeeps(rows: seq<Row>, k: nat, id: string, row: Row)
    requires forall i :: 0 <= i < |rows| ==> k < |rows[i]|
    requires k < |row| && row[k] == Str(id)
    ensures multiset(RowsWithId(rows, k, id))[row] == multiset(rows)[row]
  {
    if rows != [] {
      assert rows == [rows[0]] + rows[1..];
      RowsWithIdKeeps(rows[1..], k, id, row);
    }
  }

  /** The selection is empty exactly when no row names `id`. */
  lemma {:induction false} RowsWithIdEmpty(rows: seq<Row>, k: nat, id: string)
    requires forall i :: 0 <= i < |rows| ==> k < |rows[i]|
    ensures RowsWithId(rows, k, id) == [] <==> forall i :: 0 <= i < |rows| ==> rows[i][k] != Str(id)
  {
    if rows != [] {
      RowsWithIdEmpty(rows[1..], k, id);
      assert forall i :: 1 <= i < |rows| ==> rows[i] == rows[1..][i - 1];
    }
  }

  /** `df[keep]`: every row cut down to the named columns, each read at its first occurrence. */
  function Project(rows: seq<Row>, columns: seq<string>, keep: seq<string>): (r: seq<Row>)
    requires forall i :: 0 <= i < |rows| ==> |rows[i]| == |columns|
    requires forall j :: 0 <= j < |keep| ==> keep[j] in columns
    ensures |r| == |rows|
    ensures forall i :: 0 <= i < |rows| ==> |r[i]| == |keep|
    ensures forall i, j :: 0 <= i < |rows| && 0 <= j < |keep| ==> r[i][j] == rows[i][ColumnIndex(columns, keep[j])]
  {
    seq(|rows|, i requires 0 <= i < |rows| =>
      seq(|keep|, j requires 0 <= j < |keep| => rows[i][ColumnIndex(columns, keep[j])]))
  }

  /** `sorted(set(a) & set(b))`. */
  function CommonColumns(a: seq<string>, b: seq<string>): (r: seq<string>)
    ensures StrictlySorted(r)
    ensures forall c :: c in r <==> c in a && c in b
  {
    SortedElements(set c | c in a && c in b)
  }

  /** Whether one aligned pair of cells is counted correct: both preprocessed, then `cells_equal`. */
  predicate Agrees(a: Cell, b: Cell, num: Numeric)
  {
    CellsEqual(Preprocess(a), Preprocess(b), num)
  }

  /** Two aligned grids of the same shape, `n` columns wide. */
  predicate SameShape(ts: seq<Row>, es: seq<Row>, n: nat)
  {
    |ts| == |es| && forall i :: 0 <= i < |ts| ==> |ts[i]| == n && |es[i]| == n
  }

  /** A grid of verdicts, `n` columns wide. */
  predicate IsGrid(mask: seq<seq<bool>>, n: nat)
  {
    forall i :: 0 <= i < |mask| ==> |mask[i]| == n
  }

  /** `np.vectorize(cells_equal)(true_values, extracted_values)` on the preprocessed grids. */
  function CorrectMask(ts: seq<Row>, es: seq<Row>, n: nat, num: Numeric): (mask: seq<seq<bool>>)
    requires SameShape(ts, es, n)
    ensures |mask| == |ts| && IsGrid(mask, n)
    ensures forall i, j :: 0 <= i < |ts| && 0 <= j < n ==> mask[i][j] == Agrees(ts[i][j], es[i][j], num)
  {
    seq(|ts|, i requires 0 <= i < |ts| => seq(n, j requires 0 <= j < n => Agrees(ts[i][j], es[i][j], num)))
  }

  /** Number of true verdicts in columns `c..` of one row. */
  function RowCorrect(row: seq<bool>, c: nat): (k: nat)
    requires c <= |row|
    ensures k <= |row| - c
    decreases |row| - c
  {
    if c == |row| then 0
    else (if row[c] then 1 else 0) + RowCorrect(row, c + 1)
  }

  /** Number of true verdicts in rows `r..` (`np.sum(correct_mask)`). */
  function CountCorrect(mask: seq<seq<bool>>, r: nat): nat
    requires r <= |mask|
    decreases |mask| - r
  {
    if r == |mask| then 0
    else RowCorrect(mask[r], 0) + CountCorrect(mask, r + 1)
  }

  /** Position `p` comes strictly before `q` in row-major order. */
  predicate Before(p: (nat, nat), q: (nat, nat))
  {
    p.0 < q.0 || (p.0 == q.0 && p.1 < q.1)
  }

  predicate RowMajor(ps: seq<(nat, nat)>)
  {
    forall i, j :: 0 <= i < j < |ps| ==> Before(ps[i], ps[j])
  }

  /** The false positions among columns `c..` of row `r`, left to right. */
  function RowMismatches(row: seq<bool>, r: nat, c: nat): (ps: seq<(nat, nat)>)
    requires c <= |row|
    ensures forall p :: p in ps ==> p.0 == r && c <= p.1 < |row| && !row[p.1]
    ensures forall j :: c <= j < |row| && !row[j] ==> (r, j) in ps
    ensures RowMajor(ps)
    ensures |ps| + RowCorrect(row, c) == |row| - c
    decreases |row| - c
  {
    if c == |row| then []
    else
      var rest := RowMismatches(row, r, c + 1);
      if row[c] then rest
      else
        assert forall i :: 0 <= i < |rest| ==> Before((r, c), rest[i]) by {
          forall i | 0 <= i < |rest|
            ensures Before((r, c), rest[i])
          {
            assert rest[i] in rest;
          }
        }
        [(r, c)] + rest
  }

  /** The false positions of rows `r..`, in row-major order (`np.where(~correct_mask)`). */
  function Mismatches(mask: seq<seq<bool>>, n: nat, r: nat): (ps: seq<(nat, nat)>)
    requires IsGrid(mask, n) && r <= |mask|
    ensures forall p :: p in ps ==> r <= p.0 < |mask| && p.1 < n && !mask[p.0][p.1]
    ensures forall i, j :: r <= i < |mask| && 0 <= j < n && !mask[i][j] ==> (i, j) in ps
    ensures RowMajor(ps)
    ensures |ps| + CountCorrect(mask, r) == (|mask| - r) * n
    decreases |mask| - r
  {
    if r == |mask| then []
    else
      var here := RowMismatches(mask[r], r, 0);
      var rest := Mismatches(mask, n, r + 1);
      MulStep(|mask| - r, n);
      RowThenLater(here, rest, r);
      here + rest
  }

  lemma MulStep(a: nat, n: nat)
    requires a > 0
    ensures a * n == n + (a - 1) * n
  {
  }

  /** Positions of row `r` followed by positions of later rows are in row-major order. */
  lemma RowThenLater(here: seq<(nat, nat)>, rest: seq<(nat, nat)>, r: nat)
    requires RowMajor(here) && RowMajor(rest)
    requires forall p :: p in here ==> p.0 == r
    requires forall p :: p in rest ==> r < p.0
    ensures RowMajor(here + rest)
  {
    forall i, j | 0 <= i < |here| && 0 <= j < |rest|
      ensures Before(here[i], rest[j])
    {
      assert here[i] in here && rest[j] in rest;
    }
  }

  /** One row of the differences table: the column and both values as aligned, before preprocessing. */
  datatype Difference = Difference(column: string, trueValue: Cell, extractedValue: Cell)

  /** The differences table (lines 225-238): one entry per false verdict, in row-major order. */
  function Differences(columns: seq<string>, ts: seq<Row>, es: seq<Row>, mask: seq<seq<bool>>): (ds: seq<Difference>)
    requires SameShape(ts, es, |columns|) && |mask| == |ts| && IsGrid(mask, |columns|)
    ensures var ps := Mismatches(mask, |columns|, 0);
            |ds| == |ps|
            && forall i :: 0 <= i < |ds| ==>
                 ds[i] == Difference(columns[ps[i].1], ts[ps[i].0][ps[i].1], es[ps[i].0][ps[i].1])
  {
    var ps := Mismatches(mask, |columns|, 0);
    seq(|ps|, i requires 0 <= i < |ps| =>
      assert ps[i] in ps;
      Difference(columns[ps[i].1], ts[ps[i].0][ps[i].1], es[ps[i].0][ps[i].1]))
  }

  /** The verdict is 1.0 exactly when every aligned cell agrees, and then there is no difference to list. */
  lemma {:induction false} AllCorrectIffNoMismatch(mask: seq<seq<bool>>, n: nat)
    requires IsGrid(mask, n)
    ensures CountCorrect(mask, 0) == |mask| * n <==> forall i, j :: 0 <= i < |mask| && 0 <= j < n ==> mask[i][j]
  {
    var ps := Mismatches(mask, n, 0);
    if ps != [] {
      assert ps[0] in ps;
    }
  }

  /** `correct / total` as a real number, and 0.0 when there is nothing to count. */
  function Accuracy(correct: nat, total: nat): (q: real)
    requires correct <= total
    ensures total > 0 ==> q * (total as real) == correct as real
    ensures total == 0 ==> q == 0.0
    ensures 0.0 <= q <= 1.0
    ensures q == 1.0 <==> total > 0 && correct == total
  {
    if total == 0 then 0.0 else correct as real / total as real
  }

  /** A report's score: the columns compared, the cell counts, the accuracy and the differences. */
  datatype Score = Score(formattedId: string, columns: seq<string>, total: nat, correct: nat, incorrect: nat,
                         accuracy: real, differences: seq<Difference>)

  /** Counting and the accuracy ratio (lines 186-206), from the verdict grid of the aligned sheets. */
  function Tally(formattedId: string, columns: seq<string>, ts: seq<Row>, es: seq<Row>, mask: seq<seq<bool>>): (s: Score)
    requires SameShape(ts, es, |columns|) && |mask| == |ts| && IsGrid(mask, |columns|)
    ensures s.formattedId == formattedId && s.columns == columns
    ensures s.total == |ts| * |columns| && s.correct + s.incorrect == s.total
    ensures s.total > 0 <==> |ts| > 0 && |columns| > 0
    ensures s.correct == s.total <==> forall i, j :: 0 <= i < |ts| && 0 <= j < |columns| ==> mask[i][j]
    ensures s.accuracy == Accuracy(s.correct, s.total)
    ensures s.correct == CountCorrect(mask, 0) && s.incorrect == |Mismatches(mask, |columns|, 0)|
    ensures s.differences == Differences(columns, ts, es, mask)
    ensures |s.differences| == s.incorrect
    ensures forall i :: 0 <= i < |s.differences| ==> s.differences[i].column in columns
  {
    var n := |columns|;
    var correct := CountCorrect(mask, 0);
    var total := |ts| * n;
    AllCorrectIffNoMismatch(mask, n);
    CorrectAtMostTotal(mask, n);
    ProductPositive(|ts|, n);
    var ds := Differences(columns, ts, es, mask);
    DifferenceColumns(columns, ts, es, mask);
    var accuracy := Accuracy(correct, total);
    Score(formattedId, columns, total, correct, total - correct, accuracy, ds)
  }

  lemma CorrectAtMostTotal(mask: seq<seq<bool>>, n: nat)
    requires IsGrid(mask, n)
    ensures CountCorrect(mask, 0) <= |mask| * n
  {
    var ps := Mismatches(mask, n, 0);
  }

  lemma ProductPositive(a: nat, b: nat)
    ensures a * b > 0 <==> a > 0 && b > 0
  {
  }

  /** Every difference names one of the compared columns. */
  lemma DifferenceColumns(columns: seq<string>, ts: seq<Row>, es: seq<Row>, mask: seq<seq<bool>>)
    requires SameShape(ts, es, |columns|) && |mask| == |ts| && IsGrid(mask, |columns|)
    ensures var ds := Differences(columns, ts, es, mask);
            forall i :: 0 <= i < |ds| ==> ds[i].column in columns
  {
    var ps := Mismatches(mask, |columns|, 0);
    var ds := Differences(columns, ts, es, mask);
    forall i | 0 <= i < |ds| ensures ds[i].column in columns {
      assert ps[i] in ps;
    }
  }

  /** Which sheet an error is about. */
  datatype Side = GroundTruth | ExtractedSheet

  /** The ways `main` gives up, each raised as a `ValueError` in the source. */
  datatype ScoreError =
    | NoIdColumn(side: Side)
    | NoMatchingRow(side: Side)
    | ShapeMismatch(trueRows: nat, extractedRows: nat)
    | NothingToCompare

  /** The rows of one sheet that name the report (lines 133-140), identifier cells stripped. */
  function SelectRows(t: Table, idCol: string, id: string): (rows: seq<Row>)
    requires WellFormed(t) && idCol in t.columns
    ensures forall i :: 0 <= i < |rows| ==>
              |rows[i]| == |t.columns| && rows[i][ColumnIndex(t.columns, idCol)] == Str(id)
    ensures rows == [] <==> !NamedIn(t, ColumnIndex(t.columns, idCol), id)
  {
    SelectRowsAt(t, ColumnIndex(t.columns, idCol), id)
  }

  /** The rows whose stripped cell in column `k` reads `id`, with that cell stripped. */
  function SelectRowsAt(t: Table, k: nat, id: string): (rows: seq<Row>)
    requires WellFormed(t) && k < |t.columns|
    ensures forall i :: 0 <= i < |rows| ==> |rows[i]| == |t.columns| && rows[i][k] == Str(id)
    ensures rows == [] <==> !NamedIn(t, k, id)
  {
    var stripped := MapColumn(t.rows, k, Strip);
    SelectedRowsWidth(stripped, |t.columns|, k, id);
    SelectedRowsEmpty(t.rows, stripped, k, id);
    RowsWithId(stripped, k, id)
  }

  lemma SelectedRowsEmpty(rows: seq<Row>, stripped: seq<Row>, k: nat, id: string)
    requires forall i :: 0 <= i < |rows| ==> k < |rows[i]|
    requires stripped == MapColumn(rows, k, Strip)
    ensures RowsWithId(stripped, k, id) == [] <==> forall i :: 0 <= i < |rows| ==> Trim(AsText(rows[i][k])) != id
  {
    RowsWithIdEmpty(stripped, k, id);
    forall i | 0 <= i < |rows|
      ensures stripped[i][k] == Str(id) <==> Trim(AsText(rows[i][k])) == id
    {
      assert stripped[i][k] == CleanId(Strip, rows[i][k]);
    }
  }

  lemma SelectedRowsWidth(rows: seq<Row>, n: nat, k: nat, id: string)
    requires k < n && forall i :: 0 <= i < |rows| ==> |rows[i]| == n
    ensures var r := RowsWithId(rows, k, id);
            forall i :: 0 <= i < |r| ==> |r[i]| == n
  {
    var r := RowsWithId(rows, k, id);
    forall i | 0 <= i < |r|
      ensures |r[i]| == n
    {
      assert r[i] in multiset(r);
      assert r[i] in multiset(rows);
      var j :| 0 <= j < |rows| && rows[j] == r[i];
    }
  }

  /** Distinct names, as a strictly sorted list has. */
  predicate Distinct(names: seq<string>)
  {
    forall i, j :: 0 <= i < j < |names| ==> names[i] != names[j]
  }

  lemma SortedIsDistinct(names: seq<string>)
    requires StrictlySorted(names)
    ensures Distinct(names)
  {
    forall i, j | 0 <= i < j < |names|
      ensures names[i] != names[j]
    {
      LessIrreflexive(names[i]);
    }
  }

  /**
   * One sheet restricted to the common columns (line 166), and then its own
   * identifier column, if it is one of them, with every blank removed (lines 171-174).
   */
  function Align(rows: seq<Row>, columns: seq<string>, common: seq<string>, idCol: string): (r: seq<Row>)
    requires forall i :: 0 <= i < |rows| ==> |rows[i]| == |columns|
    requires forall c :: c in common ==> c in columns
    requires Distinct(common)
    ensures |r| == |rows|
    ensures forall i :: 0 <= i < |r| ==> |r[i]| == |common|
    ensures forall i, j :: 0 <= i < |r| && 0 <= j < |common| && common[j] != idCol ==>
              r[i][j] == rows[i][ColumnIndex(columns, common[j])]
    ensures forall i, j :: 0 <= i < |r| && 0 <= j < |common| && common[j] == idCol ==>
              r[i][j] == CleanId(Unspace, rows[i][ColumnIndex(columns, idCol)])
  {
    var p := Project(rows, columns, common);
    if idCol in common then
      var k := ColumnIndex(common, idCol);
      MapColumn(p, k, Unspace)
    else p
  }

  /** Some row's stripped cell in column `k` reads `id`. */
  predicate NamedIn(t: Table, k: nat, id: string)
    requires WellFormed(t) && k < |t.columns|
  {
    exists i :: 0 <= i < |t.rows| && Trim(AsText(t.rows[i][k])) == id
  }

  /**
   * The sheet has an identifier column and a row whose stripped identifier
   * cell reads `id`, which is what the filter of lines 133-140 looks for.
   */
  predicate NamesReport(t: Table, id: string)
    requires WellFormed(t)
  {
    var c := FirstPresent(Config.ReportIdColumnNames, t.columns);
    c.Some? && NamedIn(t, ColumnIndex(t.columns, c.value), id)
  }

  /** A sheet's identifier column: the first of the known names it has (lines 127-128). */
  function IdColumn(t: Table): (c: string)
    requires FirstPresent(Config.ReportIdColumnNames, t.columns).Some?
    ensures c in Config.ReportIdColumnNames && c in t.columns
  {
    FirstPresent(Config.ReportIdColumnNames, t.columns).value
  }

  /** The rows of a sheet that name `id` in its identifier column (lines 133-140). */
  function ReportRows(t: Table, id: string): (rows: seq<Row>)
    requires WellFormed(t) && FirstPresent(Config.ReportIdColumnNames, t.columns).Some?
    ensures forall i :: 0 <= i < |rows| ==> |rows[i]| == |t.columns|
    ensures rows == [] <==> !NamesReport(t, id)
  {
    SelectRows(t, IdColumn(t), id)
  }

  /** The sorted names both sheets share once corrected (lines 149-153). */
  function ComparedColumns(truth: Table, extracted: Table): (common: seq<string>)
    ensures StrictlySorted(common)
    ensures forall c :: c in common <==> c in StandardizeColumns(truth.columns) && c in StandardizeColumns(extracted.columns)
  {
    CommonColumns(StandardizeColumns(truth.columns), StandardizeColumns(extracted.columns))
  }

  /** A sheet's report rows cut down to the compared columns, its identifier without blanks (lines 165-174). */
  function AlignedRows(t: Table, id: string, common: seq<string>): (rows: seq<Row>)
    requires WellFormed(t) && FirstPresent(Config.ReportIdColumnNames, t.columns).Some?
    requires StrictlySorted(common) && forall c :: c in common ==> c in StandardizeColumns(t.columns)
    ensures |rows| == |ReportRows(t, id)|
    ensures forall i :: 0 <= i < |rows| ==> |rows[i]| == |common|
  {
    SortedIsDistinct(common);
    Align(ReportRows(t, id), StandardizeColumns(t.columns), common, IdColumn(t))
  }

  /**
   * `main` (lines 93-206) without the file reading and writing: the score of
   * `reportId`, or the reason it cannot be computed.  True rows are selected by
   * the plain identifier, extracted rows by its spaced form; once both sheets
   * have rows for the report, `Compare` decides.
   */
  function Evaluate(truth: Table, extracted: Table, reportId: string, num: Numeric): (r: Result<Score, ScoreError>)
    requires WellFormed(truth) && WellFormed(extracted)
    ensures r == Err(NoIdColumn(GroundTruth)) <==> FirstPresent(Config.ReportIdColumnNames, truth.columns).None?
    ensures r == Err(NoIdColumn(ExtractedSheet)) <==>
              FirstPresent(Config.ReportIdColumnNames, truth.columns).Some?
              && FirstPresent(Config.ReportIdColumnNames, extracted.columns).None?
    ensures r == Err(NoMatchingRow(GroundTruth)) <==>
              FirstPresent(Config.ReportIdColumnNames, truth.columns).Some?
              && FirstPresent(Config.ReportIdColumnNames, extracted.columns).Some?
              && !NamesReport(truth, reportId)
    ensures r == Err(NoMatchingRow(ExtractedSheet)) <==>
              NamesReport(truth, reportId)
              && FirstPresent(Config.ReportIdColumnNames, extracted.columns).Some?
              && !NamesReport(extracted, FormatReportId(reportId))
    ensures NamesReport(truth, reportId) && NamesReport(extracted, FormatReportId(reportId)) ==>
              r == Compare(truth, extracted, reportId, num)
    ensures r.Ok? ==> NamesReport(truth, reportId) && NamesReport(extracted, FormatReportId(reportId))
  {
    match FirstPresent(Config.ReportIdColumnNames, truth.columns)
    case None => Err(NoIdColumn(GroundTruth))
    case Some(_) =>
      match FirstPresent(Config.ReportIdColumnNames, extracted.columns)
      case None => Err(NoIdColumn(ExtractedSheet))
      case Some(_) =>
        if !NamesReport(truth, reportId) then Err(NoMatchingRow(GroundTruth))
        else if !NamesReport(extracted, FormatReportId(reportId)) then Err(NoMatchingRow(ExtractedSheet))
        else Compare(truth, extracted, reportId, num)
  }

  /**
   * The comparison part of `main` (lines 148-206), for sheets that both have
   * rows for the report: the row counts must agree (line 181) and some column
   * must be shared (line 183); then every aligned pair of cells is compared
   * and counted.
   */
  function Compare(truth: Table, extracted: Table, reportId: string, num: Numeric): (r: Result<Score, ScoreError>)
    requires WellFormed(truth) && WellFormed(extracted)
    requires NamesReport(truth, reportId) && NamesReport(extracted, FormatReportId(reportId))
    ensures (r.Err? && r.error.ShapeMismatch?) <==>
              |ReportRows(truth, reportId)| != |ReportRows(extracted, FormatReportId(reportId))|
    ensures r == Err(NothingToCompare) <==>
              |ReportRows(truth, reportId)| == |ReportRows(extracted, FormatReportId(reportId))|
              && ComparedColumns(truth, extracted) == []
    ensures r.Err? ==> r.error.ShapeMismatch? || r.error.NothingToCompare?
    ensures r.Ok? ==> r.value.formattedId == FormatReportId(reportId)
    ensures r.Ok? ==> StrictlySorted(r.value.columns) && |r.value.columns| > 0
    ensures r.Ok? ==> forall c :: c in r.value.columns <==>
              c in StandardizeColumns(truth.columns) && c in StandardizeColumns(extracted.columns)
    ensures r.Ok? ==> r.value.total > 0 && r.value.correct + r.value.incorrect == r.value.total
    ensures r.Ok? ==> r.value.accuracy == Accuracy(r.value.correct, r.value.total)
    ensures r.Ok? ==>
              var common := ComparedColumns(truth, extracted);
              var ts := AlignedRows(truth, reportId, common);
              var es := AlignedRows(extracted, FormatReportId(reportId), common);
              SameShape(ts, es, |common|)
              && r.value == Tally(FormatReportId(reportId), common, ts, es, CorrectMask(ts, es, |common|, num))
  {
    var formatted := FormatReportId(reportId);
    var common := ComparedColumns(truth, extracted);
    var ts := AlignedRows(truth, reportId, common);
    var es := AlignedRows(extracted, formatted, common);
    if |ts| != |es| then Err(ShapeMismatch(|ts|, |es|))
    else if common == [] then Err(NothingToCompare)
    else
      Ok(Tally(formatted, common, ts, es, CorrectMask(ts, es, |common|, num)))
  }

  /**
   * The extracted sheet is searched for the spaced identifier only: a sheet
   * whose identifier cells carry the plain "RRI002" form is reported as having
   * no row for the report, even when the ground truth has one.
   */
  lemma UnspacedExtractedIdNotFound(truth: Table, extracted: Table, reportId: string, num: Numeric)
    requires WellFormed(truth) && WellFormed(extracted)
    requires NamesReport(truth, reportId)
    requires FirstPresent(Config.ReportIdColumnNames, extracted.columns).Some?
    requires var c := FirstPresent(Config.ReportIdColumnNames, extracted.columns).value;
             forall i :: 0 <= i < |extracted.rows| ==> extracted.rows[i][ColumnIndex(extracted.columns, c)] == Str(reportId)
    ensures Evaluate(truth, extracted, reportId, num) == Err(NoMatchingRow(ExtractedSheet))
  {
    UnspacedNotNamed(extracted, reportId);
  }

  /** A sheet whose identifier cells all hold the plain identifier never names its spaced form. */
  lemma UnspacedNotNamed(extracted: Table, reportId: string)
    requires WellFormed(extracted)
    requires FirstPresent(Config.ReportIdColumnNames, extracted.columns).Some?
    requires var c := FirstPresent(Config.ReportIdColumnNames, extracted.columns).value;
             forall i :: 0 <= i < |extracted.rows| ==> extracted.rows[i][ColumnIndex(extracted.columns, c)] == Str(reportId)
    ensures !NamesReport(extracted, FormatReportId(reportId))
  {
    var c := FirstPresent(Config.ReportIdColumnNames, extracted.columns).value;
    var formatted := FormatReportId(reportId);
    TrimShorter(reportId);
    forall i | 0 <= i < |extracted.rows|
      ensures Trim(AsText(extracted.rows[i][ColumnIndex(extracted.columns, c)])) != formatted
    {
      assert AsText(extracted.rows[i][ColumnIndex(extracted.columns, c)]) == reportId;
    }
  }

  /**
   * A sheet compared with itself scores 1.0 with no differences, given a
   * numeric tolerance under which every number is close to itself.
   */
  lemma SelfComparisonPerfect(formattedId: string, columns: seq<string>, ts: seq<Row>, num: Numeric)
    requires SameShape(ts, ts, |columns|) && |ts| > 0 && |columns| > 0
    requires forall x :: num.close(x, x)
    ensures var s := Tally(formattedId, columns, ts, ts, CorrectMask(ts, ts, |columns|, num));
            s.accuracy == 1.0 && s.differences == []
  {
    var mask := CorrectMask(ts, ts, |columns|, num);
    forall i, j | 0 <= i < |ts| && 0 <= j < |columns|
      ensures mask[i][j]
    {
      CellsEqualReflexive(Preprocess(ts[i][j]), num);
    }
  }
}

=== FILE: sorting.dfy ===
/**
 * Python's `sorted` (and the row sorts of pandas) as a stable insertion sort
 * under a caller-supplied "comes no later than" relation.
 */
module Sorting {

  /** `le` relates every pair one way or the other and is transitive. */
  ghost predicate TotalPreorder<T(!new)>(le: (T, T) -> bool)
  {
    (forall a, b :: le(a, b) || le(b, a))
    && (forall a, b, c :: le(a, b) && le(b, c) ==> le(a, c))
  }

  /** Only equal elements are related both ways, so ties are impossible. */
  ghost predicate Antisymmetric<T(!new)>(le: (T, T) -> bool)
  {
    forall a, b :: le(a, b) && le(b, a) ==> a == b
  }

  predicate SortedBy<T>(s: seq<T>, le: (T, T) -> bool)
  {
    forall i, j :: 0 <= i < j < |s| ==> le(s[i], s[j])
  }

  /** `x` placed before the first element it does not come after. */
  function Insert<T(!new)>(x: T, s: seq<T>, le: (T, T) -> bool): (r: seq<T>)
    requires TotalPreorder(le) && SortedBy(s, le)
    ensures SortedBy(r, le)
    ensures multiset(r) == multiset(s) + multiset{x}
  {
    if s == [] then [x]
    else if le(x, s[0]) then
      InsertFront(x, s, le);
      [x] + s
    else
      var rest := Insert(x, s[1..], le);
      InsertAfterHead(x, s, rest, le);
      [s[0]] + rest
  }

  /** An element no later than the head of a sorted list can go in front of it. */
  lemma InsertFront<T(!new)>(x: T, s: seq<T>, le: (T, T) -> bool)
    requires TotalPreorder(le) && SortedBy(s, le)
    requires s != [] && le(x, s[0])
    ensures SortedBy([x] + s, le)
  {
    forall j | 0 <= j < |s| ensures le(x, s[j]) {
      if j > 0 {
        assert le(s[0], s[j]);
      }
    }
  }

  /** The head of a sorted list stays in front of the rest with `x` inserted. */
  lemma InsertAfterHead<T(!new)>(x: T, s: seq<T>, rest: seq<T>, le: (T, T) -> bool)
    requires TotalPreorder(le) && SortedBy(s, le)
    requires s != [] && !le(x, s[0])
    requires SortedBy(rest, le) && multiset(rest) == multiset(s[1..]) + multiset{x}
    ensures SortedBy([s[0]] + rest, le)
    ensures multiset([s[0]] + rest) == multiset(s) + multiset{x}
  {
    forall k | 0 <= k < |rest| ensures le(s[0], rest[k]) {
      assert rest[k] in multiset(rest);
      if rest[k] != x {
        assert rest[k] in multiset(s[1..]);
        var j :| 0 <= j < |s[1..]| && s[1..][j] == rest[k];
        assert le(s[0], s[j + 1]);
      }
    }
    assert s == [s[0]] + s[1..];
  }

  /** `sorted(s)` for the order `le`; equivalent elements keep their input order. */
  function SortBy<T(!new)>(s: seq<T>, le: (T, T) -> bool): (r: seq<T>)
    requires TotalPreorder(le)
    ensures SortedBy(r, le)
    ensures multiset(r) == multiset(s)
    ensures |r| == |s|
  {
    if s == [] then []
    else
      assert s == [s[0]] + s[1..];
      Insert(s[0], SortBy(s[1..], le), le)
  }

  /** Two sorted arrangements of one multiset under an order without ties start alike. */
  lemma SameHead<T(!new)>(a: seq<T>, b: seq<T>, le: (T, T) -> bool)
    requires Antisymmetric(le)
    requires SortedBy(a, le) && SortedBy(b, le)
    requires multiset(a) == multiset(b) && a != []
    ensures b != [] && a[0] == b[0]
  {
    assert a[0] in multiset(b);
    var j :| 0 <= j < |b| && b[j] == a[0];
    assert b[0] in multiset(a);
    var i :| 0 <= i < |a| && a[i] == b[0];
    if i > 0 && j > 0 {
      assert le(b[0], b[j]) && le(a[0], a[i]);
    }
  }

  /**
   * Under an order without ties there is only one sorted arrangement of a
   * multiset, so any sort that returns a sorted permutation agrees with `SortBy`.
   */
  lemma {:induction false} SortedUnique<T(!new)>(a: seq<T>, b: seq<T>, le: (T, T) -> bool)
    requires Antisymmetric(le)
    requires SortedBy(a, le) && SortedBy(b, le)
    requires multiset(a) == multiset(b)
    ensures a == b
    decreases |a|
  {
    if a == [] {
      assert |b| == |multiset(b)| == 0;
    } else {
      SameHead(a, b, le);
      HeadAndTail(a);
      HeadAndTail(b);
      SortedUnique(a[1..], b[1..], le);
    }
  }

  /** A non-empty sequence is its head followed by its tail, in contents and in count. */
  lemma HeadAndTail<T>(s: seq<T>)
    requires s != []
    ensures s == [s[0]] + s[1..]
    ensures multiset(s[1..]) == multiset(s) - multiset{s[0]}
  {
    assert s == [s[0]] + s[1..];
  }
}

=== FILE: tables.dfy ===
/** Spreadsheets as pandas reads them: named columns over rows of cells. */
module Tables {
  import opened Wrappers
  import opened Cells

  /** A data frame: column names in order and rows of cells, one cell per column. */
  datatype Table = Table(columns: seq<string>, rows: seq<seq<Cell>>)

  predicate WellFormed(t: Table)
  {
    forall i :: 0 <= i < |t.rows| ==> |t.rows[i]| == |t.columns|
  }

  /** Position of the first column called `name`, the one `df[name]` and `list.index` find; `|columns|` when there is none. */
  function ColumnIndex(columns: seq<string>, name: string): (k: nat)
    ensures k <= |columns|
    ensures k < |columns| ==> columns[k] == name
    ensures forall i :: 0 <= i < k ==> columns[i] != name
    ensures k == |columns| <==> name !in columns
  {
    if columns == [] then 0
    else if columns[0] == name then 0
    else 1 + ColumnIndex(columns[1..], name)
  }

  /** The cells of column `name` top to bottom (`df[name]`). */
  function ColumnValues(t: Table, name: string): (vs: seq<Cell>)
    requires WellFormed(t) && name in t.columns
    ensures |vs| == |t.rows|
    ensures forall i :: 0 <= i < |t.rows| ==> vs[i] == t.rows[i][ColumnIndex(t.columns, name)]
  {
    var k := ColumnIndex(t.columns, name);
    seq(|t.rows|, i requires 0 <= i < |t.rows| => t.rows[i][k])
  }

  /** `next((c for c in candidates if c in columns), None)`: the first candidate the table has. */
  function FirstPresent(candidates: seq<string>, columns: seq<string>): (r: Option<string>)
    ensures r.Some? ==> r.value in candidates && r.value in columns
    ensures r.None? <==> forall i :: 0 <= i < |candidates| ==> candidates[i] !in columns
    ensures r.Some? ==> exists i :: 0 <= i < |candidates| && candidates[i] == r.value
                          && forall j :: 0 <= j < i ==> candidates[j] !in columns
  {
    if candidates == [] then None
    else if candidates[0] in columns then Some(candidates[0])
    else
      var r := FirstPresent(candidates[1..], columns);
      if r.Some? then
        var i :| 0 <= i < |candidates[1..]| && candidates[1..][i] == r.value
                 && forall j :: 0 <= j < i ==> candidates[1..][j] !in columns;
        assert candidates[i + 1] == r.value;
        r
      else r
  }
}

=== FILE: template.dfy ===
/**
 * `extract_and_clean` of `src/data_extraction.py` (lines 48-69): the
 * ground-truth sheet loses its unnamed columns and its empty columns, and the
 * JSON template maps every remaining column to the empty string.  That
 * template is the schema the reconciler of `src/data_validation.py` repairs
 * records against.
 */
module Template {
  import opened Wrappers
  import opened Text
  import opened Cells
  import opened Tables
  import Json
  import Validation

  /** Whether some row of `rows` has a value in column `j`: what `dropna(how='all')` keeps. */
  function HasValue(rows: seq<seq<Cell>>, j: nat): (b: bool)
    requires forall i :: 0 <= i < |rows| ==> j < |rows[i]|
    ensures b <==> exists i :: 0 <= i < |rows| && rows[i][j] != NA
  {
    if rows == [] then false
    else if rows[0][j] != NA then true
    else
      assert forall i :: 1 <= i < |rows| ==> rows[i] == rows[1..][i - 1];
      HasValue(rows[1..], j)
  }

  /** Column `j` survives cleaning: its name does not start with "Unnamed:" and some cell of it is present. */
  predicate Kept(t: Table, j: nat)
    requires WellFormed(t) && j < |t.columns|
  {
    !StartsWith(t.columns[j], "Unnamed:") && HasValue(t.rows, j)
  }

  predicate Increasing(s: seq<nat>)
  {
    forall a, b :: 0 <= a < b < |s| ==> s[a] < s[b]
  }

  /** The positions, from `j` on, of the columns that survive, in order. */
  function KeptFrom(t: Table, j: nat): (idx: seq<nat>)
    requires WellFormed(t)
    ensures Increasing(idx)
    ensures forall a :: 0 <= a < |idx| ==> j <= idx[a] < |t.columns| && Kept(t, idx[a])
    ensures forall k :: j <= k < |t.columns| && Kept(t, k) ==> k in idx
    decreases |t.columns| - j
  {
    if j >= |t.columns| then []
    else if Kept(t, j) then [j] + KeptFrom(t, j + 1)
    else KeptFrom(t, j + 1)
  }

  function KeptColumns(t: Table): (idx: seq<nat>)
    requires WellFormed(t)
    ensures Increasing(idx)
    ensures forall a :: 0 <= a < |idx| ==> idx[a] < |t.columns| && Kept(t, idx[a])
    ensures forall k :: 0 <= k < |t.columns| ==> (Kept(t, k) <==> k in idx)
  {
    KeptFrom(t, 0)
  }

  /** `t` restricted to the columns at positions `idx`, in that order. */
  function Project(t: Table, idx: seq<nat>): (r: Table)
    requires WellFormed(t)
    requires forall a :: 0 <= a < |idx| ==> idx[a] < |t.columns|
    ensures WellFormed(r) && |r.columns| == |idx| && |r.rows| == |t.rows|
    ensures forall a :: 0 <= a < |idx| ==> r.columns[a] == t.columns[idx[a]]
    ensures forall i, a :: 0 <= i < |t.rows| && 0 <= a < |idx| ==> r.rows[i][a] == t.rows[i][idx[a]]
  {
    Table(seq(|idx|, a requires 0 <= a < |idx| => t.columns[idx[a]]),
          seq(|t.rows|, i requires 0 <= i < |t.rows| =>
            seq(|idx|, a requires 0 <= a < |idx| => t.rows[i][idx[a]])))
  }

  /**
   * The cleaning of lines 48-50: the surviving columns keep their order, and
   * every row keeps exactly its cells in those columns.
   */
  function Clean(t: Table): (r: Table)
    requires WellFormed(t)
    ensures WellFormed(r) && |r.rows| == |t.rows|
    ensures |r.columns| == |KeptColumns(t)|
    ensures forall a :: 0 <= a < |r.columns| ==> r.columns[a] == t.columns[KeptColumns(t)[a]]
    ensures forall i, a :: 0 <= i < |t.rows| && 0 <= a < |r.columns| ==> r.rows[i][a] == t.rows[i][KeptColumns(t)[a]]
    ensures forall c :: c in r.columns <==> exists k :: 0 <= k < |t.columns| && Kept(t, k) && t.columns[k] == c
    ensures forall c :: c in r.columns ==> !StartsWith(c, "Unnamed:")
  {
    var idx := KeptColumns(t);
    var r := Project(t, idx);
    forall c ensures c in r.columns <==> exists k :: 0 <= k < |t.columns| && Kept(t, k) && t.columns[k] == c {
      if c in r.columns {
        var a :| 0 <= a < |idx| && r.columns[a] == c;
      }
      if exists k :: 0 <= k < |t.columns| && Kept(t, k) && t.columns[k] == c {
        var k :| 0 <= k < |t.columns| && Kept(t, k) && t.columns[k] == c;
        var a :| 0 <= a < |idx| && idx[a] == k;
        assert r.columns[a] == c;
      }
    }
    r
  }

  /** Every column of the cleaned sheet has a present cell. */
  lemma CleanColumnsHaveValues(t: Table, a: nat)
    requires WellFormed(t) && a < |Clean(t).columns|
    ensures exists i :: 0 <= i < |t.rows| && Clean(t).rows[i][a] != NA
  {
    var idx := KeptColumns(t);
    assert HasValue(t.rows, idx[a]);
    var i :| 0 <= i < |t.rows| && t.rows[i][idx[a]] != NA;
    assert Clean(t).rows[i][a] == t.rows[i][idx[a]];
  }

  /** Cleaning a cleaned sheet changes nothing. */
  lemma CleanIdempotent(t: Table)
    requires WellFormed(t)
    ensures Clean(Clean(t)) == Clean(t)
  {
    var c := Clean(t);
    forall a | 0 <= a < |c.columns| ensures Kept(c, a) {
      CleanColumnsHaveValues(t, a);
      assert c.columns[a] in c.columns;
    }
    var idx := KeptColumns(c);
    AllPositions(idx, |c.columns|);
    var r := Project(c, idx);
    assert r.columns == c.columns;
    forall i | 0 <= i < |c.rows| ensures r.rows[i] == c.rows[i] {
    }
  }

  /** An increasing sequence of positions below `n` that holds all of them is `0, 1, ..., n-1`. */
  lemma AllPositions(idx: seq<nat>, n: nat)
    requires Increasing(idx)
    requires forall a :: 0 <= a < |idx| ==> idx[a] < n
    requires forall k :: 0 <= k < n ==> k in idx
    ensures |idx| == n && forall a :: 0 <= a < n ==> idx[a] == a
  {
    forall a | 0 <= a < n ensures a < |idx| && idx[a] == a {
      PositionIsIndex(idx, n, a);
    }
    if n > 0 {
      PositionIsIndex(idx, n, n - 1);
    }
    if idx != [] {
      LowerBound(idx, |idx| - 1);
    }
  }

  /** The element at position `a` of an increasing sequence of naturals is at least `a`. */
  lemma {:induction false} LowerBound(idx: seq<nat>, a: nat)
    requires Increasing(idx) && a < |idx|
    ensures idx[a] >= a
    decreases a
  {
    if a > 0 {
      LowerBound(idx, a - 1);
    }
  }

  lemma {:induction false} PositionIsIndex(idx: seq<nat>, n: nat, a: nat)
    requires Increasing(idx)
    requires forall b :: 0 <= b < |idx| ==> idx[b] < n
    requires forall k :: 0 <= k < n ==> k in idx
    requires a < n
    ensures a < |idx| && idx[a] == a
    decreases a
  {
    assert a in idx;
    var j :| 0 <= j < |idx| && idx[j] == a;
    if a > 0 {
      PositionIsIndex(idx, n, a - 1);
    }
  }

  /** `{col: "" for col in columns}` (line 69): every surviving column, mapped to the empty string. */
  function MakeTemplate(t: Table): (r: Validation.Record)
    requires WellFormed(t)
    ensures forall c :: c in r <==> exists k :: 0 <= k < |t.columns| && Kept(t, k) && t.columns[k] == c
    ensures forall c :: c in r ==> r[c] == Json.Str("") && !StartsWith(c, "Unnamed:")
  {
    var columns := Clean(t).columns;
    map c | c in columns :: Json.Str("")
  }

  /**
   * `extract_and_clean` reduced to its result: `None` when the sheet cannot
   * be read (the `False` return), otherwise the cleaned sheet and the template.
   */
  function ExtractAndClean(sheet: Option<Table>): (r: Option<(Table, Validation.Record)>)
    requires sheet.Some? ==> WellFormed(sheet.value)
    ensures r.Some? <==> sheet.Some?
    ensures r.Some? ==> r.value.1.Keys == set c | c in r.value.0.columns
  {
    if sheet.None? then None
    else
      var t := sheet.value;
      assert MakeTemplate(t).Keys == set c | c in Clean(t).columns;
      Some((Clean(t), MakeTemplate(t)))
  }

  /**
   * A record repaired against the template has exactly the surviving columns
   * as keys, and a column the record lacks and nothing is renamed onto is the
   * empty string.
   */
  lemma RepairAgainstTemplate(t: Table, extracted: Validation.Record, closest: Validation.Matcher, c: string)
    requires WellFormed(t) && Validation.WellBehaved(closest)
    requires c in MakeTemplate(t) && c !in extracted
    ensures var o := Validation.Reconcile(MakeTemplate(t), extracted, closest);
            o.repaired.Keys == MakeTemplate(t).Keys
            && (Validation.RenamedFrom(o.plan.renames, c) == {} ==> o.repaired[c] == Json.Str(""))
  {
    Validation.ReconcileValue(MakeTemplate(t), extracted, closest, c);
  }
}

=== FILE: text.dfy ===
/**
 * Python string primitives used by the pipeline: `str.strip`, `str.lower`,
 * `str.startswith`/`endswith`, `in` on strings, `str.split`, `str.replace`
 * and the regular-expression class `\s`.
 */
module Text {

  /** Python's `str.isspace`, which is also what the `re` class `\s` matches on `str` patterns. */
  predicate IsSpace(c: char)
  {
    c == ' ' || ('\t' <= c <= '\r') || ('\U{1C}' <= c <= '\U{1F}')
    || c == '\U{85}' || c == '\U{A0}' || c == '\U{1680}'
    || ('\U{2000}' <= c <= '\U{200A}') || c == '\U{2028}' || c == '\U{2029}'
    || c == '\U{202F}' || c == '\U{205F}' || c == '\U{3000}'
  }

  /** The regular-expression class `\d`, restricted to ASCII digits. */
  predicate IsDigit(c: char)
  {
    '0' <= c <= '9'
  }

  predicate AllDigits(s: string)
  {
    forall i :: 0 <= i < |s| ==> IsDigit(s[i])
  }

  predicate NoSpace(s: string)
  {
    forall i :: 0 <= i < |s| ==> !IsSpace(s[i])
  }

  function LowerChar(c: char): char
  {
    if 'A' <= c <= 'Z' then (c as int + 32) as char else c
  }

  /** `str.lower()` on the ASCII letters. */
  function Lower(s: string): (r: string)
    ensures |r| == |s|
    ensures forall i :: 0 <= i < |s| ==> r[i] == LowerChar(s[i])
  {
    if s == [] then [] else [LowerChar(s[0])] + Lower(s[1..])
  }

  /** Equality under regular-expression `IGNORECASE`, restricted to ASCII letters. */
  predicate EqualsIgnoreCase(a: string, b: string)
  {
    |a| == |b| && forall i :: 0 <= i < |a| ==> LowerChar(a[i]) == LowerChar(b[i])
  }

  /** A case-insensitive match of a literal without blanks has no blanks either. */
  lemma EqualsIgnoreCaseNoSpace(a: string, lit: string)
    requires EqualsIgnoreCase(a, lit) && NoSpace(lit)
    ensures NoSpace(a)
  {
    forall i | 0 <= i < |a|
      ensures !IsSpace(a[i])
    {
      assert LowerChar(a[i]) == LowerChar(lit[i]);
    }
  }

  predicate StartsWith(s: string, prefix: string)
  {
    |prefix| <= |s| && s[..|prefix|] == prefix
  }

  predicate EndsWith(s: string, suffix: string)
  {
    |suffix| <= |s| && s[|s| - |suffix|..] == suffix
  }

  /** `sub` occurs in `s` starting at index `i`. */
  predicate OccursAt(s: string, sub: string, i: nat)
  {
    i + |sub| <= |s| && s[i..i + |sub|] == sub
  }

  /** Python's `sub in s` on strings. */
  predicate Contains(s: string, sub: string)
  {
    exists i: nat :: i <= |s| && OccursAt(s, sub, i)
  }

  function TrimLeft(s: string): (r: string)
    ensures |r| <= |s| && r == s[|s| - |r|..]
    ensures r == [] || !IsSpace(r[0])
    ensures forall i :: 0 <= i < |s| - |r| ==> IsSpace(s[i])
  {
    if |s| > 0 && IsSpace(s[0]) then TrimLeft(s[1..]) else s
  }

  function TrimRight(s: string): (r: string)
    ensures |r| <= |s| && r == s[..|r|]
    ensures r == [] || !IsSpace(r[|r| - 1])
    ensures forall i :: |r| <= i < |s| ==> IsSpace(s[i])
  {
    if |s| > 0 && IsSpace(s[|s| - 1]) then TrimRight(s[..|s| - 1]) else s
  }

  /** Neither end of `s` is whitespace. */
  predicate IsTrimmed(s: string)
  {
    s == [] || (!IsSpace(s[0]) && !IsSpace(s[|s| - 1]))
  }

  /** `r` is the infix of `s` at `k`, and everything of `s` outside it is whitespace. */
  predicate PaddedAt(s: string, r: string, k: nat)
  {
    k + |r| <= |s| && r == s[k..k + |r|]
    && (forall i :: 0 <= i < k ==> IsSpace(s[i]))
    && (forall i :: k + |r| <= i < |s| ==> IsSpace(s[i]))
  }

  /** Python's `str.strip()`: the infix of `s` left after removing whitespace at both ends. */
  function Trim(s: string): (r: string)
    ensures IsTrimmed(r)
    ensures exists k: nat :: PaddedAt(s, r, k)
  {
    var l := TrimLeft(s);
    var r := TrimRight(l);
    PaddedInside(s, l, r);
    r
  }

  /** Whitespace cut from the left and then from the right leaves an infix padded by whitespace. */
  lemma PaddedInside(s: string, l: string, r: string)
    requires |l| <= |s| && l == s[|s| - |l|..] && forall i :: 0 <= i < |s| - |l| ==> IsSpace(s[i])
    requires |r| <= |l| && r == l[..|r|] && forall i :: |r| <= i < |l| ==> IsSpace(l[i])
    ensures PaddedAt(s, r, |s| - |l|)
  {
    assert r == s[|s| - |l|..][..|r|];
    forall i | |s| - |l| + |r| <= i < |s| ensures IsSpace(s[i]) {
      assert s[i] == l[i - (|s| - |l|)];
    }
  }

  /** Stripping removes exactly the whitespace padding: a trimmed core survives any padding. */
  lemma {:induction false} TrimPadded(pre: string, core: string, post: string)
    requires forall i :: 0 <= i < |pre| ==> IsSpace(pre[i])
    requires forall i :: 0 <= i < |post| ==> IsSpace(post[i])
    requires IsTrimmed(core)
    ensures Trim(pre + core + post) == core
  {
    if core == [] {
      assert pre + core + post == (pre + post) + [];
      TrimLeftPadded(pre + post, []);
    } else {
      assert pre + core + post == pre + (core + post);
      TrimLeftPadded(pre, core + post);
      TrimRightPadded(post, core);
    }
  }

  lemma {:induction false} TrimLeftPadded(pre: string, rest: string)
    requires forall i :: 0 <= i < |pre| ==> IsSpace(pre[i])
    requires rest == [] || !IsSpace(rest[0])
    ensures TrimLeft(pre + rest) == rest
    decreases |pre|
  {
    if pre != [] {
      assert (pre + rest)[1..] == pre[1..] + rest;
      TrimLeftPadded(pre[1..], rest);
    }
  }

  lemma {:induction false} TrimRightPadded(post: string, core: string)
    requires forall i :: 0 <= i < |post| ==> IsSpace(post[i])
    requires core == [] || !IsSpace(core[|core| - 1])
    ensures TrimRight(core + post) == core
    decreases |post|
  {
    if post != [] {
      var p := post[..|post| - 1];
      assert (core + post)[..|core + post| - 1] == core + p;
      TrimRightPadded(p, core);
    }
  }

  /** A string with no whitespace at either end is its own strip. */
  lemma TrimOfTrimmed(s: string)
    requires IsTrimmed(s)
    ensures Trim(s) == s
  {
    TrimPadded([], s, []);
    assert [] + s + [] == s;
  }

  /** A string that starts with a non-blank character keeps it first when stripped. */
  lemma TrimHead(s: string)
    requires s != [] && !IsSpace(s[0])
    ensures Trim(s) != [] && Trim(s)[0] == s[0]
  {
    var k: nat :| PaddedAt(s, Trim(s), k);
    assert PaddedAt(s, Trim(s), k);
  }

  /** Stripping never lengthens a string. */
  lemma TrimShorter(s: string)
    ensures |Trim(s)| <= |s|
  {
  }

  /** Stripping is idempotent. */
  lemma TrimIdempotent(s: string)
    ensures Trim(Trim(s)) == Trim(s)
  {
    TrimPadded([], Trim(s), []);
    assert [] + Trim(s) + [] == Trim(s);
  }

  /** Index of the first `c` in `s`, or `|s|` when there is none. */
  function IndexOf(s: string, c: char): (k: nat)
    ensures k <= |s|
    ensures k < |s| ==> s[k] == c
    ensures forall i :: 0 <= i < k ==> s[i] != c
  {
    if s == [] then 0
    else if s[0] == c then 0
    else 1 + IndexOf(s[1..], c)
  }

  /** Joins parts with one separator between neighbours (Python's `sep.join(parts)`). */
  function Join(parts: seq<string>, sep: string): string
  {
    if parts == [] then []
    else if |parts| == 1 then parts[0]
    else parts[0] + sep + Join(parts[1..], sep)
  }

  /** Python's `s.split(c)` for a one-character separator. */
  function Split(s: string, c: char): (parts: seq<string>)
    ensures |parts| >= 1
    ensures |parts| >= 2 <==> c in s
    ensures forall i :: 0 <= i < |parts| ==> c !in parts[i]
    ensures Join(parts, [c]) == s
    decreases |s|
  {
    var k := IndexOf(s, c);
    if k == |s| then
      assert c !in s by {
        forall i | 0 <= i < |s| ensures s[i] != c { }
      }
      [s]
    else
      var rest := Split(s[k + 1..], c);
      assert s == s[..k] + [c] + s[k + 1..];
      [s[..k]] + rest
  }

  /** The first piece of a split runs up to the first separator. */
  lemma SplitHead(s: string, c: char)
    ensures Split(s, c)[0] == s[..IndexOf(s, c)]
  {
  }

  /** With a separator present, the split is the first piece followed by the split of what comes after it. */
  lemma SplitRest(s: string, c: char)
    requires c in s
    ensures IndexOf(s, c) < |s|
    ensures Split(s, c) == [s[..IndexOf(s, c)]] + Split(s[IndexOf(s, c) + 1..], c)
  {
  }

  /** The first `c` of `a + [c] + b` is the one after `a` when `a` has none. */
  lemma IndexOfAfter(a: string, c: char, b: string)
    requires c !in a
    ensures IndexOf(a + [c] + b, c) == |a|
  {
    assert (a + [c] + b)[|a|] == c;
  }

  /** Splitting undoes joining, for pieces that do not contain the separator. */
  lemma {:induction false} SplitOfJoin(parts: seq<string>, c: char)
    requires |parts| >= 1
    requires forall i :: 0 <= i < |parts| ==> c !in parts[i]
    ensures Split(Join(parts, [c]), c) == parts
    decreases |parts|
  {
    if |parts| == 1 {
      assert Join(parts, [c]) == parts[0];
      assert c !in parts[0];
    } else {
      var rest := Join(parts[1..], [c]);
      assert Join(parts, [c]) == parts[0] + [c] + rest;
      assert c !in parts[0];
      SplitAfter(parts[0], c, rest);
      SplitOfJoin(parts[1..], c);
      HeadTail(parts);
    }
  }

  /** A piece without `c`, then `c`, then more splits into that piece and the split of the rest. */
  lemma SplitAfter(a: string, c: char, b: string)
    requires c !in a
    ensures Split(a + [c] + b, c) == [a] + Split(b, c)
  {
    IndexOfAfter(a, c, b);
    PieceAround(a, c, b);
  }

  lemma PieceAround<T>(a: seq<T>, c: T, b: seq<T>)
    ensures (a + [c] + b)[..|a|] == a && (a + [c] + b)[|a| + 1..] == b
  {
  }

  lemma HeadTail<T>(xs: seq<T>)
    requires xs != []
    ensures xs == [xs[0]] + xs[1..]
  {
  }

  /** A string that opens with `c`, then a piece without `c`, then `c` again, splits into an empty piece, that piece and the rest. */
  lemma SplitBarred(a: string, b: string, c: char)
    requires c !in a
    ensures Split([c] + a + [c] + b, c) == [[], a] + Split(b, c)
  {
    var s := [c] + a + [c] + b;
    assert IndexOf(s, c) == 0;
    assert s[1..] == a + [c] + b;
    IndexOfAfter(a, c, b);
    assert (a + [c] + b)[..|a|] == a;
    assert (a + [c] + b)[|a| + 1..] == b;
  }

  /** Decimal digits of `n`, most significant first, as `str(n)` writes them. */
  function Decimal(n: nat): (s: string)
    ensures s != [] && AllDigits(s)
    ensures n > 0 ==> s[0] != '0'
  {
    if n < 10 then [('0' as int + n) as char]
    else
      var d := Decimal(n / 10);
      d + [('0' as int + n % 10) as char]
  }

  /** The number a string of decimal digits denotes, as `int(s)` reads it. */
  function DecimalValue(s: string): nat
    requires AllDigits(s)
  {
    if s == [] then 0
    else DecimalValue(s[..|s| - 1]) * 10 + (s[|s| - 1] as int - '0' as int)
  }

  /** Reading back a rendered count gives the count. */
  lemma {:induction false} DecimalRoundTrip(n: nat)
    ensures DecimalValue(Decimal(n)) == n
  {
    if n >= 10 {
      var d := Decimal(n / 10);
      var s := d + [('0' as int + n % 10) as char];
      assert s[..|s| - 1] == d;
      DecimalRoundTrip(n / 10);
    }
  }

  /** Stripping only removes characters, so a character absent before is absent after. */
  lemma TrimKeepsOut(s: string, c: char)
    requires c !in s
    ensures c !in Trim(s)
  {
    var t := Trim(s);
    var k: nat :| PaddedAt(s, t, k);
    InfixAvoids(s, k, k + |t|, c);
  }

  lemma InfixAvoids<T>(s: seq<T>, k: nat, m: nat, c: T)
    requires k <= m <= |s| && c !in s
    ensures c !in s[k..m]
  {
    forall j | 0 <= j < m - k ensures s[k..m][j] != c {
      assert s[k..m][j] == s[k + j];
    }
  }

  /** `[p.strip() for p in parts]` followed by dropping the empty results. */
  function NonEmptyTrimmed(parts: seq<string>): (r: seq<string>)
    ensures forall i :: 0 <= i < |r| ==> r[i] != [] && IsTrimmed(r[i])
    ensures |r| <= |parts|
  {
    if parts == [] then []
    else if Trim(parts[0]) == [] then NonEmptyTrimmed(parts[1..])
    else [Trim(parts[0])] + NonEmptyTrimmed(parts[1..])
  }

  /** The pieces kept are exactly the non-empty stripped parts. */
  lemma NonEmptyTrimmedMembers(parts: seq<string>)
    ensures forall w :: w in NonEmptyTrimmed(parts) <==>
              w != [] && exists j :: 0 <= j < |parts| && Trim(parts[j]) == w
  {
    forall w | w in NonEmptyTrimmed(parts)
      ensures w != [] && exists j :: 0 <= j < |parts| && Trim(parts[j]) == w
    {
      var j := NonEmptyTrimmedSource(parts, w);
    }
    forall j | 0 <= j < |parts| && Trim(parts[j]) != []
      ensures Trim(parts[j]) in NonEmptyTrimmed(parts)
    {
      NonEmptyTrimmedKeeps(parts, j);
    }
  }

  /** Every kept piece is the stripped form of some part. */
  lemma {:induction false} NonEmptyTrimmedSource(parts: seq<string>, w: string) returns (j: nat)
    requires w in NonEmptyTrimmed(parts)
    ensures j < |parts| && Trim(parts[j]) == w
  {
    if Trim(parts[0]) == w {
      j := 0;
    } else {
      var k := NonEmptyTrimmedSource(parts[1..], w);
      j := k + 1;
    }
  }

  /** Every part that does not strip to nothing is kept. */
  lemma {:induction false} NonEmptyTrimmedKeeps(parts: seq<string>, j: nat)
    requires j < |parts| && Trim(parts[j]) != []
    ensures Trim(parts[j]) in NonEmptyTrimmed(parts)
  {
    var rest := NonEmptyTrimmed(parts[1..]);
    if j > 0 {
      assert parts[1..][j - 1] == parts[j];
      NonEmptyTrimmedKeeps(parts[1..], j - 1);
      assert Trim(parts[j]) in rest;
      assert NonEmptyTrimmed(parts) == rest || NonEmptyTrimmed(parts) == [Trim(parts[0])] + rest;
    }
  }

  /** Length of the longest prefix of `s` free of whitespace. */
  function NonSpaceSpan(s: string): (k: nat)
    ensures k <= |s|
    ensures k < |s| ==> IsSpace(s[k])
    ensures forall i :: 0 <= i < k ==> !IsSpace(s[i])
  {
    if s == [] || IsSpace(s[0]) then 0 else 1 + NonSpaceSpan(s[1..])
  }

  /** A word of `s.split()`: a non-empty run without whitespace. */
  predicate IsWord(w: string)
  {
    w != [] && NoSpace(w)
  }

  /** Python's argument-less `s.split()`: the maximal whitespace-free runs of `s`, in order. */
  function Words(s: string): (ws: seq<string>)
    ensures forall i :: 0 <= i < |ws| ==> IsWord(ws[i])
    decreases |s|
  {
    var t := TrimLeft(s);
    if t == [] then []
    else
      var k := NonSpaceSpan(t);
      SpanWord(t);
      var rest := Words(t[k..]);
      PrependAll(t[..k], rest, IsWord);
      [t[..k]] + rest
  }

  /** Putting an element with property `p` before elements with it keeps `p` everywhere. */
  lemma PrependAll<T>(x: T, xs: seq<T>, p: T -> bool)
    requires p(x) && forall i :: 0 <= i < |xs| ==> p(xs[i])
    ensures forall i :: 0 <= i < |[x] + xs| ==> p(([x] + xs)[i])
  {
  }

  /** The whitespace-free run at the front of a text that does not start blank is a non-empty word. */
  lemma SpanWord(t: string)
    requires t != [] && !IsSpace(t[0])
    ensures var k := NonSpaceSpan(t); 0 < k <= |t| && IsWord(t[..k])
  {
    var k := NonSpaceSpan(t);
    assert forall i :: 0 <= i < k ==> t[..k][i] == t[i];
  }

  /** `s.replace(c, "")`: every `c` removed, every other character kept with its multiplicity. */
  function RemoveChar(s: string, c: char): (r: string)
    ensures c !in r
    ensures forall x :: x != c ==> multiset(r)[x] == multiset(s)[x]
    ensures c !in s ==> r == s
  {
    if s == [] then []
    else
      assert s == [s[0]] + s[1..];
      if s[0] == c then RemoveChar(s[1..], c) else [s[0]] + RemoveChar(s[1..], c)
  }

  /** Removing a character distributes over concatenation. */
  lemma {:induction false} RemoveCharConcat(a: string, b: string, c: char)
    ensures RemoveChar(a + b, c) == RemoveChar(a, c) + RemoveChar(b, c)
  {
    if a != [] {
      assert (a + b)[0] == a[0];
      assert (a + b)[1..] == a[1..] + b;
      RemoveCharConcat(a[1..], b, c);
    } else {
      assert a + b == b;
    }
  }

  /** Removing `c` from `a + [c] + b` joins the two sides when neither has a `c`. */
  lemma RemoveCharBetween(a: string, b: string, c: char)
    requires c !in a && c !in b
    ensures RemoveChar(a + [c] + b, c) == a + b
  {
    RemoveCharConcat(a + [c], b, c);
    RemoveCharConcat(a, [c], c);
    RemoveCharSingle(c);
    AppendEmpty(a);
  }

  lemma RemoveCharSingle(c: char)
    ensures RemoveChar([c], c) == []
  {
    assert [c][1..] == [];
  }

  lemma AppendEmpty<T>(xs: seq<T>)
    ensures xs + [] == xs
  {
  }

  /** `re.sub(r'\s+', '', s)`: every whitespace character removed, order kept. */
  function RemoveWhitespace(s: string): (r: string)
    ensures NoSpace(r)
    ensures |r| <= |s|
    ensures forall x :: !IsSpace(x) ==> multiset(r)[x] == multiset(s)[x]
    ensures NoSpace(s) ==> r == s
  {
    if s == [] then []
    else
      assert s == [s[0]] + s[1..];
      if IsSpace(s[0]) then RemoveWhitespace(s[1..]) else [s[0]] + RemoveWhitespace(s[1..])
  }

  /** Removing whitespace from a text that starts with `c` handles `c`, then the rest. */
  lemma RemoveWhitespaceCons(c: char, s: string)
    ensures RemoveWhitespace([c] + s) == (if IsSpace(c) then [] else [c]) + RemoveWhitespace(s)
  {
    assert ([c] + s)[0] == c && ([c] + s)[1..] == s;
  }

  /** Removing whitespace distributes over concatenation, so the kept characters stay in order. */
  lemma {:induction false} RemoveWhitespaceConcat(a: string, b: string)
    ensures RemoveWhitespace(a + b) == RemoveWhitespace(a) + RemoveWhitespace(b)
  {
    if a == [] {
      assert a + b == b;
    } else {
      var c, t := a[0], a[1..];
      assert a == [c] + t;
      assert a + b == [c] + (t + b);
      var x: string := if IsSpace(c) then [] else [c];
      var rt, rb := RemoveWhitespace(t), RemoveWhitespace(b);
      RemoveWhitespaceConcat(t, b);
      RemoveWhitespaceCons(c, t + b);
      RemoveWhitespaceCons(c, t);
      assert RemoveWhitespace(a + b) == x + (rt + rb);
      assert RemoveWhitespace(a) == x + rt;
      ConcatAssoc(x, rt, rb);
    }
  }

  lemma ConcatAssoc<T>(x: seq<T>, y: seq<T>, z: seq<T>)
    ensures x + (y + z) == (x + y) + z
  {
  }

  /** The words of `s.split()`, run together, are `s` without its whitespace. */
  lemma {:induction false} WordsJoin(s: string)
    ensures Join(Words(s), []) == RemoveWhitespace(s)
    decreases |s|
  {
    var t := TrimLeft(s);
    RemoveWhitespaceTrimLeft(s);
    if t != [] {
      var k := NonSpaceSpan(t);
      SpanWord(t);
      RemoveWhitespaceWord(t);
      WordsJoin(t[k..]);
      assert Words(s) == [t[..k]] + Words(t[k..]);
      JoinConsEmpty(t[..k], Words(t[k..]));
    }
  }

  /** Leading whitespace contributes nothing once whitespace is removed. */
  lemma {:induction false} RemoveWhitespaceTrimLeft(s: string)
    ensures RemoveWhitespace(TrimLeft(s)) == RemoveWhitespace(s)
  {
    if s != [] && IsSpace(s[0]) {
      RemoveWhitespaceTrimLeft(s[1..]);
      assert s == [s[0]] + s[1..];
      RemoveWhitespaceCons(s[0], s[1..]);
      assert [] + RemoveWhitespace(s[1..]) == RemoveWhitespace(s[1..]);
    }
  }

  /** The word at the front of `t` is kept whole, ahead of the rest. */
  lemma RemoveWhitespaceWord(t: string)
    requires t != [] && !IsSpace(t[0])
    ensures var k := NonSpaceSpan(t); RemoveWhitespace(t) == t[..k] + RemoveWhitespace(t[k..])
  {
    var k := NonSpaceSpan(t);
    SpanWord(t);
    assert t == t[..k] + t[k..];
    RemoveWhitespaceConcat(t[..k], t[k..]);
  }

  /** Joining with no separator puts the first piece in front of the rest joined. */
  lemma JoinConsEmpty(w: string, rest: seq<string>)
    ensures Join([w] + rest, []) == w + Join(rest, [])
  {
    if rest != [] {
      assert ([w] + rest)[1..] == rest;
    }
  }

  /** `s.replace(a, b)` for single characters. */
  function ReplaceChar(s: string, a: char, b: char): (r: string)
    ensures |r| == |s|
    ensures forall i :: 0 <= i < |s| ==> r[i] == (if s[i] == a then b else s[i])
  {
    if s == [] then [] else [if s[0] == a then b else s[0]] + ReplaceChar(s[1..], a, b)
  }

  /** `s.replace(pat, "")`: occurrences removed left to right without overlap, as Python scans. */
  function RemoveAll(s: string, pat: string): (r: string)
    requires pat != []
    ensures |r| <= |s|
    ensures forall x :: x !in pat ==> multiset(r)[x] == multiset(s)[x]
    decreases |s|
  {
    if StartsWith(s, pat) then
      assert s == s[..|pat|] + s[|pat|..];
      RemoveAll(s[|pat|..], pat)
    else if s == [] then []
    else
      assert s == [s[0]] + s[1..];
      [s[0]] + RemoveAll(s[1..], pat)
  }

  /** A string in which `pat`'s first character never occurs contains no occurrence to remove. */
  lemma {:induction false} RemoveAllAbsent(s: string, pat: string)
    requires pat != [] && pat[0] !in s
    ensures RemoveAll(s, pat) == s
    decreases |s|
  {
    if s != [] {
      assert s[0] != pat[0];
      RemoveAllAbsent(s[1..], pat);
    }
  }

  /** Removing `pat` from `s + pat` when `s` cannot start an occurrence leaves `s`. */
  lemma {:induction false} RemoveAllSuffix(s: string, pat: string)
    requires pat != [] && pat[0] !in s
    ensures RemoveAll(s + pat, pat) == s
    decreases |s|
  {
    if s == [] {
      assert StartsWith(s + pat, pat);
      assert (s + pat)[|pat|..] == [];
    } else {
      assert (s + pat)[0] == s[0] != pat[0];
      assert (s + pat)[1..] == s[1..] + pat;
      RemoveAllSuffix(s[1..], pat);
    }
  }
}

=== FILE: validation.dfy ===
/**
 * The schema reconciler of `src/data_validation.py`: it diffs an extracted record's keys
 * against the template's keys, fills the missing ones with the template's defaults, renames
 * misspelled ones onto the template key they resemble and deletes the rest.
 */
module Validation {
  import opened Wrappers
  import opened Order
  import opened Json
  import Config

  /** A flat JSON object: field name to value. */
  type Record = map<string, Value>

  /**
   * `difflib.get_close_matches(word, possibilities, n=1, cutoff=...)`, reduced to its first
   * answer: the closest possibility whose similarity reaches the cutoff, or nothing.
   */
  type Matcher = (string, set<string>, real) -> Option<string>

  /** The only fact relied upon about the similarity oracle: it answers with one of the possibilities. */
  ghost predicate WellBehaved(closest: Matcher)
  {
    forall word, possibilities, cutoff ::
      closest(word, possibilities, cutoff).Some? ==> closest(word, possibilities, cutoff).value in possibilities
  }

  /** `get_keys`: the top-level keys of a loaded object, or no keys when loading failed. */
  function GetKeys(data: Option<Record>): (keys: set<string>)
    ensures data.None? ==> keys == {}
    ensures data.Some? ==> keys == data.value.Keys
  {
    match data
    case None => {}
    case Some(d) => d.Keys
  }

  /** `find_similar_keys`: each key that the oracle matches to a different template key, mapped to that key. */
  function FindSimilarKeys(templateKeys: set<string>, keys: set<string>, closest: Matcher): (similar: map<string, string>)
    requires WellBehaved(closest)
    ensures similar.Keys <= keys
    ensures forall k :: k in similar ==> similar[k] in templateKeys && similar[k] != k
    ensures forall k :: k in keys ==>
      (k in similar <==> closest(k, templateKeys, Config.SimilarityCutoff).Some?
                         && closest(k, templateKeys, Config.SimilarityCutoff).value != k)
  {
    map k | k in keys && closest(k, templateKeys, Config.SimilarityCutoff).Some?
                      && closest(k, templateKeys, Config.SimilarityCutoff).value != k
          :: closest(k, templateKeys, Config.SimilarityCutoff).value
  }

  /** The three-way key diff that `check_and_fix` acts on. */
  datatype Plan = Plan(missing: set<string>, renames: map<string, string>, deletions: set<string>)

  function Diff(templateKeys: set<string>, extractedKeys: set<string>, closest: Matcher): (p: Plan)
    requires WellBehaved(closest)
    ensures p.missing == templateKeys - extractedKeys
    ensures p.renames.Keys + p.deletions == extractedKeys - templateKeys
    ensures p.renames.Keys !! p.deletions
    ensures forall w :: w in p.renames ==> p.renames[w] in templateKeys && p.renames[w] != w
  {
    var extra := extractedKeys - templateKeys;
    var similar := FindSimilarKeys(templateKeys, extra, closest);
    Plan(templateKeys - extractedKeys, similar, extra - similar.Keys)
  }

  /** Step one of the repair: every missing key receives the template's value for it. */
  function FillMissing(rec: Record, template: Record, missing: set<string>): (r: Record)
    requires missing <= template.Keys
    ensures r.Keys == rec.Keys + missing
    ensures forall k :: k in missing ==> r[k] == template[k]
    ensures forall k :: k in rec && k !in missing ==> r[k] == rec[k]
  {
    map k | k in rec.Keys + missing :: if k in missing then template[k] else rec[k]
  }

  /**
   * Step two: `for wrong, correct in sorted(renames.items()): rec[correct] = rec.pop(wrong)`,
   * walking the wrong keys in the order given.
   */
  function ApplyRenames(rec: Record, wrongKeys: seq<string>, renames: map<string, string>): Record
    requires forall i :: 0 <= i < |wrongKeys| ==> wrongKeys[i] in renames
    decreases |wrongKeys|
  {
    if wrongKeys == [] then rec
    else
      var w := wrongKeys[0];
      var next := if w in rec then (rec - {w})[renames[w] := rec[w]] else rec;
      ApplyRenames(next, wrongKeys[1..], renames)
  }

  /** `w` is renamed onto `k`, and no wrong key later in sorted order is. */
  ghost predicate LastRenamedOnto(w: string, k: string, wrongKeys: seq<string>, renames: map<string, string>)
  {
    && w in wrongKeys && w in renames && renames[w] == k
    && forall v :: v in wrongKeys && v in renames && renames[v] == k ==> !Less(w, v)
  }

  /** Some wrong key in `wrongKeys` is renamed onto `k`. */
  ghost predicate RenamedOnto(k: string, wrongKeys: seq<string>, renames: map<string, string>)
  {
    exists w :: w in wrongKeys && w in renames && renames[w] == k
  }

  /**
   * The situation of `check_and_fix`'s rename walk: sorted wrong keys, each present in the
   * record and renamed onto a key that is not itself a wrong key.
   */
  ghost predicate RenameWalk(rec: Record, wrongKeys: seq<string>, renames: map<string, string>)
  {
    && StrictlySorted(wrongKeys)
    && (forall i :: 0 <= i < |wrongKeys| ==> wrongKeys[i] in renames && wrongKeys[i] in rec)
    && (forall i :: 0 <= i < |wrongKeys| ==> renames[wrongKeys[i]] !in wrongKeys)
  }

  /** One step of the walk leaves the situation of the rest of the walk intact. */
  lemma RenameWalkStep(rec: Record, wrongKeys: seq<string>, renames: map<string, string>)
    requires RenameWalk(rec, wrongKeys, renames) && wrongKeys != []
    ensures RenameWalk((rec - {wrongKeys[0]})[renames[wrongKeys[0]] := rec[wrongKeys[0]]], wrongKeys[1..], renames)
    ensures forall v :: v in wrongKeys[1..] ==> Less(wrongKeys[0], v)
  {
    var tail := wrongKeys[1..];
    forall v | v in tail ensures Less(wrongKeys[0], v) {
      var j :| 0 <= j < |tail| && tail[j] == v;
      assert wrongKeys[j + 1] == v;
    }
    LessIsStrictTotalOrder();
  }

  /** After the walk, a key is present iff it was present and not a wrong key, or something was renamed onto it. */
  lemma {:induction false} ApplyRenamesKeys(rec: Record, wrongKeys: seq<string>, renames: map<string, string>, k: string)
    requires RenameWalk(rec, wrongKeys, renames)
    ensures k in ApplyRenames(rec, wrongKeys, renames) <==>
              (k in rec && k !in wrongKeys) || RenamedOnto(k, wrongKeys, renames)
    decreases |wrongKeys|
  {
    if wrongKeys != [] {
      var w0 := wrongKeys[0];
      var next := (rec - {w0})[renames[w0] := rec[w0]];
      RenameWalkStep(rec, wrongKeys, renames);
      ApplyRenamesKeys(next, wrongKeys[1..], renames, k);
      assert wrongKeys == [w0] + wrongKeys[1..];
      if RenamedOnto(k, wrongKeys, renames) && !RenamedOnto(k, wrongKeys[1..], renames) {
        assert k == renames[w0];
      }
    }
  }

  /** After the walk, a rename target holds the value of the greatest wrong key renamed onto it. */
  lemma {:induction false} ApplyRenamesLastWins(rec: Record, wrongKeys: seq<string>, renames: map<string, string>, k: string, w: string)
    requires RenameWalk(rec, wrongKeys, renames)
    requires LastRenamedOnto(w, k, wrongKeys, renames)
    ensures k in ApplyRenames(rec, wrongKeys, renames)
    ensures ApplyRenames(rec, wrongKeys, renames)[k] == rec[w]
    decreases |wrongKeys|
  {
    var w0 := wrongKeys[0];
    var tail := wrongKeys[1..];
    var next := (rec - {w0})[renames[w0] := rec[w0]];
    RenameWalkStep(rec, wrongKeys, renames);
    assert wrongKeys == [w0] + tail;
    if w == w0 {
      LessIsStrictTotalOrder();
      assert !RenamedOnto(k, tail, renames);
      ApplyRenamesKeys(next, tail, renames, k);
      ApplyRenamesUntouched(next, tail, renames, k);
    } else {
      assert LastRenamedOnto(w, k, tail, renames);
      ApplyRenamesLastWins(next, tail, renames, k, w);
    }
  }

  /** After the walk, a key that is neither a wrong key nor a rename target keeps its value. */
  lemma {:induction false} ApplyRenamesUntouched(rec: Record, wrongKeys: seq<string>, renames: map<string, string>, k: string)
    requires RenameWalk(rec, wrongKeys, renames)
    requires k in rec && k !in wrongKeys && !RenamedOnto(k, wrongKeys, renames)
    ensures k in ApplyRenames(rec, wrongKeys, renames)
    ensures ApplyRenames(rec, wrongKeys, renames)[k] == rec[k]
    decreases |wrongKeys|
  {
    if wrongKeys != [] {
      var w0 := wrongKeys[0];
      var next := (rec - {w0})[renames[w0] := rec[w0]];
      RenameWalkStep(rec, wrongKeys, renames);
      assert wrongKeys == [w0] + wrongKeys[1..];
      ApplyRenamesUntouched(next, wrongKeys[1..], renames, k);
    }
  }

  /** What `check_and_fix` computes from the two loaded objects: the diff and the repaired record. */
  datatype Outcome = Outcome(plan: Plan, repaired: Record)

  /** The three repair steps of `check_and_fix`, in its order: fill, rename in sorted order, delete. */
  function Repair(template: Record, extracted: Record, plan: Plan): Record
    requires plan.missing <= template.Keys
  {
    var filled := FillMissing(extracted, template, plan.missing);
    var wrongKeys := SortedElements(plan.renames.Keys);
    ApplyRenames(filled, wrongKeys, plan.renames) - plan.deletions
  }

  /** The plan's renames, walked in sorted order over the filled record, meet the walk's situation. */
  lemma DiffRenameWalk(template: Record, extracted: Record, closest: Matcher)
    requires WellBehaved(closest)
    ensures var plan := Diff(template.Keys, extracted.Keys, closest);
            RenameWalk(FillMissing(extracted, template, plan.missing), SortedElements(plan.renames.Keys), plan.renames)
  {
    var plan := Diff(template.Keys, extracted.Keys, closest);
    var filled := FillMissing(extracted, template, plan.missing);
    var wrongKeys := SortedElements(plan.renames.Keys);
    forall i | 0 <= i < |wrongKeys| ensures wrongKeys[i] in plan.renames && wrongKeys[i] in filled {
      assert wrongKeys[i] in wrongKeys;
    }
    forall i | 0 <= i < |wrongKeys| ensures plan.renames[wrongKeys[i]] !in wrongKeys {
      assert wrongKeys[i] in wrongKeys;
      assert plan.renames[wrongKeys[i]] in template;
    }
  }

  /** One key at a time: it survives the repair iff the template has it. */
  lemma RepairKey(template: Record, extracted: Record, closest: Matcher, k: string)
    requires WellBehaved(closest)
    ensures k in Repair(template, extracted, Diff(template.Keys, extracted.Keys, closest)) <==> k in template
  {
    var plan := Diff(template.Keys, extracted.Keys, closest);
    var filled := FillMissing(extracted, template, plan.missing);
    var wrongKeys := SortedElements(plan.renames.Keys);
    DiffRenameWalk(template, extracted, closest);
    ApplyRenamesKeys(filled, wrongKeys, plan.renames, k);
  }

  /** The repaired record has exactly the template's keys. */
  lemma RepairKeys(template: Record, extracted: Record, closest: Matcher)
    requires WellBehaved(closest)
    ensures Repair(template, extracted, Diff(template.Keys, extracted.Keys, closest)).Keys == template.Keys
  {
    forall k ensures k in Repair(template, extracted, Diff(template.Keys, extracted.Keys, closest)) <==> k in template {
      RepairKey(template, extracted, closest, k);
    }
  }

  function Reconcile(template: Record, extracted: Record, closest: Matcher): (o: Outcome)
    requires WellBehaved(closest)
    ensures o.plan == Diff(template.Keys, extracted.Keys, closest)
    ensures o.repaired.Keys == template.Keys
  {
    var plan := Diff(template.Keys, extracted.Keys, closest);
    RepairKeys(template, extracted, closest);
    Outcome(plan, Repair(template, extracted, plan))
  }

  /** The wrong keys that the plan renames onto `k`. */
  function RenamedFrom(renames: map<string, string>, k: string): (ws: set<string>)
    ensures forall w :: w in ws <==> w in renames && renames[w] == k
  {
    set w | w in renames && renames[w] == k
  }

  /** Whenever some wrong key is renamed onto `k`, a greatest such key exists: the one whose value wins. */
  lemma WinnerExists(renames: map<string, string>, k: string)
    requires RenamedFrom(renames, k) != {}
    ensures exists w :: IsGreatest(w, RenamedFrom(renames, k))
  {
    GreatestExists(RenamedFrom(renames, k));
  }

  /**
   * The value of every template key in the repaired record: the value of the greatest wrong
   * key renamed onto it if any (a rename overwrites both a filled default and a value already
   * present), otherwise the record's own value if it had the key, otherwise the template default.
   */
  lemma {:induction false} ReconcileValue(template: Record, extracted: Record, closest: Matcher, k: string)
    requires WellBehaved(closest)
    requires k in template
    ensures var o := Reconcile(template, extracted, closest);
            var onto := RenamedFrom(o.plan.renames, k);
            && (onto == {} && k !in extracted ==> o.repaired[k] == template[k])
            && (onto == {} && k in extracted ==> o.repaired[k] == extracted[k])
            && (forall w :: IsGreatest(w, onto) ==> o.repaired[k] == extracted[w])
  {
    var plan := Diff(template.Keys, extracted.Keys, closest);
    var filled := FillMissing(extracted, template, plan.missing);
    var wrongKeys := SortedElements(plan.renames.Keys);
    var onto := RenamedFrom(plan.renames, k);
    DiffRenameWalk(template, extracted, closest);
    assert k !in wrongKeys && k !in plan.deletions;
    if onto == {} {
      assert !RenamedOnto(k, wrongKeys, plan.renames);
      ApplyRenamesUntouched(filled, wrongKeys, plan.renames, k);
    }
    forall w | IsGreatest(w, onto) ensures Reconcile(template, extracted, closest).repaired[k] == extracted[w] {
      assert LastRenamedOnto(w, k, wrongKeys, plan.renames);
      ApplyRenamesLastWins(filled, wrongKeys, plan.renames, k, w);
    }
  }

  /** A record whose keys already equal the template's comes back unchanged. */
  lemma ReconcileConforming(template: Record, extracted: Record, closest: Matcher)
    requires WellBehaved(closest)
    requires extracted.Keys == template.Keys
    ensures Reconcile(template, extracted, closest).repaired == extracted
  {
    var plan := Diff(template.Keys, extracted.Keys, closest);
    assert plan.renames == map[];
    assert SortedElements(plan.renames.Keys) == [];
    assert FillMissing(extracted, template, plan.missing) == extracted;
  }

  /**
   * `check_and_fix` with its file I/O reduced to its inputs and output: `None` for a JSON file
   * that failed to load, and the record it would write, or `None` for its `False` return.
   */
  function CheckAndFix(template: Option<Record>, extracted: Option<Record>, closest: Matcher): (r: Option<Record>)
    requires WellBehaved(closest)
    ensures r.Some? <==> template.Some? && extracted.Some?
    ensures r.Some? ==> r.value.Keys == template.value.Keys
  {
    if template.None? || extracted.None? then None
    else Some(Reconcile(template.value, extracted.value, closest).repaired)
  }

  /** Repairing an already repaired record changes nothing. */
  lemma CheckAndFixIdempotent(template: Option<Record>, extracted: Option<Record>, closest: Matcher)
    requires WellBehaved(closest)
    requires CheckAndFix(template, extracted, closest).Some?
    ensures CheckAndFix(template, CheckAndFix(template, extracted, closest), closest)
            == CheckAndFix(template, extracted, closest)
  {
    ReconcileConforming(template.value, CheckAndFix(template, extracted, closest).value, closest);
  }
}

=== FILE: workflow.dfy ===
/**
 * The two pieces of `src/main.py`'s orchestration that carry logic of their
 * own: the command line handed to each pipeline script, and the tally of
 * reports that succeeded and failed.  Running the scripts is not modelled;
 * each report's outcome is an input.
 */
module Workflow {
  import opened Wrappers

  /** The optional argument as the list it contributes: nothing for `None`. */
  function Listed(arg: Option<string>): (r: seq<string>)
    ensures arg.None? <==> r == []
    ensures arg.Some? ==> r == [arg.value]
  {
    if arg.Some? then [arg.value] else []
  }

  /**
   * `run_script`'s command (lines 131-136): the interpreter, the script path,
   * the dataset and the report, then `arg1` and `arg2`, each only when given.
   */
  function RunScriptArgv(python: string, script: string, dataset: string, reportId: string,
                         arg1: Option<string>, arg2: Option<string>): (argv: seq<string>)
    ensures |argv| == 4 + |Listed(arg1)| + |Listed(arg2)|
    ensures argv[..4] == [python, script, dataset, reportId]
    ensures argv[4..] == Listed(arg1) + Listed(arg2)
  {
    var argv := [python, script, dataset, reportId] + Listed(arg1) + Listed(arg2);
    assert argv[4..] == Listed(arg1) + Listed(arg2);
    argv
  }

  /**
   * The arguments are positional, so a script reading its fifth argument as
   * `arg1` receives `arg2` when only `arg2` is given.
   */
  lemma SecondArgumentShifts(python: string, script: string, dataset: string, reportId: string, a: string)
    ensures var argv := RunScriptArgv(python, script, dataset, reportId, None, Some(a));
            |argv| == 5 && argv[4] == a
  {
    var argv := RunScriptArgv(python, script, dataset, reportId, None, Some(a));
    assert argv[4..] == [a];
  }

  /** How many outcomes are successes. */
  function Succeeded(outcomes: seq<bool>): (n: nat)
    ensures n <= |outcomes|
  {
    if outcomes == [] then 0
    else Succeeded(outcomes[..|outcomes| - 1]) + (if outcomes[|outcomes| - 1] then 1 else 0)
  }

  /** How many outcomes are failures. */
  function Failed(outcomes: seq<bool>): (n: nat)
    ensures n <= |outcomes|
  {
    if outcomes == [] then 0
    else Failed(outcomes[..|outcomes| - 1]) + (if outcomes[|outcomes| - 1] then 0 else 1)
  }

  /** Every outcome is a success or a failure, never both. */
  lemma {:induction false} SucceededPlusFailed(outcomes: seq<bool>)
    ensures Succeeded(outcomes) + Failed(outcomes) == |outcomes|
  {
    if outcomes != [] {
      SucceededPlusFailed(outcomes[..|outcomes| - 1]);
    }
  }

  /** The outcomes of a run split into two parts count as the two parts together. */
  lemma {:induction false} SucceededAppend(a: seq<bool>, b: seq<bool>)
    ensures Succeeded(a + b) == Succeeded(a) + Succeeded(b)
    decreases |b|
  {
    if b != [] {
      var b' := b[..|b| - 1];
      assert (a + b)[..|a + b| - 1] == a + b';
      SucceededAppend(a, b');
    } else {
      assert a + b == a;
    }
  }

  /** The line `run_main_workflow` prints at the end. */
  datatype Summary = Summary(total: nat, successful: nat, failed: nat)

  /**
   * `run_main_workflow` (lines 315-339): with no reports it stops at once;
   * otherwise it processes the reports in order and counts each outcome as a
   * success or a failure.  `outcomes[i]` is what `process_report` returned
   * for `reportIds[i]`.
   */
  method RunMainWorkflow(reportIds: seq<string>, outcomes: seq<bool>) returns (summary: Option<Summary>)
    requires |outcomes| == |reportIds|
    ensures summary.None? <==> reportIds == []
    ensures summary.Some? ==> summary.value.total == |reportIds|
    ensures summary.Some? ==> summary.value.successful == Succeeded(outcomes)
    ensures summary.Some? ==> summary.value.failed == Failed(outcomes)
    ensures summary.Some? ==> summary.value.successful + summary.value.failed == summary.value.total
  {
    var total := |reportIds|;
    if total == 0 {
      return None;
    }
    var success, failure := 0, 0;
    var i := 0;
    while i < total
      invariant 0 <= i <= total
      invariant success == Succeeded(outcomes[..i])
      invariant failure == Failed(outcomes[..i])
    {
      assert outcomes[..i + 1][..i] == outcomes[..i];
      if outcomes[i] {
        success := success + 1;
      } else {
        failure := failure + 1;
      }
      i := i + 1;
    }
    assert outcomes[..total] == outcomes;
    SucceededPlusFailed(outcomes);
    return Some(Summary(total, success, failure));
  }
}

=== FILE: wrappers.dfy ===
/** Failure-carrying datatypes shared by every module of the model. */
module Wrappers {

  /** Python's `None` or a present value. */
  datatype Option<+T> = None | Some(value: T) {

    /** The present value, or `default` when there is none (Python's `x if x is not None else d`). */
    function GetOr(default: T): T {
      match this
      case Some(v) => v
      case None => default
    }
  }

  /** A successful value, or the error a Python function would raise or report. */
  datatype Result<+T, +E> = Ok(value: T) | Err(error: E)
}
